=== FILE: README.md ===
# Candidate search ranking and query shaping, in Dafny

A model of the deterministic core of a candidate search backend. A recruiter
types a position title and a job description, usually in Mongolian. The
backend translates them to English and builds a structured text for the
embedder and a keyword query for the lexical index. It runs a three-tier
lexical search (exact title matches, then relevant, then similar matches).
It optionally fuses those rows with vector-search rows under per-tier weights,
then groups the experience rows per candidate, scores and ranks the
candidates.

The modules follow the program's files:

| module | file | what it holds |
|---|---|---|
| `Wrappers` | — | `Option` |
| `Text` | — | Python string operations: `strip`, `lower`, `split`, `join`, `in`, `find`, `replace` |
| `Ordering` | — | Python's stable `sort(reverse=True)` as an insertion sort, `xs[:n]`, counting |
| `Grouping` | — | grouping rows per key in first-appearance order (dict insertion order) |
| `Rows` | — | the row dictionary as a datatype, tier labels, `min(es / 10000, 1)` |
| `Helpers` | `backend/utils/helpers.py` | the experience multiplier |
| `Scorer` | `backend/search/candidate_scorer.py` | tier and legacy scoring, aggregation, threshold, ranking |
| `PriorityLayers` | `backend/search/elasticsearch_service.py` | the three-tier lexical search |
| `Hybrid` | `backend/search/elasticsearch_search.py` | search dispatch, lexical/vector fusion, enrichment |
| `QueryProcessor` | `backend/search/query_processor.py` | structured text, title cleaning, key terms, `process_query` |
| `Translator` | `backend/translation/translator.py` | cache key, memory cache, input cleaning, validity check, `translate_mongolian_to_english` |

Everything foreign is a parameter:
- the search engine is three fetch functions, one per tier query;
- the vector store is one function;
- candidate details are a map;
- the translation API, the database cache, the embedder and the reducer are oracles;
- the clock is a number `now`.

Each returns `None` where the Python call raised. Floating-point numbers are
modelled as exact reals. A Python dict row is a `Row` with one optional field
per key.

Behaviour worth knowing, modelled as the code has it:
- `_clean_position_title` strips punctuation, `:` included, from the ends of each word before comparing it with the noise words. So the noise words `"position:"`, `"role:"`, `"job:"` and `"title:"` can never match, and "Position: Data Engineer" cleans to "position data engineer" (`QueryProcessor.ColonNoiseWordsInert`, `QueryProcessor.LabelWordKept`).
- The tier-mode candidate score adds a tenth of the combined scores at list positions 1 and 2, whichever experiences those are, not the two runners-up after the best. When the best experience sits at position 1 or 2 it is counted a second time (`Scorer.CandidateScorePositions`, `Scorer.BestCountedTwice`).
- Enrichment merges the candidate details over the row with `{**result, **details}`. A detail key named `id` therefore replaces the experience id (`Hybrid.EnrichRow` states that with details the id becomes the candidate id, and that without details it is kept).
- The translator looks up its memory and database caches with the stripped text. It stores a new translation under the truncated, cleaned text. When the cleaned text has a different key from the stripped text, a translation made with nothing cached is not found in memory on the next lookup of the same text (`Translator.UncachedStaysUncached`, built on `Translator.TranslateUncached` and `Translator.GetOtherAfterPut`).
- `_is_valid_translation` divides by the cleaned original's length. An empty original raises `ZeroDivisionError`, which the caller's `except` turns into "return the input". `Translator.IsValidTranslation` returns `None` for that case.
- The lexical service and the translator guess "English" differently. The service also rejects Cyrillic letters, and it calls an empty text English while the translator does not (`Translator.EnglishGuessesCompared`).

## Model

| member | source | states |
|---|---|---|
| Helpers.ExperienceMultiplier | backend/utils/helpers.py:1-13 | the multiplier lies in [1, 2]: 1 for at most one year, 2 beyond five years, and otherwise 1 + 0.2 per year edge passed |
| Helpers.MultiplierMonotone | backend/utils/helpers.py:1-13 | more years never give a smaller multiplier |
| Helpers.MultiplierUpperEdges | backend/utils/helpers.py:3-13 | the comparisons are `<=`: exactly 2, 3, 4 and 5 years give 1.2, 1.4, 1.6 and 1.8, and negative years give 1 |
| Scorer.ExperienceYears | backend/search/candidate_scorer.py:232-254 | years are days / 365.25 for a non-negative span and 0 otherwise, never negative |
| Scorer.TierPriorityRanks | backend/search/candidate_scorer.py:79-89 | the priority map ranks exact over relevant over similar over semantic-only, and any other or missing tier falls back to the lowest weight, 1000 |
| Scorer.TierScore | backend/search/candidate_scorer.py:178-204 | for a non-negative lexical score, an exact row scores in [130, 160 + es·0.016], a relevant row in [12, 14 + es·0.0014], any other in [1.1, 1.2 + es·0.00012] |
| Scorer.TierExperienceBounded | backend/search/candidate_scorer.py:178-204 | with a lexical score up to 100000, an exact experience scores at least 130 and any other at most 154 |
| Scorer.LegacyCombinedBounds | backend/search/candidate_scorer.py:313-327 | for non-negative weights, a similarity in [0, 1] and a non-negative lexical score, a legacy experience score lies between 0 and keyword weight + semantic weight |
| Scorer.BestIndex | backend/search/candidate_scorer.py:212-213 | `max` picks an experience with the highest combined score, the first such one |
| Scorer.CandidateFinalScore | backend/search/candidate_scorer.py:206-230 | no experiences give 0; when no combined score is negative, the score lies between bonus + best and bonus + 1.2·best, where the bonus is 1000 exactly when the best experience is exact |
| Scorer.ExactBonusIff | backend/search/candidate_scorer.py:215-221 | when every experience's combined score lies in its tier's range (at least 130 for exact, at most 154 otherwise, never negative), a candidate scores at least 1000 if and only if their best experience is an exact match |
| Scorer.CandidateScorePositions | backend/search/candidate_scorer.py:206-230 | the score is the bonus plus the best score plus a tenth of the combined scores at list positions 1 and 2, whichever experiences sit there, so the best experience counts twice when it is at position 1 or 2 |
| Scorer.CandidateScoreIgnoresLater | backend/search/candidate_scorer.py:224-228 | experiences after position 2 that do not beat the best change nothing |
| Scorer.BestCountedTwice | backend/search/candidate_scorer.py:211-228 | when the best experience is at position 1 or 2 and scores are non-negative, it adds a further tenth of its own score |
| Scorer.WeightedSumBounds | backend/search/candidate_scorer.py:343-350 | when no experience score is negative, the legacy candidate score lies between the sum and twice the sum of the qualifying experience scores |
| Scorer.AboveThreshold | backend/search/candidate_scorer.py:152-155 | an experience is kept if and only if its score is strictly above the threshold |
| Scorer.MakeCandidate | backend/search/candidate_scorer.py:146-166 | a candidate is produced if and only if one of their rows scores above the threshold, with the first row's contact details and exactly the experiences above the threshold |
| Scorer.QualifyingIff | backend/search/candidate_scorer.py:99-166 | grouping all rows of a candidate id and scoring them yields a candidate if and only if some row of that id scores above the threshold |
| Scorer.PoolIff | backend/search/candidate_scorer.py:99-166 | a candidate is in the unsorted pool if and only if it is what all rows of its id make on their own |
| Scorer.Pool | backend/search/candidate_scorer.py:96-166 | the pool never repeats a candidate id and has at most one candidate per row |
| Scorer.PoolHasId | backend/search/candidate_scorer.py:96-166 | some pooled candidate has id k if and only if some row of id k scores above the threshold |
| Scorer.Rank | backend/search/candidate_scorer.py:168-171 | at most `limit` candidates, by non-increasing final score |
| Scorer.RankDistinct | backend/search/candidate_scorer.py:168-171 | the ranking never lists a candidate twice |
| Scorer.RankSound | backend/search/candidate_scorer.py:96-171 | every ranked candidate is exactly what the rows of its id make |
| Scorer.RankComplete | backend/search/candidate_scorer.py:168-171 | a qualifying candidate is left out only when the list is full of candidates scoring at least as much |
| Scorer.RankKeepsPool | backend/search/candidate_scorer.py:168-171 | with no more rows than the limit, the ranking holds exactly the pooled candidates |
| Scorer.RankExactFirst | backend/search/candidate_scorer.py:206-230 | when every lexical score is between 0 and 100000, in tier mode a candidate whose best experience is exact is never ranked below one whose best is not |
| Scorer.ScoreAndRank | backend/search/candidate_scorer.py:48-69 | the response has at most `limit` candidates by non-increasing final score |
| Scorer.ScoreAndRankReturns | backend/search/candidate_scorer.py:48-171 | within the limit, a candidate id is returned if and only if one of its rows scores above the threshold in the chosen mode |
| Scorer.ModeFromFirstFive | backend/search/candidate_scorer.py:57 | the scoring mode depends only on the first five rows |
| Scorer.HasRowAbovePermutation | backend/search/candidate_scorer.py:88-91 | reordering the rows before grouping does not change which candidate ids qualify |
| Scorer.CandidatesOfDistinct | backend/search/candidate_scorer.py:157-166 | one candidate per group, so distinct group keys give distinct candidate ids |
| Grouping.GroupByFaithful | backend/search/candidate_scorer.py:99-144 | grouping yields one bucket per key present, in first-appearance order, holding exactly that key's rows in input order |
| Grouping.AddTo | backend/search/candidate_scorer.py:138-144 | appending to a known key extends that bucket only, and a new key gets a new bucket at the end |
| Grouping.AddToFaithful | backend/search/candidate_scorer.py:138-144 | adding one row keeps the buckets a faithful grouping of the rows so far |
| Grouping.AddToOrder | backend/search/candidate_scorer.py:124-144 | adding one row keeps the buckets in the order their keys first appear |
| Ordering.SortDesc | backend/search/candidate_scorer.py:170 | the descending sort is a permutation and is ordered |
| Ordering.SortDescStable | backend/search/candidate_scorer.py:170 | elements with equal keys keep their input order |
| Ordering.SortDescDistinct | backend/search/elasticsearch_service.py:165 | sorting keeps a list free of duplicate ids |
| Ordering.Prefix | backend/search/candidate_scorer.py:171 | `xs[:n]` has min(n, len) elements for n ≥ 0 and drops −n from the end for n < 0, and it is a prefix |
| Ordering.PrefixSorted | backend/search/elasticsearch_service.py:165-167 | a prefix of a sorted list is sorted and takes nothing new |
| Ordering.CountWherePermutation | backend/search/elasticsearch_search.py:202 | counting rows with a property is unchanged by sorting |
| PriorityLayers.QualityBand | backend/search/elasticsearch_service.py:259-264 | perfect iff score ≥ 90, fuzzy iff 60 ≤ score < 90, partial iff score < 60 |
| PriorityLayers.DedupFrom | backend/search/elasticsearch_service.py:250-274 | the kept hits are input hits with pairwise distinct document ids |
| PriorityLayers.DedupKeepsFirst | backend/search/elasticsearch_service.py:250-274 | the first hit of every document id is kept |
| PriorityLayers.DedupOnlyFirst | backend/search/elasticsearch_service.py:250-274 | only first hits of their document id are kept |
| PriorityLayers.DedupCoversIds | backend/search/elasticsearch_service.py:250-274 | every document id present keeps one hit |
| PriorityLayers.ExactMatches | backend/search/elasticsearch_service.py:178-278 | none when the query raised; otherwise the first min(20, n) hits of the deduplicated list, in order, each as an exact row with its quality band, where n counts the distinct ids |
| PriorityLayers.ExactMatchesSound | backend/search/elasticsearch_service.py:250-274 | every exact row comes from the first hit of its document id |
| PriorityLayers.ExactMatchesComplete | backend/search/elasticsearch_service.py:250-274 | the first hit of an id is returned whenever fewer than 20 distinct ids come before it |
| PriorityLayers.FillLayers | backend/search/elasticsearch_service.py:122-144 | the relevant tier is asked for limit − exact rows, excluding the exact ids, only when exact matches are below the limit; the similar tier is asked for the rest, excluding the ids of both, only when both are below it; a tier not asked stays empty |
| PriorityLayers.FillLayersQuota | backend/search/elasticsearch_service.py:122-144 | with tier queries that honour size and exclusions, the tiers total at most the limit (or the exact count if larger) and never repeat an id of an earlier tier |
| PriorityLayers.TierMatches | backend/search/elasticsearch_service.py:280-423 | a relevant or similar query that raises gives no rows; otherwise one row per returned hit, in order |
| PriorityLayers.Tagged | backend/search/elasticsearch_service.py:149-162 | exact rows first, then relevant, then similar, each block in its own order and each row tagged with its tier label and matching priority |
| PriorityLayers.IsLikelyEnglish | backend/search/elasticsearch_service.py:425-434 | a non-empty text is English if and only if it has no Cyrillic letter and more than 80% ASCII characters; an empty text counts as English |
| PriorityLayers.EnglishQuery | backend/search/elasticsearch_service.py:105-117 | without a translator or for English text the query is the stripped lower-cased text, otherwise the lower-cased translation |
| PriorityLayers.RankLayers | backend/search/elasticsearch_service.py:165-167 | min(limit, n) tagged rows for a non-negative limit, sorted by (priority, score), a sub-multiset of the input |
| PriorityLayers.RankLayersComplete | backend/search/elasticsearch_service.py:165-167 | truncation keeps the top: an input row left out is matched or beaten by every row kept, and then exactly `limit` rows are kept |
| PriorityLayers.RankLayersWithinLimit | backend/search/elasticsearch_service.py:165-167 | when everything fits, nothing is dropped |
| PriorityLayers.SearchWithPriorityLayers | backend/search/elasticsearch_service.py:99-176 | the rows are drawn from the tagged tier rows for the English form of the query, min(limit, total) of them for a non-negative limit, tagged, in (priority, score) order; a tier row left out is matched or beaten by every row returned |
| PriorityLayers.TierOrder | backend/search/elasticsearch_service.py:149-167 | no relevant or similar row precedes an exact row, and no similar row precedes a relevant row |
| PriorityLayers.FillLayersWithinLimit | backend/search/elasticsearch_service.py:122-144 | when the relevant and similar tier queries return no more hits than their requested size and the limit is at least 20, the three tiers together hold at most `limit` rows |
| PriorityLayers.NothingDroppedWithinLimit | backend/search/elasticsearch_service.py:122-167 | when the relevant and similar tier queries return no more hits than their requested size (whatever ids they return) and the limit is at least 20, the result is a reordering of all tagged tier rows, so none is dropped |
| PriorityLayers.ExactHitReturned | backend/search/elasticsearch_service.py:99-278 | with a limit of at least 20 and relevant and similar tier queries that return no more hits than their requested size, the first hit of an id among the first 20 distinct ids comes back as a tagged exact row |
| PriorityLayers.AllFailuresGiveNothing | backend/search/elasticsearch_service.py:174-176 | when every tier query raises, the search returns no rows |
| Hybrid.Search | backend/search/elasticsearch_search.py:36-52 | `semantic_only` and `hybrid` go to their paths, and every other method goes to the lexical-only path; never more than `limit` rows |
| Hybrid.SemanticOnlySearch | backend/search/elasticsearch_search.py:78-99 | no embedding or a failing vector store gives no rows; otherwise the first min(limit, n) vector rows, in order, each marked `semantic` with lexical score 0 and priority 50000 and otherwise unchanged |
| Hybrid.EnrichTop | backend/search/elasticsearch_search.py:59-76 | the lexical-only path returns the first `limit` lexical rows, each enriched, and nothing for no rows |
| Hybrid.Enrich | backend/search/elasticsearch_search.py:215-251 | one enriched row per input row, in order |
| Hybrid.ElasticsearchOnlySearch | backend/search/elasticsearch_search.py:59-76 | never more than `limit` rows |
| Hybrid.ElasticsearchOnlyRows | backend/search/elasticsearch_search.py:59-76 | the lexical-only path returns, for a non-negative limit, the first min(limit, n) rows of the tiered search run at twice the limit, each enriched, where n is that search's row count |
| Hybrid.EnrichRow | backend/search/elasticsearch_search.py:229-251 | enrichment sets the normalised and raw keyword scores, takes the contact details and the candidate id as `id` from the lookup when present, keeps id and contact otherwise, and changes no other field |
| Hybrid.WeightsFor | backend/search/elasticsearch_search.py:147-167 | exact rows weigh 0.9/0.1 at priority 10^6, relevant rows 0.5/0.5 at 10^5, all others 0.1/0.9 at 10^4; the two weights sum to 1 |
| Hybrid.FusedRow | backend/search/elasticsearch_search.py:146-177 | a fused row keeps id, candidate and tier, records both components, takes the priority and the lexical/semantic weights of its own tier label, and its final score is priority + weighted combined score |
| Hybrid.FusedRowShape | backend/search/elasticsearch_search.py:146-177 | with scores in range, a fused row's combined score is in [0, 1] and its priority is one of the three tier priorities |
| Hybrid.SemanticScore | backend/search/elasticsearch_search.py:134-153 | the semantic component is 0 for an id the vector store did not return and lies in [0, 1] when the similarities do |
| Hybrid.LastIndex | backend/search/elasticsearch_search.py:134 | the dict comprehension keeps the last vector row of each id |
| Hybrid.LexicalPass | backend/search/elasticsearch_search.py:139-179 | each lexical id is fused once, at its first occurrence |
| Hybrid.LexicalPassIds | backend/search/elasticsearch_search.py:139-179 | the fused ids are exactly the lexical ids |
| Hybrid.SemanticPass | backend/search/elasticsearch_search.py:181-199 | a vector row is added, as its semantic-only row, if and only if the lexical rows lack its id; nothing else is added |
| Hybrid.SemanticOnlyRow | backend/search/elasticsearch_search.py:185-197 | a vector-only row gets tier `semantic_only`, priority 5000, zero lexical score and final score 5000 + 0.9·similarity |
| Hybrid.SemanticPassCount | backend/search/elasticsearch_search.py:181-199 | one added row per vector row whose id the lexical rows lack |
| Hybrid.Combine | backend/search/elasticsearch_search.py:128-213 | the fused list is sorted by final score, holds exactly the ids of both inputs, and is a permutation of the fused lexical rows followed by the semantic-only rows |
| Hybrid.CombineLexicalOnce | backend/search/elasticsearch_search.py:139-179 | every lexical id appears exactly once in the fused list |
| Hybrid.CombineSemanticOnlyCount | backend/search/elasticsearch_search.py:181-199 | the number of `semantic_only` rows equals the number of vector rows with ids outside the lexical rows |
| Hybrid.CombineTierOrder | backend/search/elasticsearch_search.py:156-202 | with scores in range, the fused list is ordered by tier priority, and by label: an exact row is preceded only by exact rows, a relevant row only by exact or relevant rows, and rows not found lexically, all labelled semantic-only, come last |
| Hybrid.HybridWithoutEmbedding | backend/search/elasticsearch_search.py:111-113 | without an embedding the vector store is never consulted |
| Hybrid.HybridSearch | backend/search/elasticsearch_search.py:101-126 | the tiered search runs at twice the limit; without an embedding its rows are fused with no vector rows; a failing vector store gives no rows; otherwise both are fused, enriched and cut to `limit` |
| Hybrid.FuseAndEnrich | backend/search/elasticsearch_search.py:115-122 | the first min(limit, n) fused rows, each enriched, where n is the fused row count |
| QueryProcessor.StructuredText | backend/search/query_processor.py:16-27 | the text is empty if and only if both fields are, and starts with the position label when there is a position, else with the description label |
| QueryProcessor.StructuredTextRoundTrip | backend/search/query_processor.py:16-27 | for a one-line position, the two fields can be read back from the structured text |
| QueryProcessor.CleanWords | backend/search/query_processor.py:128-139 | every kept token is a lower-case word longer than one character, without edge punctuation, and not a noise word |
| QueryProcessor.CleanWordsAppend | backend/search/query_processor.py:133-137 | cleaning goes word by word: the cleaning of a concatenation is the concatenation of the cleanings |
| QueryProcessor.CleanWordsSound | backend/search/query_processor.py:133-137 | every kept token is the stripped form of some input word that passes the keep test |
| QueryProcessor.CleanWordsComplete | backend/search/query_processor.py:133-137 | every input word whose stripped form passes the keep test is kept |
| QueryProcessor.CleanWordsFlatten | backend/search/query_processor.py:133-137 | the cleaned list is the concatenation, in input order, of what each word contributes |
| QueryProcessor.ColonNoiseWordsInert | backend/search/query_processor.py:128-136 | punctuation is stripped before the noise test, so "position:", "role:", "job:" and "title:" never match anything |
| QueryProcessor.LabelWordKept | backend/search/query_processor.py:133-137 | a kept word written with a trailing colon, such as "position:", contributes the bare word |
| QueryProcessor.LabelsKept | backend/search/query_processor.py:128-136 | "position", "role", "job" and "title" pass the keep test |
| QueryProcessor.CleanPositionTitle | backend/search/query_processor.py:122-139 | an empty position gives an empty title, and the title is lower-case |
| QueryProcessor.CleanPositionTitleIdempotent | backend/search/query_processor.py:122-139 | cleaning a cleaned title changes nothing, and no noise word or one-letter token survives |
| QueryProcessor.CleanTitleTokens | backend/search/query_processor.py:122-139 | the words of the cleaned title are exactly the cleaned tokens |
| QueryProcessor.FoundPatterns | backend/search/query_processor.py:146-171 | a pattern is found if and only if it occurs in the lower-cased description |
| QueryProcessor.QuotedSpansAreQuoted | backend/search/query_processor.py:173-176 | every extracted span is free of the quote character and stands between two quotes of the description |
| QueryProcessor.QuoteThenExtract | backend/search/query_processor.py:173-176 | a quoted term after quote-free text is extracted first, and unchanged |
| QueryProcessor.Dedup | backend/search/query_processor.py:178-179 | the result has no duplicates and holds exactly the unseen input terms |
| QueryProcessor.ExtractKeyTerms | backend/search/query_processor.py:141-182 | no terms for an empty description; otherwise min(5, number of distinct candidate terms) distinct terms, each a pattern found or a quoted span |
| QueryProcessor.DedupCount | backend/search/query_processor.py:178-182 | removing repeats leaves one entry per distinct term |
| QueryProcessor.KeyTermsComplete | backend/search/query_processor.py:178-182 | with at most five distinct candidate terms, all of them are reported |
| QueryProcessor.QueryParts | backend/search/query_processor.py:100-120 | at most the title plus three key terms, each term from the description |
| QueryProcessor.QueryLeadsWithTitle | backend/search/query_processor.py:100-120 | with a title, the query's words are the cleaned title's words followed by the key terms' words |
| QueryProcessor.Embed | backend/search/query_processor.py:69-81 | no embedding for empty text; an embedding is the reduced form of a non-empty generated vector |
| QueryProcessor.EmbedIff | backend/search/query_processor.py:69-81 | an embedding exists if and only if the text is non-empty, generation gives a non-empty vector and reduction succeeds |
| QueryProcessor.ProcessQuery | backend/search/query_processor.py:29-98 | blank input gives empty texts and no embedding; the Mongolian structured text is built from the stripped fields; an embedding implies an English structured text |
| QueryProcessor.TranslationFailureFallback | backend/search/query_processor.py:89-98 | if a translation raises, the query is the stripped Mongolian text, the English structure equals the Mongolian one, and there is no embedding |
| QueryProcessor.TranslatedQuery | backend/search/query_processor.py:54-81 | with both translations, the English structured text, the optimized query and the embedding come from the translations |
| Translator.TextKey | backend/translation/translator.py:23-27 | the key is no longer than the text and has no edge whitespace |
| Translator.TextKeyIdempotent | backend/translation/translator.py:23-27 | normalising a key again changes nothing |
| Translator.TextKeyIgnoresPadding | backend/translation/translator.py:23-27 | any amount of whitespace before and after, independently, does not change the key |
| Translator.CacheGet | backend/translation/translator.py:29-48 | a hit if and only if caching is on and the entry is present and fresh; a hit leaves the cache unchanged; a miss only evicts that key |
| Translator.CachePut | backend/translation/translator.py:81-111 | a disabled cache is unchanged, and no key other than the new one appears or disappears |
| Translator.GetAfterPut | backend/translation/translator.py:29-111 | a fresh entry just stored is found again |
| Translator.GetOtherAfterPut | backend/translation/translator.py:29-111 | storing one key does not change the lookup of another |
| Translator.StaleEntryEvicted | backend/translation/translator.py:38-46 | an expired entry is reported missing and removed from both maps |
| Translator.CacheClear | backend/translation/translator.py:228-231 | clearing empties both maps and keeps the settings |
| Translator.GetAfterClear | backend/translation/translator.py:228-231 | nothing is found after clearing |
| Translator.GetTwice | backend/translation/translator.py:29-48 | a second lookup gives the same answer as the first |
| Translator.DbGet | backend/translation/translator.py:50-79 | a database hit needs caching on and a database, and is copied into the memory cache |
| Translator.IsLikelyEnglish | backend/translation/translator.py:191-195 | a non-empty text is English if and only if more than four fifths of its characters are ASCII; empty text is not |
| Translator.EnglishGuessesCompared | backend/translation/translator.py:191-195 | whatever the lexical service calls English (non-empty) the translator does too; they disagree on empty text |
| Translator.CleanInputText | backend/translation/translator.py:197-202 | the cleaned text has no backslash and no edge whitespace, and its only whitespace is single spaces |
| Translator.CleanInputTextSingleSpaced | backend/translation/translator.py:197-202 | no two whitespace characters are adjacent |
| Translator.CleanInputTextIdempotent | backend/translation/translator.py:197-202 | cleaning twice is cleaning once |
| Translator.IsValidTranslation | backend/translation/translator.py:204-218 | valid if and only if the translation is not blank, differs case-insensitively, and its length ratio is in [0.3, 3]; the empty-original case is the division error |
| Translator.ApiInput | backend/translation/translator.py:136-141 | the text sent to the API has no backslash, no edge whitespace, and only single spaces as whitespace |
| Translator.CallApi | backend/translation/translator.py:143-189 | the API step keeps a consistent cache consistent and never changes the settings |
| Translator.CallApiOutcome | backend/translation/translator.py:143-189 | either the input comes back with the cache unchanged (failure or invalid reply), or a valid stripped reply comes back and is cached |
| Translator.Lookup | backend/translation/translator.py:126-134 | the memory, database and API lookups keep a consistent cache consistent and never change the settings |
| Translator.LookupStored | backend/translation/translator.py:131-189 | the database and API lookups keep a consistent cache consistent and never change the settings |
| Translator.Translate | backend/translation/translator.py:113-189 | blank text comes back unchanged, English text comes back stripped, and the cache stays consistent |
| Translator.TranslateFromMemory | backend/translation/translator.py:127-129 | a fresh non-empty memory entry is returned without touching the cache |
| Translator.TranslateUncached | backend/translation/translator.py:132-189 | without a cache hit, the result is the cleaned input, or a valid translation that is then cached under the cleaned input |
| Translator.UncachedStaysUncached | backend/translation/translator.py:132-189 | when the stripped text and the cleaned input have different keys, a text translated with nothing cached still misses in memory on the next lookup, at any time |
| Translator.MissStaysMissing | backend/translation/translator.py:29-48 | a lookup that missed (evicting a stale entry, if any) misses again at any later time |
| Translator.InvalidTranslationNotCached | backend/translation/translator.py:178-189 | a failed or invalid reply returns the cleaned input and caches nothing |
| Text.SplitJoin | backend/search/query_processor.py:139 | joining words with single spaces and splitting again gives the words back |
| Text.LowerIdempotent | backend/search/elasticsearch_service.py:105 | lower-casing twice is lower-casing once |
| Text.ContainsIff | backend/search/query_processor.py:169-171 | substring search succeeds if and only if the pattern occurs at some position |

## Left out

- Logging, the Elasticsearch, PostgreSQL and OpenAI clients, and index set-up: foreign I/O. Their results are parameters.
- The outer `except` of `search`, which falls back to a database search: a foreign call. The inner paths already catch their own errors, so it is modelled as unreachable.
- `_get_candidate_details` and `_format_date`: foreign database reads. Details arrive as a map from candidate id to contact columns, and dates as a day count (`Row.spanDays`). ISO date parsing and `date.today()` are not modelled.
- MD5 in `_get_text_hash`: the digest is taken to be injective, so the normalised text is the key.
- The database write in `_cache_translation`: foreign. Only the memory cache is modelled. The database read is an oracle.
- `get_cache_stats`, `get_processor_stats`, `_log_tier_breakdown`, `_log_fixed_tier_scoring_results`, `test_fuzzy_search` and `search_experiences_optimized`: logging or diagnostics outside the ranking core.
- Floating point: all scores are exact reals, so rounding-dependent ties are not modelled.
- Text.LowerChar: lower-cases ASCII, the Latin-1 capitals, basic Cyrillic (U+0400–U+042F) and the Mongolian Ү and Ө, not all of Unicode. Python's `lower()` also lowers Greek, the rest of the Cyrillic supplement and other scripts, so `Translator.TextKey` and `Translator.IsValidTranslation` can tell apart texts that differ only in the case of such letters. The language guesses are unaffected: they look for а..я and ё only.
- QueryProcessor.ExtractKeyTerms: the source deduplicates through `list(set(...))`, whose order Python leaves unspecified. The model keeps first occurrences. Its contract therefore speaks of membership, distinctness and count, not of which five terms survive when there are more.
- QueryProcessor.ProcessQuery: the translator is a pure oracle here, so cache effects are not threaded through query processing. `Translator.Translate` models the cache on its own.
- Hybrid.ElasticsearchOnlySearch: its own contract states only the length bound; the rows it returns are stated by the lemma `Hybrid.ElasticsearchOnlyRows`, to keep the function's proof small. The outer `except` of both paths is modelled only where the model has an error value: a failing vector store. Failures inside enrichment (a foreign database read) are not modelled.
- Translator.Lookup and Translator.LookupStored: the contracts state only cache consistency and the settings. Their outcomes are stated by `Translator.TranslateFromMemory`, `Translator.TranslateUncached` and `Translator.InvalidTranslationNotCached`.
- Text columns that are NULL: `row.get("structured_content_en", "")` returns `None` for a NULL column, and the response model then rejects the experience. In tier mode that drops the candidate (the `except` at backend/search/candidate_scorer.py:157-167); in legacy mode the rejection happens outside the `try` (backend/search/candidate_scorer.py:350) and the whole scoring call raises (backend/search/candidate_scorer.py:67). The model's `Texts` fields are plain strings, so every row is taken to have non-NULL text columns, and contact details are taken to pass validation.
- Scorer.Rank: the order among candidates with equal final scores is not stated in one lemma. It follows from `Grouping.GroupByFaithful` (buckets in first-appearance order of the priority-sorted rows) and `Ordering.SortDescStable` (equal keys keep their input order).
- `match_tier` values other than the five labels are treated as "other" wherever the source falls through to its `else` branch.

=== FILE: grouping.dfy ===
/**
 * Grouping a list into an insertion-ordered Python dict of lists:
 *
 *   groups = {}
 *   for x in xs:
 *       if key(x) not in groups: groups[key(x)] = []
 *       groups[key(x)].append(x)
 *
 * followed by iteration over `groups.items()`, which visits keys in order of
 * first appearance.
 */
module Grouping {

  /** One dict entry: a key and the elements filed under it, in input order. */
  datatype Bucket<T> = Bucket(key: int, members: seq<T>)

  function Keys<T>(bs: seq<Bucket<T>>): set<int> {
    set i | 0 <= i < |bs| :: bs[i].key
  }

  ghost predicate DistinctKeys<T>(bs: seq<Bucket<T>>) {
    forall i, j :: 0 <= i < j < |bs| ==> bs[i].key != bs[j].key
  }

  lemma KeysCons<T>(bs: seq<Bucket<T>>)
    requires bs != []
    ensures Keys(bs) == {bs[0].key} + Keys(bs[1..])
  {
    forall y | y in Keys(bs) ensures y in {bs[0].key} + Keys(bs[1..]) {
      var i :| 0 <= i < |bs| && bs[i].key == y;
      if i > 0 {
        assert bs[1..][i - 1].key == y;
      }
    }
    forall y | y in Keys(bs[1..]) ensures y in Keys(bs) {
      var i :| 0 <= i < |bs[1..]| && bs[1..][i].key == y;
      assert bs[i + 1].key == y;
    }
  }

  /** File `x` under `k`: append to the existing bucket, or open a new bucket at the end. */
  function AddTo<T>(bs: seq<Bucket<T>>, k: int, x: T): (r: seq<Bucket<T>>)
    requires DistinctKeys(bs)
    ensures DistinctKeys(r)
    ensures k in Keys(bs) ==> |r| == |bs|
    ensures k in Keys(bs) ==> forall i :: 0 <= i < |bs| ==>
      r[i] == (if bs[i].key == k then Bucket(k, bs[i].members + [x]) else bs[i])
    ensures k !in Keys(bs) ==> r == bs + [Bucket(k, [x])]
    ensures |r| <= |bs| + 1
  {
    if bs == [] then [Bucket(k, [x])]
    else if bs[0].key == k then
      var r := [Bucket(k, bs[0].members + [x])] + bs[1..];
      assert forall i :: 0 < i < |bs| ==> r[i] == bs[i];
      r
    else
      KeysCons(bs);
      var rest := AddTo(bs[1..], k, x);
      assert forall i :: 0 < i < |bs| ==> bs[i].key != bs[0].key;
      [bs[0]] + rest
  }

  function GroupBy<T>(xs: seq<T>, key: T -> int): (bs: seq<Bucket<T>>)
    ensures DistinctKeys(bs)
    ensures |bs| <= |xs|
  {
    if xs == [] then []
    else
      var last := xs[|xs| - 1];
      AddTo(GroupBy(xs[..|xs| - 1], key), key(last), last)
  }

  /** The elements of `xs` whose key is `k`, in input order. */
  ghost function Members<T>(xs: seq<T>, key: T -> int, k: int): seq<T> {
    if xs == [] then []
    else
      var last := xs[|xs| - 1];
      Members(xs[..|xs| - 1], key, k) + (if key(last) == k then [last] else [])
  }

  lemma {:induction false} MembersAbsent<T>(xs: seq<T>, key: T -> int, k: int)
    requires forall j :: 0 <= j < |xs| ==> key(xs[j]) != k
    ensures Members(xs, key, k) == []
  {
    if xs != [] {
      MembersAbsent(xs[..|xs| - 1], key, k);
    }
  }

  /** Every element of `Members(xs, key, k)` is an element of `xs` with key `k`. */
  lemma {:induction false} MembersSound<T>(xs: seq<T>, key: T -> int, k: int)
    ensures forall y :: y in Members(xs, key, k) ==> y in xs && key(y) == k
  {
    if xs != [] {
      MembersSound(xs[..|xs| - 1], key, k);
      forall y | y in Members(xs[..|xs| - 1], key, k) ensures y in xs {
        assert y in xs[..|xs| - 1];
      }
    }
  }

  /** Every element of `xs` with key `k` is among `Members(xs, key, k)`. */
  lemma {:induction false} MembersComplete<T>(xs: seq<T>, key: T -> int, k: int)
    ensures forall j :: 0 <= j < |xs| && key(xs[j]) == k ==> xs[j] in Members(xs, key, k)
  {
    if xs != [] {
      var init := xs[..|xs| - 1];
      MembersComplete(init, key, k);
      forall j | 0 <= j < |xs| - 1 && key(xs[j]) == k ensures xs[j] in Members(xs, key, k) {
        assert init[j] == xs[j];
      }
    }
  }

  /** A key has members exactly when some element of `xs` carries it. */
  lemma MembersNonEmpty<T>(xs: seq<T>, key: T -> int, k: int)
    ensures Members(xs, key, k) != [] <==> k in KeyImage(xs, key)
  {
    MembersSound(xs, key, k);
    MembersComplete(xs, key, k);
    if Members(xs, key, k) != [] {
      var y := Members(xs, key, k)[0];
      assert y in Members(xs, key, k);
      var j :| 0 <= j < |xs| && xs[j] == y;
    }
    if k in KeyImage(xs, key) {
      var j :| 0 <= j < |xs| && key(xs[j]) == k;
      assert xs[j] in Members(xs, key, k);
    }
  }

  /** `bs` is exactly the dict built by the grouping loop over `xs`. */
  ghost predicate GroupsOf<T>(bs: seq<Bucket<T>>, xs: seq<T>, key: T -> int) {
    && DistinctKeys(bs)
    && (forall i :: 0 <= i < |bs| ==> bs[i].members == Members(xs, key, bs[i].key))
    && (forall i :: 0 <= i < |bs| ==> bs[i].members != [])
    && Keys(bs) == KeyImage(xs, key)
  }

  /** The image of the key function over `xs`. */
  ghost function KeyImage<T>(xs: seq<T>, key: T -> int): set<int> {
    set j | 0 <= j < |xs| :: key(xs[j])
  }

  lemma KeyImageAppend<T>(xs: seq<T>, x: T, key: T -> int)
    ensures KeyImage(xs + [x], key) == KeyImage(xs, key) + {key(x)}
  {
    var ys := xs + [x];
    forall y | y in KeyImage(ys, key) ensures y in KeyImage(xs, key) + {key(x)} {
      var j :| 0 <= j < |ys| && key(ys[j]) == y;
      if j < |xs| {
        assert xs[j] == ys[j];
      }
    }
    forall y | y in KeyImage(xs, key) ensures y in KeyImage(ys, key) {
      var j :| 0 <= j < |xs| && key(xs[j]) == y;
      assert ys[j] == xs[j];
    }
    assert ys[|xs|] == x;
  }

  lemma MembersAppend<T>(xs: seq<T>, x: T, key: T -> int, k: int)
    ensures Members(xs + [x], key, k) == Members(xs, key, k) + (if key(x) == k then [x] else [])
  {
    var ys := xs + [x];
    assert ys[..|ys| - 1] == xs;
  }

  /** One step of the grouping loop keeps the dict faithful to the prefix consumed so far. */
  lemma AddToFaithful<T>(bs: seq<Bucket<T>>, xs: seq<T>, x: T, key: T -> int)
    requires GroupsOf(bs, xs, key)
    ensures GroupsOf(AddTo(bs, key(x), x), xs + [x], key)
  {
    if key(x) in Keys(bs) {
      AddToKnownFaithful(bs, xs, x, key);
    } else {
      AddToNewFaithful(bs, xs, x, key);
    }
  }

  lemma AddToKnownFaithful<T>(bs: seq<Bucket<T>>, xs: seq<T>, x: T, key: T -> int)
    requires GroupsOf(bs, xs, key) && key(x) in Keys(bs)
    ensures GroupsOf(AddTo(bs, key(x), x), xs + [x], key)
  {
    var r := AddTo(bs, key(x), x);
    KeyImageAppend(xs, x, key);
    AddToKnownKeys(bs, key(x), x);
    forall i | 0 <= i < |r| ensures r[i].members == Members(xs + [x], key, r[i].key) && r[i].members != [] {
      MembersAppend(xs, x, key, bs[i].key);
    }
  }

  lemma AddToNewFaithful<T>(bs: seq<Bucket<T>>, xs: seq<T>, x: T, key: T -> int)
    requires GroupsOf(bs, xs, key) && key(x) !in Keys(bs)
    ensures GroupsOf(AddTo(bs, key(x), x), xs + [x], key)
  {
    var r := AddTo(bs, key(x), x);
    KeyImageAppend(xs, x, key);
    AddToNewKeys(bs, key(x), x);
    forall j | 0 <= j < |xs| ensures key(xs[j]) != key(x) {
      assert key(xs[j]) in KeyImage(xs, key);
    }
    MembersAbsent(xs, key, key(x));
    forall i | 0 <= i < |r| ensures r[i].members == Members(xs + [x], key, r[i].key) && r[i].members != [] {
      MembersAppend(xs, x, key, r[i].key);
      if i < |bs| {
        assert r[i] == bs[i];
      }
    }
  }

  lemma AddToKnownKeys<T>(bs: seq<Bucket<T>>, k: int, x: T)
    requires DistinctKeys(bs) && k in Keys(bs)
    ensures Keys(AddTo(bs, k, x)) == Keys(bs)
  {
    var r := AddTo(bs, k, x);
    forall y | y in Keys(r) ensures y in Keys(bs) {
      var i :| 0 <= i < |r| && r[i].key == y;
      assert bs[i].key == y;
    }
    forall y | y in Keys(bs) ensures y in Keys(r) {
      var i :| 0 <= i < |bs| && bs[i].key == y;
      assert r[i].key == y;
    }
  }

  lemma AddToNewKeys<T>(bs: seq<Bucket<T>>, k: int, x: T)
    requires DistinctKeys(bs) && k !in Keys(bs)
    ensures Keys(AddTo(bs, k, x)) == Keys(bs) + {k}
  {
    var r := AddTo(bs, k, x);
    forall y | y in Keys(r) ensures y in Keys(bs) + {k} {
      var i :| 0 <= i < |r| && r[i].key == y;
      if i < |bs| {
        assert bs[i].key == y;
      }
    }
    forall y | y in Keys(bs) ensures y in Keys(r) {
      var i :| 0 <= i < |bs| && bs[i].key == y;
      assert r[i].key == y;
    }
    assert r[|bs|].key == k;
  }

  /** Index of the first element of `xs` with key `k`, or -1. */
  ghost function FirstIndex<T>(xs: seq<T>, key: T -> int, k: int): (p: int)
    ensures -1 <= p < |xs|
    ensures p >= 0 ==> key(xs[p]) == k && forall j :: 0 <= j < p ==> key(xs[j]) != k
    ensures p == -1 ==> forall j :: 0 <= j < |xs| ==> key(xs[j]) != k
  {
    if xs == [] then -1
    else
      var p := FirstIndex(xs[..|xs| - 1], key, k);
      if p >= 0 then p else if key(xs[|xs| - 1]) == k then |xs| - 1 else -1
  }

  /** The buckets are listed in the order their keys first appear in `xs`: Python's dict insertion order. */
  ghost predicate InFirstAppearanceOrder<T>(bs: seq<Bucket<T>>, xs: seq<T>, key: T -> int) {
    forall i, j :: 0 <= i < j < |bs| ==> FirstIndex(xs, key, bs[i].key) < FirstIndex(xs, key, bs[j].key)
  }

  lemma FirstIndexAppend<T>(xs: seq<T>, x: T, key: T -> int, k: int)
    ensures FirstIndex(xs + [x], key, k) ==
      if FirstIndex(xs, key, k) >= 0 then FirstIndex(xs, key, k) else if key(x) == k then |xs| else -1
  {
    var ys := xs + [x];
    assert ys[..|ys| - 1] == xs;
  }

  lemma FirstIndexPresent<T>(xs: seq<T>, key: T -> int, k: int)
    requires k in KeyImage(xs, key)
    ensures FirstIndex(xs, key, k) >= 0
  {
    var j :| 0 <= j < |xs| && key(xs[j]) == k;
  }

  /** One step of the grouping loop keeps the buckets in first-appearance order. */
  lemma AddToOrder<T>(bs: seq<Bucket<T>>, xs: seq<T>, x: T, key: T -> int)
    requires GroupsOf(bs, xs, key) && InFirstAppearanceOrder(bs, xs, key)
    ensures InFirstAppearanceOrder(AddTo(bs, key(x), x), xs + [x], key)
  {
    var r := AddTo(bs, key(x), x);
    var ys := xs + [x];
    forall i | 0 <= i < |bs| ensures FirstIndex(ys, key, bs[i].key) == FirstIndex(xs, key, bs[i].key) >= 0 {
      assert bs[i].key in Keys(bs);
      FirstIndexPresent(xs, key, bs[i].key);
      FirstIndexAppend(xs, x, key, bs[i].key);
    }
    if key(x) in Keys(bs) {
      assert forall i :: 0 <= i < |r| ==> r[i].key == bs[i].key;
    } else {
      FirstIndexAppend(xs, x, key, key(x));
      assert FirstIndex(xs, key, key(x)) == -1;
      assert r == bs + [Bucket(key(x), [x])];
      forall i, j | 0 <= i < j < |r| ensures FirstIndex(ys, key, r[i].key) < FirstIndex(ys, key, r[j].key) {
        if j == |bs| {
          assert r[i] == bs[i];
        } else {
          assert r[i] == bs[i] && r[j] == bs[j];
        }
      }
    }
  }

  /**
   * Grouping files every element under its key exactly once: keys are
   * distinct, each bucket holds precisely the elements with its key in input
   * order, no bucket is empty, the keys are exactly the keys of the input,
   * and the buckets come in the order their keys first appear.
   */
  lemma {:induction false} GroupByFaithful<T>(xs: seq<T>, key: T -> int)
    ensures GroupsOf(GroupBy(xs, key), xs, key)
    ensures InFirstAppearanceOrder(GroupBy(xs, key), xs, key)
  {
    if xs != [] {
      var init := xs[..|xs| - 1];
      var last := xs[|xs| - 1];
      GroupByFaithful(init, key);
      AddToFaithful(GroupBy(init, key), init, last, key);
      AddToOrder(GroupBy(init, key), init, last, key);
      assert xs == init + [last];
    } else {
      assert KeyImage(xs, key) == {};
    }
  }
}

=== FILE: helpers.dfy ===
/** The experience multiplier of backend/utils/helpers.py. */
module Helpers {

  /** How many of the band edges 1, 2, ..., k lie strictly below `years`. */
  function EdgesBelow(years: real, k: nat): nat {
    if k == 0 then 0 else EdgesBelow(years, k - 1) + (if years > k as real then 1 else 0)
  }

  /**
   * The weight given to an experience of `years` years: 1.0 up to one year,
   * then 0.2 more for every further started year, capped at 2.0 after five.
   */
  function ExperienceMultiplier(years: real): (m: real)
    ensures 1.0 <= m <= 2.0
    ensures years <= 1.0 ==> m == 1.0
    ensures years > 5.0 ==> m == 2.0
    ensures m == 1.0 + 0.2 * EdgesBelow(years, 5) as real
  {
    assert EdgesBelow(years, 1) == if years > 1.0 then 1 else 0;
    assert EdgesBelow(years, 2) == EdgesBelow(years, 1) + if years > 2.0 then 1 else 0;
    assert EdgesBelow(years, 3) == EdgesBelow(years, 2) + if years > 3.0 then 1 else 0;
    assert EdgesBelow(years, 4) == EdgesBelow(years, 3) + if years > 4.0 then 1 else 0;
    assert EdgesBelow(years, 5) == EdgesBelow(years, 4) + if years > 5.0 then 1 else 0;
    if years <= 1.0 then 1.0
    else if years <= 2.0 then 1.2
    else if years <= 3.0 then 1.4
    else if years <= 4.0 then 1.6
    else if years <= 5.0 then 1.8
    else 2.0
  }

  /** More experience never lowers the multiplier. */
  lemma MultiplierMonotone(a: real, b: real)
    requires a <= b
    ensures ExperienceMultiplier(a) <= ExperienceMultiplier(b)
  {
  }

  /** Each band includes its upper edge: exactly n years weigh like the band below n. */
  lemma MultiplierUpperEdges()
    ensures ExperienceMultiplier(2.0) == 1.2
    ensures ExperienceMultiplier(3.0) == 1.4
    ensures ExperienceMultiplier(4.0) == 1.6
    ensures ExperienceMultiplier(5.0) == 1.8
    ensures ExperienceMultiplier(-3.0) == 1.0
  {
  }
}

=== FILE: hybrid.dfy ===
/**
 * Hybrid search (backend/search/elasticsearch_search.py): dispatch on the
 * search method, the vector-only path, and the fusion of tiered lexical rows
 * with vector rows by experience id under per-tier channel weights.
 *
 * The vector store and the candidate-details lookup are foreign: the vector
 * search is a parameter returning `None` when it raised, and the details are
 * a map from candidate id to contact columns (empty when the lookup failed).
 */
module Hybrid {
  import opened Wrappers
  import opened Rows
  import opened Ordering
  import PriorityLayers

  /** Priority of a vector-only path row. */
  const SemanticPriority: real := 50000.0

  /** The vector store: embedding, English and Mongolian structured text to scored rows. */
  type VectorSearch = (seq<real>, string, string) -> Option<seq<Row>>

  /** Index of the last row with experience id `id`, or -1: the row `{r['id']: r for r in rows}` keeps. */
  function LastIndex(rows: seq<Row>, id: int): (k: int)
    ensures -1 <= k < |rows|
    ensures k >= 0 ==> rows[k].id == id && forall j :: k < j < |rows| ==> rows[j].id != id
    ensures k == -1 ==> forall j :: 0 <= j < |rows| ==> rows[j].id != id
  {
    if rows == [] then -1
    else if rows[|rows| - 1].id == id then |rows| - 1
    else LastIndex(rows[..|rows| - 1], id)
  }

  /** The semantic component of an experience: its vector similarity, 0 when the vector store did not return it. */
  function SemanticScore(semantic: seq<Row>, id: int): (s: real)
    ensures (forall j :: 0 <= j < |semantic| ==> semantic[j].id != id) ==> s == 0.0
    ensures (forall j :: 0 <= j < |semantic| ==> 0.0 <= semantic[j].normCosSim.GetOr(0.0) <= 1.0) ==> 0.0 <= s <= 1.0
  {
    var k := LastIndex(semantic, id);
    if k < 0 then 0.0 else semantic[k].normCosSim.GetOr(0.0)
  }

  /** The per-tier channel weights `(lexical, semantic)` and priority of a lexical row. */
  datatype TierWeights = TierWeights(lexical: real, semantic: real, priority: real)

  function WeightsFor(tier: Option<string>): (w: TierWeights)
    ensures w.lexical + w.semantic == 1.0 && 0.0 <= w.lexical && 0.0 <= w.semantic
    ensures tier.GetOr(TierSimilar) == TierExact ==> w == TierWeights(0.9, 0.1, ExactPriority)
    ensures tier.GetOr(TierSimilar) == TierRelevant ==> w == TierWeights(0.5, 0.5, RelevantPriority)
    ensures tier.GetOr(TierSimilar) != TierExact && tier.GetOr(TierSimilar) != TierRelevant ==>
      w == TierWeights(0.1, 0.9, SimilarPriority)
  {
    var t := tier.GetOr(TierSimilar);
    if t == TierExact then TierWeights(0.9, 0.1, ExactPriority)
    else if t == TierRelevant then TierWeights(0.5, 0.5, RelevantPriority)
    else TierWeights(0.1, 0.9, SimilarPriority)
  }

  /** A lexical row with its fused scores. */
  function FusedRow(r: Row, semantic: seq<Row>): (f: Row)
    ensures f.id == r.id && f.candidateId == r.candidateId && f.matchTier == r.matchTier
    ensures f.esComponentScore == Some(NormalizedEs(EsScoreOrZero(r)))
    ensures f.semanticComponentScore == Some(SemanticScore(semantic, r.id))
    ensures var w := WeightsFor(r.matchTier);
      && f.tierPriority == Some(w.priority)
      && f.combinedSearchScore == Some(w.lexical * NormalizedEs(EsScoreOrZero(r)) + w.semantic * SemanticScore(semantic, r.id))
    ensures f.finalScore.Some? && f.finalScore.value == f.tierPriority.value + f.combinedSearchScore.value
  {
    var w := WeightsFor(r.matchTier);
    var es := NormalizedEs(EsScoreOrZero(r));
    var sem := SemanticScore(semantic, r.id);
    var combined := w.lexical * es + w.semantic * sem;
    r.(combinedSearchScore := Some(combined), tierPriority := Some(w.priority),
       esComponentScore := Some(es), semanticComponentScore := Some(sem),
       finalScore := Some(w.priority + combined))
  }

  /** A vector row that the lexical tiers did not return. */
  function SemanticOnlyRow(r: Row): (f: Row)
    ensures f.id == r.id && f.candidateId == r.candidateId
    ensures f.matchTier == Some(TierSemanticOnly) && f.tierPriority == Some(SemanticOnlyPriority)
    ensures f.elasticsearchScore == Some(0.0) && f.esComponentScore == Some(0.0)
    ensures f.finalScore == Some(SemanticOnlyPriority + 0.9 * r.normCosSim.GetOr(0.0))
  {
    var sem := r.normCosSim.GetOr(0.0);
    r.(matchTier := Some(TierSemanticOnly), tierPriority := Some(SemanticOnlyPriority),
       combinedSearchScore := Some(0.9 * sem), esComponentScore := Some(0.0),
       semanticComponentScore := Some(sem), elasticsearchScore := Some(0.0),
       finalScore := Some(SemanticOnlyPriority + 0.9 * sem))
  }

  /** `es[k]` is the first lexical row with its experience id. */
  ghost predicate FirstIdAt(es: seq<Row>, k: int) {
    0 <= k < |es| && forall i :: 0 <= i < k ==> es[i].id != es[k].id
  }

  /** The lexical pass: first row per experience id, fused; `seen` holds the ids already taken. */
  function LexicalPass(es: seq<Row>, semantic: seq<Row>, seen: set<int>): (r: seq<Row>)
    ensures |r| <= |es|
    ensures forall i :: 0 <= i < |r| ==> r[i].id !in seen
    ensures forall i, j :: 0 <= i < j < |r| ==> r[i].id != r[j].id
    ensures forall x :: x in r ==> exists k :: FirstIdAt(es, k) && x == FusedRow(es[k], semantic)
  {
    if es == [] then []
    else if es[0].id in seen then
      var r := LexicalPass(es[1..], semantic, seen);
      FusedFromTail(es, semantic, r);
      r
    else
      var rest := LexicalPass(es[1..], semantic, seen + {es[0].id});
      var r := [FusedRow(es[0], semantic)] + rest;
      assert forall i :: 0 < i < |r| ==> r[i] == rest[i - 1];
      assert FirstIdAt(es, 0);
      FusedFromTail(es, semantic, rest);
      r
  }

  /** Fused first-of-id rows of `es[1..]` whose ids differ from `es[0]`'s are fused first-of-id rows of `es`. */
  lemma FusedFromTail(es: seq<Row>, semantic: seq<Row>, rest: seq<Row>)
    requires es != []
    requires forall x :: x in rest ==> x.id != es[0].id
    requires forall x :: x in rest ==> exists k :: FirstIdAt(es[1..], k) && x == FusedRow(es[1..][k], semantic)
    ensures forall x :: x in rest ==> exists k :: FirstIdAt(es, k) && x == FusedRow(es[k], semantic)
  {
    forall x | x in rest ensures exists k :: FirstIdAt(es, k) && x == FusedRow(es[k], semantic) {
      var k :| FirstIdAt(es[1..], k) && x == FusedRow(es[1..][k], semantic);
      assert es[k + 1] == es[1..][k];
      assert FirstIdAt(es, k + 1);
    }
  }

  /** The ids the lexical pass takes: every lexical id not already seen. */
  lemma {:induction false} LexicalPassIds(es: seq<Row>, semantic: seq<Row>, seen: set<int>)
    ensures IdSet(LexicalPass(es, semantic, seen)) == IdSet(es) - seen
  {
    if es != [] {
      var seen' := if es[0].id in seen then seen else seen + {es[0].id};
      LexicalPassIds(es[1..], semantic, seen');
      IdSetCons(es[0], es[1..]);
      assert es == [es[0]] + es[1..];
      if es[0].id !in seen {
        IdSetCons(FusedRow(es[0], semantic), LexicalPass(es[1..], semantic, seen'));
      }
    }
  }

  function IdSet(rows: seq<Row>): set<int> {
    set i | 0 <= i < |rows| :: rows[i].id
  }

  lemma IdSetCons(x: Row, rows: seq<Row>)
    ensures IdSet([x] + rows) == {x.id} + IdSet(rows)
  {
    var all := [x] + rows;
    forall y | y in IdSet(all) ensures y in {x.id} + IdSet(rows) {
      var i :| 0 <= i < |all| && all[i].id == y;
      if i > 0 {
        assert rows[i - 1] == all[i];
      }
    }
    forall y | y in IdSet(rows) ensures y in IdSet(all) {
      var i :| 0 <= i < |rows| && rows[i].id == y;
      assert all[i + 1] == rows[i];
    }
    assert all[0] == x;
  }

  lemma IdSetAppend(a: seq<Row>, b: seq<Row>)
    ensures IdSet(a + b) == IdSet(a) + IdSet(b)
  {
    var all := a + b;
    forall y | y in IdSet(all) ensures y in IdSet(a) + IdSet(b) {
      var i :| 0 <= i < |all| && all[i].id == y;
      if i < |a| {
        assert a[i] == all[i];
      } else {
        assert b[i - |a|] == all[i];
      }
    }
    forall y | y in IdSet(a) ensures y in IdSet(all) {
      var i :| 0 <= i < |a| && a[i].id == y;
      assert all[i] == a[i];
    }
    forall y | y in IdSet(b) ensures y in IdSet(all) {
      var i :| 0 <= i < |b| && b[i].id == y;
      assert all[i + |a|] == b[i];
    }
  }

  /** The vector pass: every vector row whose id the lexical tiers did not return, in order, repeats included. */
  function SemanticPass(semantic: seq<Row>, esIds: set<int>): (r: seq<Row>)
    ensures |r| <= |semantic|
    ensures forall i :: 0 <= i < |r| ==> r[i].id !in esIds && r[i].matchTier == Some(TierSemanticOnly)
    ensures IdSet(r) == IdSet(semantic) - esIds
    ensures forall x :: x in r ==>
      exists j :: 0 <= j < |semantic| && semantic[j].id !in esIds && x == SemanticOnlyRow(semantic[j])
    ensures forall j :: 0 <= j < |semantic| && semantic[j].id !in esIds ==> SemanticOnlyRow(semantic[j]) in r
  {
    if semantic == [] then []
    else
      var rest := SemanticPass(semantic[1..], esIds);
      var head := if semantic[0].id in esIds then [] else [SemanticOnlyRow(semantic[0])];
      IdSetCons(semantic[0], semantic[1..]);
      assert semantic == [semantic[0]] + semantic[1..];
      IdSetAppend(head, rest);
      forall x | x in rest
        ensures exists j :: 0 <= j < |semantic| && semantic[j].id !in esIds && x == SemanticOnlyRow(semantic[j])
      {
        var j :| 0 <= j < |semantic[1..]| && semantic[1..][j].id !in esIds && x == SemanticOnlyRow(semantic[1..][j]);
        assert semantic[j + 1] == semantic[1..][j];
      }
      forall j | 1 <= j < |semantic| && semantic[j].id !in esIds ensures SemanticOnlyRow(semantic[j]) in rest {
        assert semantic[1..][j - 1] == semantic[j];
      }
      if semantic[0].id !in esIds then
        IdSetCons(SemanticOnlyRow(semantic[0]), []);
        assert IdSet([]) == {};
        head + rest
      else
        assert IdSet(head) == {};
        head + rest
  }

  /** Number of vector rows whose id is not among the lexical ids. */
  function CountOutside(semantic: seq<Row>, esIds: set<int>): nat {
    if semantic == [] then 0 else (if semantic[0].id in esIds then 0 else 1) + CountOutside(semantic[1..], esIds)
  }

  /** The vector pass adds one row per vector row outside the lexical ids: repeated vector ids repeat. */
  lemma {:induction false} SemanticPassCount(semantic: seq<Row>, esIds: set<int>)
    ensures |SemanticPass(semantic, esIds)| == CountOutside(semantic, esIds)
  {
    if semantic != [] {
      SemanticPassCount(semantic[1..], esIds);
    }
  }

  function FusedKey(r: Row): SortKey {
    SortKey(r.finalScore.GetOr(0.0), 0.0)
  }

  /** `_combine_results_with_tier_weights`. */
  function Combine(es: seq<Row>, semantic: seq<Row>): (r: seq<Row>)
    ensures SortedDesc(r, FusedKey)
    ensures IdSet(r) == IdSet(es) + IdSet(semantic)
    ensures multiset(r) == multiset(LexicalPass(es, semantic, {}) + SemanticPass(semantic, IdSet(es)))
  {
    var lexical := LexicalPass(es, semantic, {});
    LexicalPassIds(es, semantic, {});
    assert IdSet(lexical) == IdSet(es);
    var vector := SemanticPass(semantic, IdSet(lexical));
    var all := lexical + vector;
    IdSetAppend(lexical, vector);
    var sorted := SortDesc(all, FusedKey);
    SortKeepsIds(all, FusedKey);
    sorted
  }

  lemma SortKeepsIds(rows: seq<Row>, key: Row -> SortKey)
    ensures IdSet(SortDesc(rows, key)) == IdSet(rows)
  {
    var sorted := SortDesc(rows, key);
    forall y | y in IdSet(sorted) ensures y in IdSet(rows) {
      var i :| 0 <= i < |sorted| && sorted[i].id == y;
      assert sorted[i] in multiset(rows);
      var j :| 0 <= j < |rows| && rows[j] == sorted[i];
    }
    forall y | y in IdSet(rows) ensures y in IdSet(sorted) {
      var i :| 0 <= i < |rows| && rows[i].id == y;
      assert rows[i] in multiset(sorted);
      var j :| 0 <= j < |sorted| && sorted[j] == rows[i];
    }
  }

  /** Candidate details merged into a row, and the compatibility scores derived from the lexical score. */
  function EnrichRow(r: Row, details: map<int, Contact>): (e: Row)
    ensures e.candidateId == r.candidateId && e.matchTier == r.matchTier && e.finalScore == r.finalScore
    ensures e.normCosSim == Some(NormalizedEs(EsScoreOrZero(r)))
    ensures e.enhancedKeywordScore == Some(EsScoreOrZero(r))
    ensures r.candidateId in details ==> e.contact == details[r.candidateId]
    ensures r.candidateId !in details ==> e.contact == r.contact && e.id == r.id
    ensures r.candidateId in details ==> e.id == r.candidateId
    ensures e.(id := r.id, contact := r.contact, normCosSim := r.normCosSim,
               enhancedKeywordScore := r.enhancedKeywordScore) == r
  {
    var merged := if r.candidateId in details then r.(id := r.candidateId, contact := details[r.candidateId]) else r;
    merged.(normCosSim := Some(NormalizedEs(EsScoreOrZero(r))), enhancedKeywordScore := Some(EsScoreOrZero(r)))
  }

  /** `_enrich_with_candidate_details`: row by row, order kept. */
  function Enrich(rows: seq<Row>, details: map<int, Contact>): (e: seq<Row>)
    ensures |e| == |rows|
    ensures forall i :: 0 <= i < |rows| ==> e[i] == EnrichRow(rows[i], details)
  {
    seq(|rows|, i requires 0 <= i < |rows| => EnrichRow(rows[i], details))
  }

  /** `_semantic_only_search`. */
  function SemanticOnlySearch(vector: VectorSearch, embedding: seq<real>, en: string, mn: string, limit: int)
    : (r: seq<Row>)
    ensures embedding == [] ==> r == []
    ensures embedding != [] && vector(embedding, en, mn).None? ==> r == []
    ensures 0 <= limit ==> |r| <= limit
    ensures embedding != [] && vector(embedding, en, mn).Some? ==>
      var rows := vector(embedding, en, mn).value;
      && |r| <= |rows|
      && (0 <= limit ==> |r| == Min(limit, |rows|))
      && forall i :: 0 <= i < |r| ==>
           r[i] == rows[i].(matchTier := Some(TierSemantic), elasticsearchScore := Some(0.0), tierPriority := Some(SemanticPriority))
    ensures forall i :: 0 <= i < |r| ==>
      r[i].matchTier == Some(TierSemantic) && r[i].elasticsearchScore == Some(0.0) && r[i].tierPriority == Some(SemanticPriority)
  {
    if embedding == [] then []
    else
      match vector(embedding, en, mn)
      case None => []
      case Some(rows) =>
        var tagged := seq(|rows|, i requires 0 <= i < |rows| =>
          rows[i].(matchTier := Some(TierSemantic), elasticsearchScore := Some(0.0), tierPriority := Some(SemanticPriority)));
        var r := Prefix(tagged, limit);
        assert forall i :: 0 <= i < |r| ==> r[i] == tagged[i];
        r
  }

  /** `_elasticsearch_only_search`: the tiers at twice the limit, enriched, truncated. */
  function ElasticsearchOnlySearch(engine: PriorityLayers.Engine, translate: Option<string -> Option<string>>,
                                   details: map<int, Contact>, query: string, limit: int): (r: seq<Row>)
    ensures 0 <= limit ==> |r| <= limit
  {
    EnrichTop(PriorityLayers.SearchWithPriorityLayers(engine, translate, query, limit * 2), details, limit)
  }

  /** The lexical-only path returns the first `limit` rows of the tiered search at twice the limit, each enriched. */
  lemma ElasticsearchOnlyRows(engine: PriorityLayers.Engine, translate: Option<string -> Option<string>>,
                              details: map<int, Contact>, query: string, limit: int)
    ensures var es := PriorityLayers.SearchWithPriorityLayers(engine, translate, query, limit * 2);
      var r := ElasticsearchOnlySearch(engine, translate, details, query, limit);
      && |r| <= |es|
      && (0 <= limit ==> |r| == Min(limit, |es|))
      && forall i :: 0 <= i < |r| ==> r[i] == EnrichRow(es[i], details)
  {
  }

  /** Enrichment and truncation of the lexical-only path; nothing found gives nothing. */
  function EnrichTop(es: seq<Row>, details: map<int, Contact>, limit: int): (r: seq<Row>)
    ensures es == [] ==> r == []
    ensures |r| <= |es|
    ensures 0 <= limit ==> |r| == Min(limit, |es|)
    ensures forall i :: 0 <= i < |r| ==> r[i] == EnrichRow(es[i], details)
  {
    if es == [] then [] else EnrichFirst(es, details, limit)
  }

  /** `enrich(rows)[:limit]`: the first `limit` rows, each enriched. */
  function EnrichFirst(rows: seq<Row>, details: map<int, Contact>, limit: int): (r: seq<Row>)
    ensures |r| <= |rows|
    ensures 0 <= limit ==> |r| == Min(limit, |rows|)
    ensures forall i :: 0 <= i < |r| ==> r[i] == EnrichRow(rows[i], details)
  {
    var e := Enrich(rows, details);
    var r := Prefix(e, limit);
    assert forall i :: 0 <= i < |r| ==> r[i] == e[i];
    r
  }

  /** `_hybrid_search_with_tiers`: vector rows only for a non-empty embedding; a vector failure empties the result. */
  function HybridSearch(engine: PriorityLayers.Engine, translate: Option<string -> Option<string>>,
                        vector: VectorSearch, details: map<int, Contact>,
                        embedding: seq<real>, en: string, mn: string, limit: int): (r: seq<Row>)
    ensures 0 <= limit ==> |r| <= limit
    ensures var es := PriorityLayers.SearchWithPriorityLayers(engine, translate, en, limit * 2);
      && (embedding == [] ==> r == FuseAndEnrich(es, [], details, limit))
      && (embedding != [] && vector(embedding, en, mn).None? ==> r == [])
      && (embedding != [] && vector(embedding, en, mn).Some? ==>
            r == FuseAndEnrich(es, vector(embedding, en, mn).value, details, limit))
  {
    var es := PriorityLayers.SearchWithPriorityLayers(engine, translate, en, limit * 2);
    var semantic := if embedding != [] then vector(embedding, en, mn) else Some([]);
    if semantic.None? then [] else FuseAndEnrich(es, semantic.value, details, limit)
  }

  /** Fusion, enrichment and truncation of the hybrid path. */
  function FuseAndEnrich(es: seq<Row>, semantic: seq<Row>, details: map<int, Contact>, limit: int): (r: seq<Row>)
    ensures |r| <= |Combine(es, semantic)|
    ensures 0 <= limit ==> |r| == Min(limit, |Combine(es, semantic)|)
    ensures forall i :: 0 <= i < |r| ==> r[i] == EnrichRow(Combine(es, semantic)[i], details)
  {
    EnrichFirst(Combine(es, semantic), details, limit)
  }

  /** `search`: "semantic_only" and "hybrid" by name, every other method the lexical-only path. */
  function Search(engine: PriorityLayers.Engine, translate: Option<string -> Option<string>>,
                  vector: VectorSearch, details: map<int, Contact>,
                  embedding: seq<real>, en: string, mn: string, searchMethod: string, limit: int): (r: seq<Row>)
    ensures 0 <= limit ==> |r| <= limit
    ensures searchMethod == "semantic_only" ==> r == SemanticOnlySearch(vector, embedding, en, mn, limit)
    ensures searchMethod == "hybrid" ==> r == HybridSearch(engine, translate, vector, details, embedding, en, mn, limit)
    ensures searchMethod != "semantic_only" && searchMethod != "hybrid" ==>
      r == ElasticsearchOnlySearch(engine, translate, details, en, limit)
  {
    if searchMethod == "elasticsearch_only" then ElasticsearchOnlySearch(engine, translate, details, en, limit)
    else if searchMethod == "semantic_only" then SemanticOnlySearch(vector, embedding, en, mn, limit)
    else if searchMethod == "hybrid" then HybridSearch(engine, translate, vector, details, embedding, en, mn, limit)
    else ElasticsearchOnlySearch(engine, translate, details, en, limit)
  }

  /** Experience-id test, for counting. */
  function HasId(id: int): Row -> bool {
    (r: Row) => r.id == id
  }

  lemma {:induction false} CountIdDistinct(rows: seq<Row>, id: int)
    requires forall i, j :: 0 <= i < j < |rows| ==> rows[i].id != rows[j].id
    ensures CountWhere(rows, HasId(id)) == if id in IdSet(rows) then 1 else 0
  {
    if rows != [] {
      var tail := rows[1..];
      CountIdDistinct(tail, id);
      IdSetCons(rows[0], tail);
      assert rows == [rows[0]] + tail;
      if rows[0].id == id {
        forall i | 0 <= i < |tail| ensures tail[i].id != id {
          assert tail[i] == rows[i + 1];
        }
      }
    }
  }

  lemma {:induction false} CountIdAbsent(rows: seq<Row>, id: int)
    requires forall i :: 0 <= i < |rows| ==> rows[i].id != id
    ensures CountWhere(rows, HasId(id)) == 0
  {
    if rows != [] {
      CountIdAbsent(rows[1..], id);
    }
  }

  /** Every lexical experience id appears exactly once in the fused list. */
  lemma CombineLexicalOnce(es: seq<Row>, semantic: seq<Row>, id: int)
    requires id in IdSet(es)
    ensures CountWhere(Combine(es, semantic), HasId(id)) == 1
  {
    var lexical := LexicalPass(es, semantic, {});
    LexicalPassIds(es, semantic, {});
    var vector := SemanticPass(semantic, IdSet(lexical));
    var all := lexical + vector;
    CountIdDistinct(lexical, id);
    CountIdAbsent(vector, id);
    CountWhereAppend(lexical, vector, HasId(id));
    CountWherePermutation(SortDesc(all, FusedKey), all, HasId(id));
  }

  function IsSemanticOnly(r: Row): bool {
    r.matchTier == Some(TierSemanticOnly)
  }

  lemma {:induction false} CountSemanticOnlyLexical(es: seq<Row>, semantic: seq<Row>, seen: set<int>)
    requires forall i :: 0 <= i < |es| ==> es[i].matchTier != Some(TierSemanticOnly)
    ensures CountWhere(LexicalPass(es, semantic, seen), IsSemanticOnly) == 0
  {
    var r := LexicalPass(es, semantic, seen);
    forall i | 0 <= i < |r| ensures !IsSemanticOnly(r[i]) {
      assert r[i] in r;
      var k :| FirstIdAt(es, k) && r[i] == FusedRow(es[k], semantic);
    }
    CountNone(r, IsSemanticOnly);
  }

  lemma {:induction false} CountNone(rows: seq<Row>, p: Row -> bool)
    requires forall i :: 0 <= i < |rows| ==> !p(rows[i])
    ensures CountWhere(rows, p) == 0
  {
    if rows != [] {
      CountNone(rows[1..], p);
    }
  }

  lemma {:induction false} CountSemanticOnlyVector(semantic: seq<Row>, esIds: set<int>)
    ensures CountWhere(SemanticPass(semantic, esIds), IsSemanticOnly) == CountOutside(semantic, esIds)
  {
    var r := SemanticPass(semantic, esIds);
    SemanticPassCount(semantic, esIds);
    CountAll(r, IsSemanticOnly);
  }

  lemma {:induction false} CountAll(rows: seq<Row>, p: Row -> bool)
    requires forall i :: 0 <= i < |rows| ==> p(rows[i])
    ensures CountWhere(rows, p) == |rows|
  {
    if rows != [] {
      CountAll(rows[1..], p);
    }
  }

  /**
   * The fused list holds one `semantic_only` row per vector row whose id the
   * lexical tiers did not return, repeats included, when no lexical row is
   * itself labelled `semantic_only`.
   */
  lemma CombineSemanticOnlyCount(es: seq<Row>, semantic: seq<Row>)
    requires forall i :: 0 <= i < |es| ==> es[i].matchTier != Some(TierSemanticOnly)
    ensures CountWhere(Combine(es, semantic), IsSemanticOnly) == CountOutside(semantic, IdSet(es))
  {
    var lexical := LexicalPass(es, semantic, {});
    LexicalPassIds(es, semantic, {});
    var vector := SemanticPass(semantic, IdSet(lexical));
    var all := lexical + vector;
    assert IdSet(lexical) == IdSet(es);
    assert Combine(es, semantic) == SortDesc(all, FusedKey);
    CountSemanticOnlyLexical(es, semantic, {});
    CountSemanticOnlyVector(semantic, IdSet(lexical));
    CountWhereAppend(lexical, vector, IsSemanticOnly);
    CountWherePermutation(SortDesc(all, FusedKey), all, IsSemanticOnly);
  }

  /** A fused row: a known priority, and a final score that adds a combined score in [0, 1] to it. */
  ghost predicate FusedShape(r: Row) {
    && r.tierPriority.Some? && r.combinedSearchScore.Some? && r.finalScore.Some?
    && r.tierPriority.value in {ExactPriority, RelevantPriority, SimilarPriority, SemanticOnlyPriority}
    && 0.0 <= r.combinedSearchScore.value <= 1.0
    && r.finalScore.value == r.tierPriority.value + r.combinedSearchScore.value
  }

  /** Lexical scores are non-negative and vector similarities lie in [0, 1]. */
  ghost predicate ComponentsInRange(es: seq<Row>, semantic: seq<Row>) {
    && (forall i :: 0 <= i < |es| ==> 0.0 <= EsScoreOrZero(es[i]))
    && (forall j :: 0 <= j < |semantic| ==> 0.0 <= semantic[j].normCosSim.GetOr(0.0) <= 1.0)
  }

  lemma FusedRowShape(r: Row, semantic: seq<Row>)
    requires 0.0 <= EsScoreOrZero(r)
    requires forall j :: 0 <= j < |semantic| ==> 0.0 <= semantic[j].normCosSim.GetOr(0.0) <= 1.0
    ensures FusedShape(FusedRow(r, semantic))
  {
    var w := WeightsFor(r.matchTier);
    var es := NormalizedEs(EsScoreOrZero(r));
    var sem := SemanticScore(semantic, r.id);
    assert 0.0 <= w.lexical * es <= w.lexical by {
      assert w.lexical - w.lexical * es == w.lexical * (1.0 - es);
      assert 0.0 <= w.lexical * (1.0 - es);
    }
    assert 0.0 <= w.semantic * sem <= w.semantic by {
      assert w.semantic - w.semantic * sem == w.semantic * (1.0 - sem);
      assert 0.0 <= w.semantic * (1.0 - sem);
    }
  }

  /**
   * With components in range, the fused list is ordered by tier: a row never
   * precedes a row of a higher-priority tier. By label: an exact row follows
   * only exact rows, a relevant row only exact or relevant rows, and once a
   * vector-only row (labelled semantic-only) appears, no lexical row follows.
   */
  lemma CombineTierOrder(es: seq<Row>, semantic: seq<Row>)
    requires ComponentsInRange(es, semantic)
    ensures var r := Combine(es, semantic);
      forall i, j :: 0 <= i < j < |r| ==>
        r[i].tierPriority.Some? && r[j].tierPriority.Some? && r[i].tierPriority.value >= r[j].tierPriority.value
    ensures var r := Combine(es, semantic);
      forall i :: 0 <= i < |r| && r[i].id !in IdSet(es) ==> r[i].matchTier == Some(TierSemanticOnly)
    ensures var r := Combine(es, semantic);
      forall i, j :: 0 <= i < j < |r| ==>
        && (r[j].matchTier == Some(TierExact) ==> r[i].matchTier == Some(TierExact))
        && (r[j].matchTier == Some(TierRelevant) ==>
              r[i].matchTier == Some(TierExact) || r[i].matchTier == Some(TierRelevant))
        && (r[i].id !in IdSet(es) ==> r[j].id !in IdSet(es))
  {
    var lexical := LexicalPass(es, semantic, {});
    var all := lexical + SemanticPass(semantic, IdSet(lexical));
    PassesShaped(es, semantic);
    PassesAgree(es, semantic);
    var r := SortDesc(all, FusedKey);
    assert r == Combine(es, semantic);
    forall i | 0 <= i < |r| ensures FusedShape(r[i]) && TierAgrees(r[i], IdSet(es)) {
      assert r[i] in multiset(all);
    }
    ShapedSortedByTier(r);
    forall i, j | 0 <= i < j < |r|
      ensures && (r[j].matchTier == Some(TierExact) ==> r[i].matchTier == Some(TierExact))
              && (r[j].matchTier == Some(TierRelevant) ==>
                    r[i].matchTier == Some(TierExact) || r[i].matchTier == Some(TierRelevant))
              && (r[i].id !in IdSet(es) ==> r[j].id !in IdSet(es))
    {
      AgreeingOrder(r[i], r[j], IdSet(es));
    }
  }

  /**
   * A fused row's priority agrees with its label: a lexical row's priority is
   * its tier's, and a vector-only row is labelled semantic-only at 5000.
   */
  ghost predicate TierAgrees(x: Row, esIds: set<int>) {
    if x.id in esIds then x.tierPriority == Some(WeightsFor(x.matchTier).priority)
    else x.matchTier == Some(TierSemanticOnly) && x.tierPriority == Some(SemanticOnlyPriority)
  }

  /** Both passes produce rows whose priority agrees with their label. */
  lemma PassesAgree(es: seq<Row>, semantic: seq<Row>)
    ensures var lexical := LexicalPass(es, semantic, {});
      forall x :: x in lexical + SemanticPass(semantic, IdSet(lexical)) ==> TierAgrees(x, IdSet(es))
  {
    var lexical := LexicalPass(es, semantic, {});
    LexicalPassIds(es, semantic, {});
    var vector := SemanticPass(semantic, IdSet(lexical));
    forall x | x in lexical ensures TierAgrees(x, IdSet(es)) {
      var k :| FirstIdAt(es, k) && x == FusedRow(es[k], semantic);
      assert x.id in IdSet(es);
    }
  }

  /** Between two agreeing rows in priority order, the labels are in tier order. */
  lemma AgreeingOrder(x: Row, y: Row, esIds: set<int>)
    requires TierAgrees(x, esIds) && TierAgrees(y, esIds)
    requires x.tierPriority.Some? && y.tierPriority.Some? && x.tierPriority.value >= y.tierPriority.value
    ensures y.matchTier == Some(TierExact) ==> x.matchTier == Some(TierExact)
    ensures y.matchTier == Some(TierRelevant) ==> x.matchTier == Some(TierExact) || x.matchTier == Some(TierRelevant)
    ensures x.id !in esIds ==> y.id !in esIds
  {
    TierNamesDistinct();
  }

  /** Every row either pass produces has the fused shape. */
  lemma PassesShaped(es: seq<Row>, semantic: seq<Row>)
    requires ComponentsInRange(es, semantic)
    ensures var lexical := LexicalPass(es, semantic, {});
      forall x :: x in lexical + SemanticPass(semantic, IdSet(lexical)) ==> FusedShape(x)
  {
    var lexical := LexicalPass(es, semantic, {});
    LexicalPassIds(es, semantic, {});
    var vector := SemanticPass(semantic, IdSet(lexical));
    forall x | x in lexical ensures FusedShape(x) {
      var k :| FirstIdAt(es, k) && x == FusedRow(es[k], semantic);
      FusedRowShape(es[k], semantic);
    }
    forall x | x in vector ensures FusedShape(x) {
      SemanticPassShape(semantic, IdSet(lexical), x);
    }
  }

  /** Sorting fused rows by their fused key orders them by tier. */
  lemma ShapedSortedByTier(r: seq<Row>)
    requires SortedDesc(r, FusedKey)
    requires forall i :: 0 <= i < |r| ==> FusedShape(r[i])
    ensures forall i, j :: 0 <= i < j < |r| ==>
      r[i].tierPriority.Some? && r[j].tierPriority.Some? && r[i].tierPriority.value >= r[j].tierPriority.value
  {
    forall i, j | 0 <= i < j < |r|
      ensures r[i].tierPriority.Some? && r[j].tierPriority.Some? && r[i].tierPriority.value >= r[j].tierPriority.value
    {
      assert AtLeast(FusedKey(r[i]), FusedKey(r[j]));
    }
  }

  lemma {:induction false} SemanticPassShape(semantic: seq<Row>, esIds: set<int>, x: Row)
    requires forall j :: 0 <= j < |semantic| ==> 0.0 <= semantic[j].normCosSim.GetOr(0.0) <= 1.0
    requires x in SemanticPass(semantic, esIds)
    ensures FusedShape(x)
  {
    if x == SemanticOnlyRow(semantic[0]) && semantic[0].id !in esIds {
    } else {
      assert x in SemanticPass(semantic[1..], esIds);
      SemanticPassShape(semantic[1..], esIds, x);
    }
  }

  /** Without an embedding the vector store is never consulted. */
  lemma HybridWithoutEmbedding(engine: PriorityLayers.Engine, translate: Option<string -> Option<string>>,
                               vector1: VectorSearch, vector2: VectorSearch, details: map<int, Contact>,
                               en: string, mn: string, limit: int)
    ensures HybridSearch(engine, translate, vector1, details, [], en, mn, limit)
         == HybridSearch(engine, translate, vector2, details, [], en, mn, limit)
  {
  }
}

=== FILE: ordering.dfy ===
/**
 * Python's `sorted(xs, key=..., reverse=True)` / `list.sort(key=..., reverse=True)`
 * over a real-valued key or a pair of reals compared lexicographically,
 * and the prefix slice `xs[:n]`.
 *
 * Python's sort is stable also with `reverse=True`: elements with equal keys
 * keep their original relative order. The model is an insertion sort that
 * places each new element after every element whose key is at least its own.
 */
module Ordering {

  /** A sort key: `(major, minor)` compared lexicographically, as Python compares tuples. */
  datatype SortKey = SortKey(major: real, minor: real)

  /** `a` sorts strictly before `b` in a descending sort. */
  predicate Above(a: SortKey, b: SortKey) {
    a.major > b.major || (a.major == b.major && a.minor > b.minor)
  }

  /** `a` may sort before `b` in a descending sort. */
  predicate AtLeast(a: SortKey, b: SortKey) {
    !Above(b, a)
  }

  lemma AtLeastTransitive(a: SortKey, b: SortKey, c: SortKey)
    requires AtLeast(a, b) && AtLeast(b, c)
    ensures AtLeast(a, c)
  {
  }

  /** Non-increasing by `key`. */
  ghost predicate SortedDesc<T>(xs: seq<T>, key: T -> SortKey) {
    forall i, j :: 0 <= i < j < |xs| ==> AtLeast(key(xs[i]), key(xs[j]))
  }

  /** Insert `x` into `s`, after every leading element whose key is at least `key(x)`. */
  function Insert<T>(x: T, s: seq<T>, key: T -> SortKey): seq<T> {
    if s == [] then [x]
    else if Above(key(x), key(s[0])) then [x] + s
    else [s[0]] + Insert(x, s[1..], key)
  }

  lemma {:induction false} InsertMultiset<T>(x: T, s: seq<T>, key: T -> SortKey)
    ensures multiset(Insert(x, s, key)) == multiset(s) + multiset{x}
    ensures |Insert(x, s, key)| == |s| + 1
  {
    if s != [] && !Above(key(x), key(s[0])) {
      InsertMultiset(x, s[1..], key);
      assert s == [s[0]] + s[1..];
    }
  }

  lemma {:induction false} InsertSorted<T>(x: T, s: seq<T>, key: T -> SortKey)
    requires SortedDesc(s, key)
    ensures SortedDesc(Insert(x, s, key), key)
  {
    if s == [] {
    } else if Above(key(x), key(s[0])) {
      forall y | y in s ensures AtLeast(key(x), key(y)) {
        var p :| 0 <= p < |s| && s[p] == y;
        if p > 0 {
          assert AtLeast(key(s[0]), key(s[p]));
        }
      }
      SortedCons(x, s, key);
    } else {
      var tail := s[1..];
      var rest := Insert(x, tail, key);
      InsertSorted(x, tail, key);
      InsertMultiset(x, tail, key);
      forall y | y in rest ensures AtLeast(key(s[0]), key(y)) {
        assert y in multiset(rest);
        if y != x {
          assert y in multiset(tail);
          var p :| 0 <= p < |tail| && tail[p] == y;
          assert s[p + 1] == y;
        }
      }
      SortedCons(s[0], rest, key);
    }
  }

  /** An element sorting at least as high as everything after it, in front of a sorted sequence. */
  lemma SortedCons<T>(h: T, rest: seq<T>, key: T -> SortKey)
    requires SortedDesc(rest, key)
    requires forall y :: y in rest ==> AtLeast(key(h), key(y))
    ensures SortedDesc([h] + rest, key)
  {
    var r := [h] + rest;
    forall i, j | 0 <= i < j < |r| ensures AtLeast(key(r[i]), key(r[j])) {
      assert r[j] == rest[j - 1];
      if i == 0 {
        assert r[j] in rest;
      } else {
        assert r[i] == rest[i - 1];
      }
    }
  }

  /** The stable descending sort. */
  function SortDesc<T>(xs: seq<T>, key: T -> SortKey): (r: seq<T>)
    ensures |r| == |xs|
    ensures multiset(r) == multiset(xs)
    ensures SortedDesc(r, key)
  {
    if xs == [] then []
    else
      var init := xs[..|xs| - 1];
      var last := xs[|xs| - 1];
      var sortedInit := SortDesc(init, key);
      InsertMultiset(last, sortedInit, key);
      InsertSorted(last, sortedInit, key);
      assert xs == init + [last];
      Insert(last, sortedInit, key)
  }

  /** The elements of `xs` whose key is exactly `k`, in order. */
  ghost function KeyClass<T>(xs: seq<T>, key: T -> SortKey, k: SortKey): seq<T> {
    if xs == [] then []
    else (if key(xs[0]) == k then [xs[0]] else []) + KeyClass(xs[1..], key, k)
  }

  lemma {:induction false} KeyClassAppend<T>(xs: seq<T>, x: T, key: T -> SortKey, k: SortKey)
    ensures KeyClass(xs + [x], key, k) == KeyClass(xs, key, k) + (if key(x) == k then [x] else [])
  {
    if xs != [] {
      assert (xs + [x])[1..] == xs[1..] + [x];
      KeyClassAppend(xs[1..], x, key, k);
    } else {
      assert KeyClass([x], key, k) == (if key(x) == k then [x] else []) + KeyClass([], key, k);
    }
  }

  lemma {:induction false} KeyClassEmpty<T>(xs: seq<T>, key: T -> SortKey, k: SortKey)
    requires forall j :: 0 <= j < |xs| ==> key(xs[j]) != k
    ensures KeyClass(xs, key, k) == []
  {
    if xs != [] {
      KeyClassEmpty(xs[1..], key, k);
    }
  }

  lemma {:induction false} KeyClassInsert<T>(x: T, s: seq<T>, key: T -> SortKey, k: SortKey)
    requires SortedDesc(s, key)
    ensures KeyClass(Insert(x, s, key), key, k) == KeyClass(s, key, k) + (if key(x) == k then [x] else [])
  {
    if s == [] {
      assert KeyClass([x], key, k) == (if key(x) == k then [x] else []) + KeyClass([], key, k);
    } else if Above(key(x), key(s[0])) {
      var r := [x] + s;
      assert r[1..] == s;
      assert KeyClass(r, key, k) == (if key(x) == k then [x] else []) + KeyClass(s, key, k);
      if key(x) == k {
        KeyClassBelow(s, key, k);
      }
    } else {
      var rest := Insert(x, s[1..], key);
      KeyClassInsert(x, s[1..], key, k);
      var r := [s[0]] + rest;
      assert r[1..] == rest;
      assert KeyClass(r, key, k) == (if key(s[0]) == k then [s[0]] else []) + KeyClass(rest, key, k);
      assert KeyClass(s, key, k) == (if key(s[0]) == k then [s[0]] else []) + KeyClass(s[1..], key, k);
    }
  }

  /** A sorted sequence whose head sorts strictly below `k` has no element with key `k`. */
  lemma KeyClassBelow<T>(s: seq<T>, key: T -> SortKey, k: SortKey)
    requires SortedDesc(s, key) && s != [] && Above(k, key(s[0]))
    ensures KeyClass(s, key, k) == []
  {
    forall j | 0 <= j < |s| ensures key(s[j]) != k {
      assert AtLeast(key(s[0]), key(s[j]));
    }
    KeyClassEmpty(s, key, k);
  }

  /**
   * Stability: restricted to any one key value, the sorted sequence lists
   * exactly the elements of the input with that key, in input order.
   */
  lemma {:induction false} SortDescStable<T>(xs: seq<T>, key: T -> SortKey, k: SortKey)
    ensures KeyClass(SortDesc(xs, key), key, k) == KeyClass(xs, key, k)
  {
    if xs != [] {
      var init := xs[..|xs| - 1];
      var last := xs[|xs| - 1];
      SortDescStable(init, key, k);
      KeyClassInsert(last, SortDesc(init, key), key, k);
      assert xs == init + [last];
      KeyClassAppend(init, last, key, k);
    }
  }

  /** No two elements share a value of `id`. */
  ghost predicate DistinctBy<T, K>(xs: seq<T>, id: T -> K) {
    forall i, j :: 0 <= i < j < |xs| ==> id(xs[i]) != id(xs[j])
  }

  lemma {:induction false} InsertDistinct<T, K>(x: T, s: seq<T>, key: T -> SortKey, id: T -> K)
    requires SortedDesc(s, key)
    requires DistinctBy(s, id)
    requires forall j :: 0 <= j < |s| ==> id(s[j]) != id(x)
    ensures DistinctBy(Insert(x, s, key), id)
  {
    if s == [] {
    } else if Above(key(x), key(s[0])) {
      forall y | y in s ensures id(y) != id(x) {
        var p :| 0 <= p < |s| && s[p] == y;
      }
      DistinctCons(x, s, id);
    } else {
      var tail := s[1..];
      var rest := Insert(x, tail, key);
      InsertDistinct(x, tail, key, id);
      InsertMultiset(x, tail, key);
      forall y | y in rest ensures id(y) != id(s[0]) {
        assert y in multiset(rest);
        if y != x {
          assert y in multiset(tail);
          var p :| 0 <= p < |tail| && tail[p] == y;
          assert s[p + 1] == y;
        }
      }
      DistinctCons(s[0], rest, id);
    }
  }

  /** An element whose id is new, in front of a sequence without duplicate ids. */
  lemma DistinctCons<T, K>(h: T, rest: seq<T>, id: T -> K)
    requires DistinctBy(rest, id)
    requires forall y :: y in rest ==> id(y) != id(h)
    ensures DistinctBy([h] + rest, id)
  {
    var r := [h] + rest;
    forall i, j | 0 <= i < j < |r| ensures id(r[i]) != id(r[j]) {
      assert r[j] == rest[j - 1];
      if i == 0 {
        assert r[j] in rest;
      } else {
        assert r[i] == rest[i - 1];
      }
    }
  }

  /** Sorting keeps a sequence free of duplicate `id`s. */
  lemma {:induction false} SortDescDistinct<T, K>(xs: seq<T>, key: T -> SortKey, id: T -> K)
    requires DistinctBy(xs, id)
    ensures DistinctBy(SortDesc(xs, key), id)
  {
    if xs != [] {
      var init := xs[..|xs| - 1];
      var last := xs[|xs| - 1];
      var sorted := SortDesc(init, key);
      SortDescDistinct(init, key, id);
      forall j | 0 <= j < |sorted| ensures id(sorted[j]) != id(last) {
        assert sorted[j] in multiset(init);
        var p :| 0 <= p < |init| && init[p] == sorted[j];
        assert xs[p] == sorted[j];
      }
      InsertDistinct(last, sorted, key, id);
    }
  }

  function Min(a: int, b: int): int {
    if a <= b then a else b
  }

  function Max(a: int, b: int): int {
    if a >= b then a else b
  }

  /** Python's `xs[:n]`; a negative `n` counts from the end. */
  function Prefix<T>(xs: seq<T>, n: int): (r: seq<T>)
    ensures 0 <= n ==> |r| == Min(n, |xs|)
    ensures n < 0 ==> |r| == Max(|xs| + n, 0)
    ensures r == xs[..|r|]
  {
    if 0 <= n then (if n <= |xs| then xs[..n] else xs)
    else if 0 <= |xs| + n then xs[..|xs| + n]
    else []
  }

  /** An element left out of a prefix of a sorted list is matched or beaten by everything kept. */
  lemma PrefixLeavesBelow<T>(xs: seq<T>, n: int, key: T -> SortKey, p: int)
    requires SortedDesc(xs, key)
    requires 0 <= p < |xs| && |Prefix(xs, n)| <= p
    ensures 0 <= n ==> |Prefix(xs, n)| == n
    ensures forall d :: d in Prefix(xs, n) ==> AtLeast(key(d), key(xs[p]))
  {
    var r := Prefix(xs, n);
    forall d | d in r ensures AtLeast(key(d), key(xs[p])) {
      var i :| 0 <= i < |r| && r[i] == d;
      assert xs[i] == d;
    }
  }

  /** A prefix of a sorted sequence is sorted, and takes nothing that was not there. */
  lemma PrefixSorted<T>(xs: seq<T>, n: int, key: T -> SortKey)
    requires SortedDesc(xs, key)
    ensures SortedDesc(Prefix(xs, n), key)
    ensures multiset(Prefix(xs, n)) <= multiset(xs)
    ensures forall y :: y in Prefix(xs, n) ==> y in xs
  {
    var r := Prefix(xs, n);
    assert xs == r + xs[|r|..];
  }

  /** Number of elements of `xs` satisfying `p`. */
  function CountWhere<T>(xs: seq<T>, p: T -> bool): (n: nat)
    ensures n <= |xs|
  {
    if xs == [] then 0 else (if p(xs[0]) then 1 else 0) + CountWhere(xs[1..], p)
  }

  lemma {:induction false} CountWhereAppend<T>(a: seq<T>, b: seq<T>, p: T -> bool)
    ensures CountWhere(a + b, p) == CountWhere(a, p) + CountWhere(b, p)
  {
    if a != [] {
      assert (a + b)[1..] == a[1..] + b;
      CountWhereAppend(a[1..], b, p);
    } else {
      assert a + b == b;
    }
  }

  /** Counting is invariant under permutation. */
  lemma {:induction false} CountWherePermutation<T>(a: seq<T>, b: seq<T>, p: T -> bool)
    requires multiset(a) == multiset(b)
    ensures CountWhere(a, p) == CountWhere(b, p)
    decreases |a|
  {
    if a == [] {
      assert |multiset(b)| == 0;
    } else {
      var x := a[0];
      assert x in multiset(b);
      var k :| 0 <= k < |b| && b[k] == x;
      var rest := b[..k] + b[k + 1..];
      assert b == b[..k] + [x] + b[k + 1..];
      assert multiset(rest) == multiset(b) - multiset{x};
      assert a == [x] + a[1..];
      assert multiset(a[1..]) == multiset(a) - multiset{x};
      CountWherePermutation(a[1..], rest, p);
      CountWhereAppend(b[..k], b[k + 1..], p);
      CountWhereAppend(b[..k] + [x], b[k + 1..], p);
      CountWhereAppend(b[..k], [x], p);
      assert CountWhere([x], p) == (if p(x) then 1 else 0) + CountWhere([], p);
    }
  }
}

=== FILE: priority_layers.dfy ===
/**
 * Three-tier lexical search (backend/search/elasticsearch_service.py,
 * `search_with_priority_layers`): exact position-title matches first, then
 * relevant matches for the remaining quota, then similar matches for what is
 * still left; each tier tagged with its priority, the union sorted by
 * (priority, lexical score) and truncated to the limit.
 *
 * The search engine itself is foreign: each tier's query is an abstract
 * fetcher, and a fetcher that raised returns `None`.
 */
module PriorityLayers {
  import opened Wrappers
  import opened Rows
  import opened Ordering
  import opened Text

  /** One search hit: the engine's document id, the stored row, the relevance score. */
  datatype Hit = Hit(docId: string, doc: Row, score: real)

  /** A relevant- or similar-tier request: query text, result quota, experience ids to leave out. */
  datatype TierRequest = TierRequest(query: string, size: int, exclude: seq<int>)

  /** The three tier queries against the search engine. */
  datatype Engine = Engine(
    exact: string -> Option<seq<Hit>>,
    relevant: TierRequest -> Option<seq<Hit>>,
    similar: TierRequest -> Option<seq<Hit>>)

  /** At most this many exact matches are kept. */
  const ExactCap: int := 20

  /** Match quality of an exact hit, by score band. */
  function QualityBand(score: real): (q: Quality)
    ensures q == Perfect <==> score >= 90.0
    ensures q == Fuzzy <==> 60.0 <= score < 90.0
    ensures q == Partial <==> score < 60.0
  {
    if score >= 90.0 then Perfect
    else if score >= 60.0 then Fuzzy
    else Partial
  }

  /** No two hits share a document id. */
  ghost predicate DistinctDocs(hits: seq<Hit>) {
    forall i, j :: 0 <= i < j < |hits| ==> hits[i].docId != hits[j].docId
  }

  /** `hits[j]` is the first hit carrying its document id. */
  ghost predicate FirstOfItsId(hits: seq<Hit>, j: int) {
    0 <= j < |hits| && forall i :: 0 <= i < j ==> hits[i].docId != hits[j].docId
  }

  /** The hits whose document id is not yet in `seen`, first occurrence kept, in order. */
  function DedupFrom(hits: seq<Hit>, seen: set<string>): (r: seq<Hit>)
    ensures |r| <= |hits|
    ensures DistinctDocs(r)
    ensures forall h :: h in r ==> h in hits && h.docId !in seen
  {
    if hits == [] then []
    else if hits[0].docId in seen then DedupFrom(hits[1..], seen)
    else
      var rest := DedupFrom(hits[1..], seen + {hits[0].docId});
      var r := [hits[0]] + rest;
      assert forall j :: 0 < j < |r| ==> r[j] in rest;
      r
  }

  /** A hit that no earlier hit shares an id with, and whose id is unseen, survives deduplication. */
  lemma {:induction false} DedupKeepsFirst(hits: seq<Hit>, seen: set<string>, j: int)
    requires FirstOfItsId(hits, j) && hits[j].docId !in seen
    ensures hits[j] in DedupFrom(hits, seen)
  {
    if j > 0 {
      var seen' := if hits[0].docId in seen then seen else seen + {hits[0].docId};
      var tail := hits[1..];
      assert tail[j - 1] == hits[j];
      assert hits[j].docId != hits[0].docId;
      DedupKeepsFirst(tail, seen', j - 1);
    }
  }

  /** Every surviving hit is the first hit of its id. */
  lemma {:induction false} DedupOnlyFirst(hits: seq<Hit>, seen: set<string>, h: Hit)
    requires h in DedupFrom(hits, seen)
    ensures exists j :: FirstOfItsId(hits, j) && hits[j] == h
  {
    var seen' := if hits[0].docId in seen then seen else seen + {hits[0].docId};
    var tail := hits[1..];
    if h == hits[0] && hits[0].docId !in seen {
      assert FirstOfItsId(hits, 0);
    } else {
      assert h in DedupFrom(tail, seen');
      DedupOnlyFirst(tail, seen', h);
      var j :| FirstOfItsId(tail, j) && tail[j] == h;
      assert h.docId !in seen';
      assert hits[j + 1] == h;
      assert FirstOfItsId(hits, j + 1);
    }
  }

  /** Every unseen document id keeps a hit. */
  lemma {:induction false} DedupCoversIds(hits: seq<Hit>, seen: set<string>, j: int)
    requires 0 <= j < |hits| && hits[j].docId !in seen
    ensures exists h :: h in DedupFrom(hits, seen) && h.docId == hits[j].docId
  {
    if hits[j].docId == hits[0].docId {
      assert hits[0] in DedupFrom(hits, seen);
    } else {
      var seen' := if hits[0].docId in seen then seen else seen + {hits[0].docId};
      var tail := hits[1..];
      assert tail[j - 1] == hits[j];
      DedupCoversIds(tail, seen', j - 1);
    }
  }

  /** The document ids of `hits`. */
  ghost function DocIds(hits: seq<Hit>): set<string> {
    set i | 0 <= i < |hits| :: hits[i].docId
  }

  lemma DocIdsCons(h: Hit, hits: seq<Hit>)
    ensures DocIds([h] + hits) == {h.docId} + DocIds(hits)
  {
    var all := [h] + hits;
    forall y | y in DocIds(all) ensures y in {h.docId} + DocIds(hits) {
      var i :| 0 <= i < |all| && all[i].docId == y;
      if i > 0 {
        assert hits[i - 1] == all[i];
      }
    }
    forall y | y in DocIds(hits) ensures y in DocIds(all) {
      var i :| 0 <= i < |hits| && hits[i].docId == y;
      assert all[i + 1] == hits[i];
    }
    assert all[0] == h;
  }

  /** Deduplicating a concatenation: the second part continues with the ids of the first part seen. */
  lemma {:induction false} DedupAppend(a: seq<Hit>, b: seq<Hit>, seen: set<string>)
    ensures DedupFrom(a + b, seen) == DedupFrom(a, seen) + DedupFrom(b, seen + DocIds(a))
  {
    if a == [] {
      assert a + b == b;
      assert DocIds(a) == {};
      assert seen + DocIds(a) == seen;
    } else {
      var ab := a + b;
      assert ab[0] == a[0];
      assert ab[1..] == a[1..] + b;
      DocIdsCons(a[0], a[1..]);
      assert a == [a[0]] + a[1..];
      var seen' := if a[0].docId in seen then seen else seen + {a[0].docId};
      DedupAppend(a[1..], b, seen');
      assert seen' + DocIds(a[1..]) == seen + DocIds(a);
    }
  }

  /**
   * A hit that is the first of its id leads the deduplication of the hits
   * from it onwards, once the ids before it are seen.
   */
  lemma DedupFromFirst(hits: seq<Hit>, j: int)
    requires FirstOfItsId(hits, j)
    ensures var tail := DedupFrom(hits[j..], DocIds(hits[..j]));
      tail != [] && tail[0] == hits[j]
  {
    var before := hits[..j];
    forall i | 0 <= i < |before| ensures before[i].docId != hits[j].docId {
      assert before[i] == hits[i];
    }
    assert hits[j].docId !in DocIds(before);
    assert hits[j..][0] == hits[j];
  }


  function ExactRow(h: Hit): (row: Row)
    ensures row.elasticsearchScore == Some(h.score)
    ensures row.matchQuality == Some(QualityBand(h.score))
    ensures row.id == h.doc.id && row.candidateId == h.doc.candidateId && row.texts == h.doc.texts
  {
    h.doc.(elasticsearchScore := Some(h.score), matchQuality := Some(QualityBand(h.score)))
  }

  /** A relevant or similar hit as a row: the hit's score as lexical score. */
  function TierRow(h: Hit): (row: Row)
    ensures row.elasticsearchScore == Some(h.score)
    ensures row.id == h.doc.id && row.candidateId == h.doc.candidateId && row.texts == h.doc.texts
  {
    h.doc.(elasticsearchScore := Some(h.score))
  }

  function MapRows(hits: seq<Hit>, f: Hit -> Row): (rows: seq<Row>)
    ensures |rows| == |hits|
    ensures forall i :: 0 <= i < |hits| ==> rows[i] == f(hits[i])
  {
    seq(|hits|, i requires 0 <= i < |hits| => f(hits[i]))
  }

  /**
   * `_get_exact_matches_english`: the first hit per document id, in hit
   * order, quality-banded, at most 20 of them; `[]` on error.
   */
  function ExactMatches(engine: Engine, query: string): (rows: seq<Row>)
    ensures |rows| <= ExactCap
    ensures engine.exact(query).None? ==> rows == []
    ensures engine.exact(query).Some? ==>
      var kept := DedupFrom(engine.exact(query).value, {});
      && |rows| == Min(ExactCap, |kept|)
      && forall i :: 0 <= i < |rows| ==> rows[i] == ExactRow(kept[i])
  {
    match engine.exact(query)
    case None => []
    case Some(hits) =>
      var kept := DedupFrom(hits, {});
      var mapped := MapRows(kept, ExactRow);
      var rows := Prefix(mapped, ExactCap);
      assert forall i :: 0 <= i < |rows| ==> rows[i] == mapped[i];
      rows
  }

  /** Every exact row is the first hit of its document id, with its quality band. */
  lemma ExactMatchesSound(engine: Engine, query: string, i: nat)
    requires engine.exact(query).Some? && i < |ExactMatches(engine, query)|
    ensures exists j ::
      FirstOfItsId(engine.exact(query).value, j) && ExactMatches(engine, query)[i] == ExactRow(engine.exact(query).value[j])
  {
    var hits := engine.exact(query).value;
    var rows := ExactMatches(engine, query);
    var kept := DedupFrom(hits, {});
    assert rows[i] == ExactRow(kept[i]);
    assert kept[i] in kept;
    DedupOnlyFirst(hits, {}, kept[i]);
    var j :| FirstOfItsId(hits, j) && hits[j] == kept[i];
    assert rows[i] == ExactRow(hits[j]);
  }

  /**
   * The first hit of a document id is kept as an exact row whenever fewer
   * than 20 distinct document ids come before it.
   */
  lemma ExactMatchesComplete(engine: Engine, query: string, j: int)
    requires engine.exact(query).Some?
    requires FirstOfItsId(engine.exact(query).value, j)
    requires |DedupFrom(engine.exact(query).value[..j], {})| < ExactCap
    ensures ExactRow(engine.exact(query).value[j]) in ExactMatches(engine, query)
  {
    var hits := engine.exact(query).value;
    var before := hits[..j];
    assert hits == before + hits[j..];
    DedupAppend(before, hits[j..], {});
    assert {} + DocIds(before) == DocIds(before);
    DedupFromFirst(hits, j);
    var kept := DedupFrom(hits, {});
    var k := |DedupFrom(before, {})|;
    assert kept[k] == hits[j];
    assert ExactMatches(engine, query)[k] == ExactRow(hits[j]);
  }

  /** A relevant or similar tier: the fetched hits as rows, `[]` on error. */
  function TierMatches(fetch: TierRequest -> Option<seq<Hit>>, req: TierRequest): (rows: seq<Row>)
    ensures fetch(req).None? ==> rows == []
    ensures fetch(req).Some? ==> |rows| == |fetch(req).value|
    ensures fetch(req).Some? ==> forall i :: 0 <= i < |rows| ==> rows[i] == TierRow(fetch(req).value[i])
  {
    match fetch(req)
    case None => []
    case Some(hits) => MapRows(hits, TierRow)
  }

  function Ids(rows: seq<Row>): (ids: seq<int>)
    ensures |ids| == |rows|
    ensures forall i :: 0 <= i < |rows| ==> ids[i] == rows[i].id
  {
    seq(|rows|, i requires 0 <= i < |rows| => rows[i].id)
  }

  /** The three tiers before tagging. */
  datatype Layers = Layers(exact: seq<Row>, relevant: seq<Row>, similar: seq<Row>)

  /** Fill the tiers in order, each later tier asked only for the remaining quota and told the ids taken. */
  function FillLayers(engine: Engine, query: string, limit: int): (l: Layers)
    ensures l.exact == ExactMatches(engine, query)
    ensures |l.exact| < limit ==>
      l.relevant == TierMatches(engine.relevant, TierRequest(query, limit - |l.exact|, Ids(l.exact)))
    ensures limit <= |l.exact| ==> l.relevant == []
    ensures |l.exact| + |l.relevant| < limit ==>
      l.similar == TierMatches(engine.similar,
                               TierRequest(query, limit - |l.exact| - |l.relevant|, Ids(l.exact + l.relevant)))
    ensures limit <= |l.exact| + |l.relevant| ==> l.similar == []
  {
    var exact := ExactMatches(engine, query);
    var relevant :=
      if |exact| < limit then TierMatches(engine.relevant, TierRequest(query, limit - |exact|, Ids(exact)))
      else [];
    var total := |exact| + |relevant|;
    var similar :=
      if total < limit then TierMatches(engine.similar, TierRequest(query, limit - total, Ids(exact + relevant)))
      else [];
    Layers(exact, relevant, similar)
  }

  /** A fetcher that keeps to its quota: no more hits than the request's `size`. */
  ghost predicate KeepsQuota(fetch: TierRequest -> Option<seq<Hit>>) {
    forall req :: fetch(req).Some? ==> |fetch(req).value| <= req.size
  }

  /** A fetcher that keeps to its request: no more hits than the quota, none of the excluded ids. */
  ghost predicate Honours(fetch: TierRequest -> Option<seq<Hit>>) {
    && KeepsQuota(fetch)
    && forall req :: fetch(req).Some? ==> forall h :: h in fetch(req).value ==> h.doc.id !in req.exclude
  }

  /**
   * With fetchers that keep to their requests, the tiers never repeat an
   * experience id taken by an earlier tier, and together hold no more than
   * the limit unless the exact tier alone already exceeds it.
   */
  lemma FillLayersQuota(engine: Engine, query: string, limit: int)
    requires Honours(engine.relevant) && Honours(engine.similar)
    ensures var l := FillLayers(engine, query, limit);
      && |l.exact| + |l.relevant| + |l.similar| <= Max(limit, |l.exact|)
      && (forall r, e :: r in l.relevant && e in l.exact ==> r.id != e.id)
      && (forall s, e :: s in l.similar && e in l.exact + l.relevant ==> s.id != e.id)
  {
    RelevantAvoidsExact(engine, query, limit);
    SimilarAvoidsEarlier(engine, query, limit);
  }

  /** A hit a fetcher returned for `req` does not carry an excluded id. */
  lemma HonouredHit(fetch: TierRequest -> Option<seq<Hit>>, req: TierRequest, r: Row, i: int)
    requires Honours(fetch) && fetch(req).Some?
    requires 0 <= i < |fetch(req).value| && r == TierRow(fetch(req).value[i])
    ensures r.id !in req.exclude
  {
    assert fetch(req).value[i] in fetch(req).value;
  }

  lemma RelevantAvoidsExact(engine: Engine, query: string, limit: int)
    requires Honours(engine.relevant)
    ensures var l := FillLayers(engine, query, limit);
      forall r, e :: r in l.relevant && e in l.exact ==> r.id != e.id
  {
    var l := FillLayers(engine, query, limit);
    if |l.exact| < limit {
      var ids1 := Ids(l.exact);
      var req := TierRequest(query, limit - |l.exact|, ids1);
      assert l.relevant == TierMatches(engine.relevant, req);
      forall r, e | r in l.relevant && e in l.exact ensures r.id != e.id {
        var i :| 0 <= i < |l.relevant| && l.relevant[i] == r;
        HonouredHit(engine.relevant, req, r, i);
        var k :| 0 <= k < |l.exact| && l.exact[k] == e;
        assert ids1[k] == e.id;
      }
    }
  }

  lemma SimilarAvoidsEarlier(engine: Engine, query: string, limit: int)
    requires Honours(engine.similar)
    ensures var l := FillLayers(engine, query, limit);
      forall s, e :: s in l.similar && e in l.exact + l.relevant ==> s.id != e.id
  {
    var l := FillLayers(engine, query, limit);
    var total := |l.exact| + |l.relevant|;
    if total < limit {
      var ids2 := Ids(l.exact + l.relevant);
      var req := TierRequest(query, limit - total, ids2);
      assert l.similar == TierMatches(engine.similar, req);
      forall s, e | s in l.similar && e in l.exact + l.relevant ensures s.id != e.id {
        var i :| 0 <= i < |l.similar| && l.similar[i] == s;
        HonouredHit(engine.similar, req, s, i);
        var k :| 0 <= k < |l.exact + l.relevant| && (l.exact + l.relevant)[k] == e;
        assert ids2[k] == e.id;
      }
    }
  }

  /** Set the tier label and priority on every row. */
  function Tag(rows: seq<Row>, tier: string, priority: real): (tagged: seq<Row>)
    ensures |tagged| == |rows|
    ensures forall i :: 0 <= i < |rows| ==>
      tagged[i] == rows[i].(matchTier := Some(tier), tierPriority := Some(priority))
  {
    seq(|rows|, i requires 0 <= i < |rows| => rows[i].(matchTier := Some(tier), tierPriority := Some(priority)))
  }

  /** The sort key `(tier_priority, elasticsearch_score)`. */
  function LayerKey(row: Row): SortKey {
    SortKey(row.tierPriority.GetOr(0.0), EsScoreOrZero(row))
  }

  /** A row carries one of the three tier labels with its own priority. */
  predicate TaggedRow(row: Row) {
    || (row.matchTier == Some(TierExact) && row.tierPriority == Some(ExactPriority))
    || (row.matchTier == Some(TierRelevant) && row.tierPriority == Some(RelevantPriority))
    || (row.matchTier == Some(TierSimilar) && row.tierPriority == Some(SimilarPriority))
  }

  /** The three tiers, tagged, exact first. */
  function Tagged(l: Layers): (all: seq<Row>)
    ensures |all| == |l.exact| + |l.relevant| + |l.similar|
    ensures forall i :: 0 <= i < |all| ==> TaggedRow(all[i])
    ensures forall i :: 0 <= i < |l.exact| ==>
      all[i] == l.exact[i].(matchTier := Some(TierExact), tierPriority := Some(ExactPriority))
    ensures forall i :: 0 <= i < |l.relevant| ==>
      all[|l.exact| + i] == l.relevant[i].(matchTier := Some(TierRelevant), tierPriority := Some(RelevantPriority))
    ensures forall i :: 0 <= i < |l.similar| ==>
      all[|l.exact| + |l.relevant| + i] == l.similar[i].(matchTier := Some(TierSimilar), tierPriority := Some(SimilarPriority))
  {
    Tag(l.exact, TierExact, ExactPriority) + Tag(l.relevant, TierRelevant, RelevantPriority)
      + Tag(l.similar, TierSimilar, SimilarPriority)
  }

  /** The Cyrillic letters the heuristic looks for: а..я and ё. */
  predicate IsCyrillicLetter(c: char) {
    '\U{430}' <= c <= '\U{44f}' || c == '\U{451}'
  }

  /** The engine service's language guess: empty text counts as English. */
  function IsLikelyEnglish(text: string): (english: bool)
    ensures text == [] ==> english
    ensures text != [] ==>
      (english <==> (forall i :: 0 <= i < |text| ==> !IsCyrillicLetter(LowerChar(text[i]))) && AsciiRatio(text) > 0.8)
  {
    if text == [] then true
    else
      var lowered := Lower(text);
      var hasCyrillic := exists i :: 0 <= i < |lowered| && IsCyrillicLetter(lowered[i]);
      !hasCyrillic && AsciiRatio(text) > 0.8
  }

  /** The query the tiers search for: stripped and lower-cased, or the lower-cased translation. */
  function EnglishQuery(translate: Option<string -> Option<string>>, query: string): (q: string)
    ensures translate.None? || IsLikelyEnglish(query) ==> q == Lower(Strip(query))
    ensures translate.Some? && !IsLikelyEnglish(query) && translate.value(query).Some? ==>
      q == Lower(translate.value(query).value)
  {
    var base := Lower(Strip(query));
    match translate
    case None => base
    case Some(t) =>
      if IsLikelyEnglish(query) then base
      else
        match t(query)
        case None => base
        case Some(translated) => Lower(translated)
  }

  /** Sort tagged rows by `(tier_priority, elasticsearch_score)`, descending, and keep the first `limit`. */
  function RankLayers(all: seq<Row>, limit: int): (rows: seq<Row>)
    requires forall i :: 0 <= i < |all| ==> TaggedRow(all[i])
    ensures 0 <= limit ==> |rows| == Min(limit, |all|)
    ensures limit < 0 ==> |rows| == Max(|all| + limit, 0)
    ensures forall i :: 0 <= i < |rows| ==> TaggedRow(rows[i])
    ensures SortedDesc(rows, LayerKey)
    ensures multiset(rows) <= multiset(all)
  {
    var sorted := SortDesc(all, LayerKey);
    var rows := Prefix(sorted, limit);
    PrefixSorted(sorted, limit, LayerKey);
    assert |sorted| == |multiset(sorted)| == |multiset(all)| == |all|;
    forall i | 0 <= i < |rows| ensures TaggedRow(rows[i]) {
      assert rows[i] in sorted;
      assert rows[i] in multiset(all);
      var k :| 0 <= k < |all| && all[k] == rows[i];
    }
    rows
  }

  /**
   * Truncation keeps the highest keys: a tagged row left out of `RankLayers`
   * is matched or beaten by every row kept, and the result is full.
   */
  lemma RankLayersComplete(all: seq<Row>, limit: int)
    requires forall i :: 0 <= i < |all| ==> TaggedRow(all[i])
    ensures var r := RankLayers(all, limit);
      forall x :: x in all ==>
        x in r || ((0 <= limit ==> |r| == limit) && forall d :: d in r ==> AtLeast(LayerKey(d), LayerKey(x)))
  {
    var sorted := SortDesc(all, LayerKey);
    var r := RankLayers(all, limit);
    assert r == Prefix(sorted, limit);
    forall x | x in all
      ensures x in r || ((0 <= limit ==> |r| == limit) && forall d :: d in r ==> AtLeast(LayerKey(d), LayerKey(x)))
    {
      assert x in multiset(sorted);
      var p :| 0 <= p < |sorted| && sorted[p] == x;
      if p < |r| {
        assert r[p] == x;
      } else {
        PrefixLeavesBelow(sorted, limit, LayerKey, p);
      }
    }
  }

  /** `search_with_priority_layers`. */
  function SearchWithPriorityLayers(engine: Engine, translate: Option<string -> Option<string>>, query: string, limit: int)
    : (rows: seq<Row>)
    ensures var all := Tagged(FillLayers(engine, EnglishQuery(translate, query), limit));
      && multiset(rows) <= multiset(all)
      && (0 <= limit ==> |rows| == Min(limit, |all|))
    ensures forall i :: 0 <= i < |rows| ==> TaggedRow(rows[i])
    ensures SortedDesc(rows, LayerKey)
    ensures var all := Tagged(FillLayers(engine, EnglishQuery(translate, query), limit));
      forall x :: x in all ==>
        x in rows || ((0 <= limit ==> |rows| == limit) && forall d :: d in rows ==> AtLeast(LayerKey(d), LayerKey(x)))
  {
    var all := Tagged(FillLayers(engine, EnglishQuery(translate, query), limit));
    RankLayersComplete(all, limit);
    RankLayers(all, limit)
  }

  /** Exact rows come before relevant rows, which come before similar rows. */
  lemma TierOrder(engine: Engine, translate: Option<string -> Option<string>>, query: string, limit: int)
    ensures var rows := SearchWithPriorityLayers(engine, translate, query, limit);
      forall i, j :: 0 <= i < j < |rows| ==>
        && (rows[j].matchTier == Some(TierExact) ==> rows[i].matchTier == Some(TierExact))
        && (rows[j].matchTier == Some(TierRelevant) ==> rows[i].matchTier != Some(TierSimilar))
  {
    var rows := SearchWithPriorityLayers(engine, translate, query, limit);
    forall i, j | 0 <= i < j < |rows|
      ensures && (rows[j].matchTier == Some(TierExact) ==> rows[i].matchTier == Some(TierExact))
              && (rows[j].matchTier == Some(TierRelevant) ==> rows[i].matchTier != Some(TierSimilar))
    {
      TaggedOrder(rows[i], rows[j]);
    }
  }

  /** Between two tagged rows in descending `LayerKey` order, the tier of the first is at least the tier of the second. */
  lemma TaggedOrder(a: Row, b: Row)
    requires TaggedRow(a) && TaggedRow(b)
    requires AtLeast(LayerKey(a), LayerKey(b))
    ensures b.matchTier == Some(TierExact) ==> a.matchTier == Some(TierExact)
    ensures b.matchTier == Some(TierRelevant) ==> a.matchTier != Some(TierSimilar)
  {
    TierNamesDistinct();
  }

  /**
   * With fetchers that keep to their quotas and a limit of at least the exact
   * cap, truncation drops nothing: the result is a reordering of the three
   * tagged tiers.
   */
  lemma NothingDroppedWithinLimit(engine: Engine, translate: Option<string -> Option<string>>, query: string, limit: int)
    requires KeepsQuota(engine.relevant) && KeepsQuota(engine.similar)
    requires ExactCap <= limit
    ensures var all := Tagged(FillLayers(engine, EnglishQuery(translate, query), limit));
      multiset(SearchWithPriorityLayers(engine, translate, query, limit)) == multiset(all)
  {
    var q := EnglishQuery(translate, query);
    FillLayersWithinLimit(engine, q, limit);
    RankLayersWithinLimit(Tagged(FillLayers(engine, q, limit)), limit);
  }

  /** With quota-keeping tier queries and a limit of at least the exact cap, the tiers fit in the limit. */
  lemma FillLayersWithinLimit(engine: Engine, query: string, limit: int)
    requires KeepsQuota(engine.relevant) && KeepsQuota(engine.similar)
    requires ExactCap <= limit
    ensures |Tagged(FillLayers(engine, query, limit))| <= limit
  {
    var l := FillLayers(engine, query, limit);
    assert |l.exact| <= limit;
    if |l.exact| < limit {
      var req := TierRequest(query, limit - |l.exact|, Ids(l.exact));
      assert engine.relevant(req).Some? ==> |engine.relevant(req).value| <= req.size;
    }
    assert |l.exact| + |l.relevant| <= limit;
    if |l.exact| + |l.relevant| < limit {
      var req := TierRequest(query, limit - |l.exact| - |l.relevant|, Ids(l.exact + l.relevant));
      assert engine.similar(req).Some? ==> |engine.similar(req).value| <= req.size;
    }
  }

  lemma RankLayersWithinLimit(all: seq<Row>, limit: int)
    requires forall i :: 0 <= i < |all| ==> TaggedRow(all[i])
    requires |all| <= limit
    ensures multiset(RankLayers(all, limit)) == multiset(all)
  {
    assert Prefix(SortDesc(all, LayerKey), limit) == SortDesc(all, LayerKey);
  }

  /**
   * End to end: with fetchers that keep to their quotas and a limit of at
   * least 20, the first hit of a document id with fewer than 20 distinct ids
   * before it is returned, tagged as an exact match.
   */
  lemma ExactHitReturned(engine: Engine, translate: Option<string -> Option<string>>, query: string, limit: int, j: int)
    requires KeepsQuota(engine.relevant) && KeepsQuota(engine.similar)
    requires ExactCap <= limit
    requires engine.exact(EnglishQuery(translate, query)).Some?
    requires FirstOfItsId(engine.exact(EnglishQuery(translate, query)).value, j)
    requires |DedupFrom(engine.exact(EnglishQuery(translate, query)).value[..j], {})| < ExactCap
    ensures var hit := engine.exact(EnglishQuery(translate, query)).value[j];
      ExactRow(hit).(matchTier := Some(TierExact), tierPriority := Some(ExactPriority))
        in SearchWithPriorityLayers(engine, translate, query, limit)
  {
    var q := EnglishQuery(translate, query);
    var hit := engine.exact(q).value[j];
    var l := FillLayers(engine, q, limit);
    var all := Tagged(l);
    ExactMatchesComplete(engine, q, j);
    var k :| 0 <= k < |l.exact| && l.exact[k] == ExactRow(hit);
    assert all[k] in multiset(all);
    NothingDroppedWithinLimit(engine, translate, query, limit);
    assert all[k] in multiset(SearchWithPriorityLayers(engine, translate, query, limit));
  }

  /** When every query fails the search yields no rows. */
  lemma AllFailuresGiveNothing(engine: Engine, translate: Option<string -> Option<string>>, query: string, limit: int)
    requires forall q :: engine.exact(q).None?
    requires forall req :: engine.relevant(req).None? && engine.similar(req).None?
    ensures SearchWithPriorityLayers(engine, translate, query, limit) == []
  {
    var q := EnglishQuery(translate, query);
    var l := FillLayers(engine, q, limit);
    FailedLayersEmpty(engine, q, limit);
    RankNothing(Tagged(l), limit);
  }

  lemma FailedLayersEmpty(engine: Engine, query: string, limit: int)
    requires engine.exact(query).None?
    requires forall req :: engine.relevant(req).None? && engine.similar(req).None?
    ensures |Tagged(FillLayers(engine, query, limit))| == 0
  {
    var l := FillLayers(engine, query, limit);
    assert l.exact == [];
  }

  lemma RankNothing(all: seq<Row>, limit: int)
    requires |all| == 0
    ensures RankLayers(all, limit) == []
  {
    var rows := RankLayers(all, limit);
    assert |multiset(rows)| <= |multiset(all)|;
  }
}

=== FILE: query.dfy ===
/**
 * Query shaping before search (`QueryProcessor`): the structured text handed
 * to the embedder, the cleaned position title, the key terms of a job
 * description, the combined keyword query and the whole `process_query`
 * pipeline. The translator, the embedding generator and the dimensionality
 * reducer are oracles; `None` from an oracle means the call raised (or, for
 * the embedder, returned nothing).
 */
module QueryProcessor {
  import opened Wrappers
  import opened Text
  import opened Ordering

  const PositionLabel: string := "Position: "
  const DescriptionLabel: string := "Description: "

  /** `create_structured_text`: labelled lines, position first, newline-separated. */
  function StructuredText(position: string, description: string): (r: string)
    ensures r == "" <==> position == "" && description == ""
    ensures position != "" ==> StartsWith(r, PositionLabel)
    ensures position == "" && description != "" ==> StartsWith(r, DescriptionLabel)
  {
    if position == "" && description == "" then ""
    else
      var parts :=
        (if position != "" then [PositionLabel + position] else [])
        + (if description != "" then [DescriptionLabel + description] else []);
      assert (PositionLabel + position)[..|PositionLabel|] == PositionLabel;
      assert (DescriptionLabel + description)[..|DescriptionLabel|] == DescriptionLabel;
      var r := Join("\n", parts);
      if |parts| == 2 then
        JoinTwo("\n", parts[0], parts[1]);
        assert r[..|parts[0]|] == parts[0];
        r
      else
        r
  }

  /** Reads a structured text back into its position and description. */
  function ParseStructured(s: string): (string, string) {
    if StartsWith(s, PositionLabel) then
      var rest := s[|PositionLabel|..];
      if '\n' in rest then
        var k := IndexOf(rest, '\n');
        var tail := rest[k + 1..];
        (rest[..k], if StartsWith(tail, DescriptionLabel) then tail[|DescriptionLabel|..] else "")
      else (rest, "")
    else if StartsWith(s, DescriptionLabel) then ("", s[|DescriptionLabel|..])
    else ("", "")
  }

  /**
   * The structured text loses nothing: as long as the position is a single
   * line, both fields are recovered from it.
   */
  lemma StructuredTextRoundTrip(position: string, description: string)
    requires '\n' !in position
    ensures ParseStructured(StructuredText(position, description)) == (position, description)
  {
    var s := StructuredText(position, description);
    var pl := PositionLabel + position;
    var dl := DescriptionLabel + description;
    assert pl[..|PositionLabel|] == PositionLabel && pl[|PositionLabel|..] == position;
    assert dl[..|DescriptionLabel|] == DescriptionLabel && dl[|DescriptionLabel|..] == description;
    if position != "" && description != "" {
      JoinTwo("\n", pl, dl);
      assert s == pl + "\n" + dl;
      var rest := s[|PositionLabel|..];
      assert rest == position + "\n" + dl;
      IndexOfFirst(position, '\n', dl);
      assert rest[..|position|] == position;
      assert rest[|position| + 1..] == dl;
    } else if position != "" {
      assert s == pl;
    } else if description != "" {
      assert s == dl;
      assert s[0] == 'D';
    }
  }

  // ---------------------------------------------------------------------
  // `_clean_position_title`
  // ---------------------------------------------------------------------

  const NoiseWords: seq<string> := ["position:", "role:", "job:", "title:", "as", "a", "an", "the"]

  /** The characters `word.strip('.,!?()[]{}":;')` removes from both ends. */
  predicate IsEdgePunct(c: char) {
    c in ".,!?()[]{}\":;"
  }

  /** Every character is its own lower case. */
  ghost predicate IsLowered(s: string) {
    forall i :: 0 <= i < |s| ==> LowerChar(s[i]) == s[i]
  }

  /** A token the cleaner keeps, in the form it keeps it. */
  ghost predicate IsCleanToken(w: string) {
    && IsWord(w)
    && IsLowered(w)
    && |w| > 1
    && w !in NoiseWords
    && !IsEdgePunct(w[0]) && !IsEdgePunct(w[|w| - 1])
  }

  lemma StripByChars(s: string, drop: char -> bool)
    ensures forall c :: c in StripBy(s, drop) ==> c in s
  {
    var l := StripLeftBy(s, drop);
    assert forall c :: c in l ==> c in s;
  }

  /** `word.strip('.,!?()[]{}":;')`. */
  function StripEdge(w: string): string {
    StripBy(w, IsEdgePunct)
  }

  /** `word and word not in noise_words and len(word) > 1`. */
  predicate Keeps(w: string) {
    w != "" && w !in NoiseWords && |w| > 1
  }

  lemma StripEdgeClean(w: string)
    requires IsWord(w) && IsLowered(w) && Keeps(StripEdge(w))
    ensures IsCleanToken(StripEdge(w))
  {
    var r := StripEdge(w);
    StripByChars(w, IsEdgePunct);
    assert forall i :: 0 <= i < |r| ==> r[i] in w;
    var l := StripLeftBy(w, IsEdgePunct);
    assert r == StripRightBy(l, IsEdgePunct);
    assert r[0] == l[0];
  }

  /** The loop body over `position.lower().split()`. */
  function CleanWords(words: seq<string>): (r: seq<string>)
    requires forall i :: 0 <= i < |words| ==> IsWord(words[i]) && IsLowered(words[i])
    ensures forall t :: t in r ==> IsCleanToken(t)
    ensures |r| <= |words|
  {
    if words == [] then []
    else
      var w := StripEdge(words[0]);
      if Keeps(w) then
        StripEdgeClean(words[0]);
        [w] + CleanWords(words[1..])
      else
        CleanWords(words[1..])
  }

  /** `_clean_position_title`: the kept tokens, lower-cased and joined by single spaces. */
  function CleanPositionTitle(position: string): (r: string)
    ensures position == "" ==> r == ""
    ensures IsLowered(r)
  {
    if position == "" then ""
    else
      var ws := CleanWords(LoweredWords(position));
      assert forall i :: 0 <= i < |ws| ==> IsLowered(ws[i]) by {
        forall i | 0 <= i < |ws| ensures IsLowered(ws[i]) {
          assert ws[i] in ws;
        }
      }
      JoinLowered(ws);
      Join(" ", ws)
  }

  /** `position.lower().split()`, with the facts the cleaner needs about its tokens. */
  function LoweredWords(position: string): (ws: seq<string>)
    ensures forall i :: 0 <= i < |ws| ==> IsWord(ws[i]) && IsLowered(ws[i])
  {
    var low := Lower(position);
    var ws := Split(low);
    forall i, j | 0 <= i < |ws| && 0 <= j < |ws[i]| ensures LowerChar(ws[i][j]) == ws[i][j] {
      var k :| 0 <= k < |low| && low[k] == ws[i][j];
      LowerCharIdempotent(position[k]);
    }
    ws
  }

  /** What one word contributes to the cleaned list. */
  function KeptForm(w: string): seq<string> {
    var t := StripEdge(w);
    if Keeps(t) then [t] else []
  }

  /** One step of the cleaning loop. */
  lemma CleanWordsCons(words: seq<string>)
    requires words != []
    requires forall i :: 0 <= i < |words| ==> IsWord(words[i]) && IsLowered(words[i])
    ensures CleanWords(words) == KeptForm(words[0]) + CleanWords(words[1..])
  {
  }

  lemma ConcatAssoc(x: seq<string>, y: seq<string>, z: seq<string>)
    ensures x + (y + z) == (x + y) + z
  {
  }

  /** Cleaning works word by word: cleaning a concatenation concatenates the cleanings. */
  lemma {:induction false} CleanWordsAppend(a: seq<string>, b: seq<string>)
    requires forall i :: 0 <= i < |a| ==> IsWord(a[i]) && IsLowered(a[i])
    requires forall i :: 0 <= i < |b| ==> IsWord(b[i]) && IsLowered(b[i])
    ensures CleanWords(a + b) == CleanWords(a) + CleanWords(b)
  {
    if a == [] {
      assert a + b == b;
    } else {
      var ab := a + b;
      assert ab[0] == a[0];
      assert ab[1..] == a[1..] + b;
      CleanWordsCons(ab);
      CleanWordsCons(a);
      CleanWordsAppend(a[1..], b);
      var k, x, y := KeptForm(a[0]), CleanWords(a[1..]), CleanWords(b);
      ConcatAssoc(k, x, y);
      calc {
        CleanWords(ab);
        k + CleanWords(a[1..] + b);
        k + (x + y);
        (k + x) + y;
        CleanWords(a) + CleanWords(b);
      }
    }
  }

  /** Every token in the cleaned list is the kept stripped form of some input word. */
  lemma {:induction false} CleanWordsSound(words: seq<string>, t: string)
    requires forall i :: 0 <= i < |words| ==> IsWord(words[i]) && IsLowered(words[i])
    requires t in CleanWords(words)
    ensures exists i :: 0 <= i < |words| && StripEdge(words[i]) == t && Keeps(t)
  {
    CleanWordsCons(words);
    if t in KeptForm(words[0]) {
      assert StripEdge(words[0]) == t;
    } else {
      assert t in CleanWords(words[1..]);
      CleanWordsSound(words[1..], t);
      var i :| 0 <= i < |words[1..]| && StripEdge(words[1..][i]) == t && Keeps(t);
      assert words[i + 1] == words[1..][i];
    }
  }

  /** The contributions of `xs` under `f`, concatenated in order. */
  function Flatten<T, U>(xs: seq<T>, f: T -> seq<U>): seq<U> {
    if xs == [] then [] else f(xs[0]) + Flatten(xs[1..], f)
  }

  lemma {:induction false} FlattenMember<T, U>(xs: seq<T>, f: T -> seq<U>, i: nat, t: U)
    requires i < |xs| && t in f(xs[i])
    ensures t in Flatten(xs, f)
  {
    if 0 < i {
      assert xs[1..][i - 1] == xs[i];
      FlattenMember(xs[1..], f, i - 1, t);
    }
  }

  /** What each word contributes, as a value. */
  const Contribution: string -> seq<string> := w => KeptForm(w)

  /** The cleaned list is exactly the concatenation of each word's contribution. */
  lemma {:induction false} CleanWordsFlatten(words: seq<string>)
    requires forall i :: 0 <= i < |words| ==> IsWord(words[i]) && IsLowered(words[i])
    ensures CleanWords(words) == Flatten(words, Contribution)
  {
    if words != [] {
      CleanWordsCons(words);
      CleanWordsFlatten(words[1..]);
    }
  }

  /** Every input word whose stripped form passes the keep test is in the cleaned list. */
  lemma CleanWordsComplete(words: seq<string>, i: nat)
    requires forall i :: 0 <= i < |words| ==> IsWord(words[i]) && IsLowered(words[i])
    requires i < |words| && Keeps(StripEdge(words[i]))
    ensures StripEdge(words[i]) in CleanWords(words)
  {
    assert KeptForm(words[i]) == [StripEdge(words[i])];
    FlattenMember(words, Contribution, i, StripEdge(words[i]));
    CleanWordsFlatten(words);
  }

  /**
   * A stripped word never ends in ':', so the noise words "position:",
   * "role:", "job:" and "title:" can never match and never remove anything.
   */
  lemma ColonNoiseWordsInert(w: string)
    ensures StripEdge(w) !in ["position:", "role:", "job:", "title:"]
  {
    var r := StripEdge(w);
    assert r == StripRightBy(StripLeftBy(w, IsEdgePunct), IsEdgePunct);
    assert r == [] || !IsEdgePunct(r[|r| - 1]);
  }

  /** A colon after a word is stripped off, leaving the word. */
  lemma StripEdgeTrailingColon(w: string)
    requires w != [] && !IsEdgePunct(w[0]) && !IsEdgePunct(w[|w| - 1])
    ensures StripEdge(w + ":") == w
  {
    var s := w + ":";
    assert s[0] == w[0];
    StripLeftByNoop(s, IsEdgePunct);
    assert s[..|s| - 1] == w;
    StripRightByNoop(w, IsEdgePunct);
  }

  /**
   * A kept word written with a trailing colon, as "position" in "Position:
   * Data Engineer", contributes itself without the colon; with
   * `CleanWordsAppend` this fixes its place in the cleaned list.
   */
  lemma LabelWordKept(w: string)
    requires w != [] && !IsEdgePunct(w[0]) && !IsEdgePunct(w[|w| - 1]) && Keeps(w)
    ensures KeptForm(w + ":") == [w]
  {
    StripEdgeTrailingColon(w);
  }

  /** The four label words themselves pass the keep test once their colon is gone. */
  lemma LabelsKept()
    ensures Keeps("position") && Keeps("role") && Keeps("job") && Keeps("title")
  {
  }

  /** The cleaned title splits back into exactly the kept tokens. */
  lemma CleanTitleTokens(position: string)
    ensures Split(CleanPositionTitle(position)) == CleanWords(LoweredWords(position))
    ensures forall w :: w in Split(CleanPositionTitle(position)) ==> IsCleanToken(w)
  {
    var ws := CleanWords(LoweredWords(position));
    forall i | 0 <= i < |ws| ensures IsWord(ws[i]) {
      assert ws[i] in ws;
    }
    SplitJoin(ws);
  }

  /** Cleaning a clean token list keeps every token unchanged. */
  lemma {:induction false} CleanWordsFixed(ws: seq<string>)
    requires forall i :: 0 <= i < |ws| ==> IsWord(ws[i]) && IsLowered(ws[i])
    requires forall i :: 0 <= i < |ws| ==> IsCleanToken(ws[i])
    ensures CleanWords(ws) == ws
  {
    if ws != [] {
      StripByNoop(ws[0], IsEdgePunct);
      CleanWordsFixed(ws[1..]);
      assert ws == [ws[0]] + ws[1..];
    }
  }

  /** A space-joined list of lowered tokens is lowered. */
  lemma JoinLowered(ws: seq<string>)
    requires forall i :: 0 <= i < |ws| ==> IsLowered(ws[i])
    ensures IsLowered(Join(" ", ws))
  {
    var r := Join(" ", ws);
    forall k | 0 <= k < |r| ensures LowerChar(r[k]) == r[k] {
      JoinChars(" ", ws, r[k]);
      if r[k] !in " " {
        var i, j :| 0 <= i < |ws| && 0 <= j < |ws[i]| && ws[i][j] == r[k];
        assert LowerChar(ws[i][j]) == ws[i][j];
      }
    }
  }

  /**
   * The cleaned title holds no noise word and no one-character token, and
   * cleaning it a second time changes nothing.
   */
  lemma CleanPositionTitleIdempotent(position: string)
    ensures CleanPositionTitle(CleanPositionTitle(position)) == CleanPositionTitle(position)
    ensures forall w :: w in Split(CleanPositionTitle(position)) ==> w !in NoiseWords && |w| > 1
  {
    CleanTitleTokens(position);
    var r := CleanPositionTitle(position);
    if r != "" {
      var ws := CleanWords(LoweredWords(position));
      CleanTokenFacts(ws);
      assert r == Join(" ", ws);
      JoinLowered(ws);
      assert Lower(r) == r;
      SplitJoin(ws);
      assert LoweredWords(r) == ws;
      CleanWordsFixed(ws);
    }
  }

  lemma CleanTokenFacts(ws: seq<string>)
    requires forall t :: t in ws ==> IsCleanToken(t)
    ensures forall i :: 0 <= i < |ws| ==> IsWord(ws[i]) && IsLowered(ws[i]) && IsCleanToken(ws[i])
  {
    forall i | 0 <= i < |ws| ensures IsCleanToken(ws[i]) {
      assert ws[i] in ws;
    }
  }

  // ---------------------------------------------------------------------
  // `_extract_key_terms`
  // ---------------------------------------------------------------------

  const ImportantPatterns: seq<string> := [
    "python", "java", "javascript", "sql", "machine learning", "ai",
    "data science", "analytics", "statistics", "cloud", "aws", "azure",
    "kubernetes", "docker", "react", "node.js", "api", "database",
    "senior", "junior", "lead", "principal", "manager", "director",
    "entry level", "mid level", "experienced",
    "finance", "banking", "healthcare", "technology", "startup",
    "enterprise", "consulting", "government",
    "development", "engineering", "analysis", "management", "design",
    "research", "operations", "strategy", "product"
  ]

  /** The patterns of `patterns` that occur in `text`, in list order. */
  function FoundPatterns(patterns: seq<string>, text: string): (r: seq<string>)
    ensures forall t :: t in r <==> t in patterns && Contains(text, t)
  {
    if patterns == [] then []
    else (if Contains(text, patterns[0]) then [patterns[0]] else []) + FoundPatterns(patterns[1..], text)
  }

  /** `t` sits between two quote characters `q` somewhere in `s`. */
  ghost predicate IsQuotedIn(s: string, q: char, t: string) {
    exists k :: OccursAt(s, [q] + t + [q], k)
  }

  lemma OccursShift(s: string, a: nat, pat: string, k: int)
    requires a <= |s| && OccursAt(s[a..], pat, k)
    ensures OccursAt(s, pat, a + k)
  {
    assert s[a + k..a + k + |pat|] == s[a..][k..k + |pat|];
  }

  /** `re.findall(q + "([^" + q + "]*)" + q, s)`: the texts between successive pairs of `q`. */
  function QuotedSpans(s: string, q: char): seq<string>
    decreases |s|, 1
  {
    if s == [] then []
    else if s[0] == q then OpenSpan(s[1..], q, [])
    else QuotedSpans(s[1..], q)
  }

  /** The rest of the spans once an opening `q` has been read and `acc` collected since. */
  function OpenSpan(s: string, q: char, acc: string): seq<string>
    decreases |s|, 0
  {
    if s == [] then []
    else if s[0] == q then [acc] + QuotedSpans(s[1..], q)
    else OpenSpan(s[1..], q, acc + [s[0]])
  }

  lemma QuotedShift(s: string, q: char, a: nat, t: string)
    requires a <= |s| && IsQuotedIn(s[a..], q, t)
    ensures IsQuotedIn(s, q, t)
  {
    var k :| OccursAt(s[a..], [q] + t + [q], k);
    OccursShift(s, a, [q] + t + [q], k);
  }

  /** Every extracted span is free of `q` and really stands between two quotes of the text. */
  lemma QuotedSpansAreQuoted(s: string, q: char)
    ensures forall t :: t in QuotedSpans(s, q) ==> q !in t && IsQuotedIn(s, q, t)
  {
    forall t | t in QuotedSpans(s, q) ensures q !in t && IsQuotedIn(s, q, t) {
      QuotedSpanIsQuoted(s, q, t);
    }
  }

  lemma {:induction false} QuotedSpanIsQuoted(s: string, q: char, t: string)
    requires t in QuotedSpans(s, q)
    ensures q !in t && IsQuotedIn(s, q, t)
    decreases |s|, 1
  {
    if s[0] == q {
      OpenSpanIsQuoted(s[1..], q, [], t);
      if !IsQuotedIn(s[1..], q, t) {
        var m :| 0 <= m < |s[1..]| && s[1..][m] == q && t == [] + s[1..][..m];
        assert s[0..m + 2] == [q] + t + [q];
        assert OccursAt(s, [q] + t + [q], 0);
      } else {
        QuotedShift(s, q, 1, t);
      }
    } else {
      QuotedSpanIsQuoted(s[1..], q, t);
      QuotedShift(s, q, 1, t);
    }
  }

  /**
   * A span produced after an opening quote is either the collected text up to
   * the next `q`, or a later span quoted within `s`.
   */
  lemma {:induction false} OpenSpanIsQuoted(s: string, q: char, acc: string, t: string)
    requires q !in acc
    requires t in OpenSpan(s, q, acc)
    ensures q !in t
    ensures IsQuotedIn(s, q, t) || exists m :: 0 <= m < |s| && s[m] == q && t == acc + s[..m]
    decreases |s|, 0
  {
    if s[0] == q {
      if t == acc {
        assert t == acc + s[..0];
      } else {
        QuotedSpanIsQuoted(s[1..], q, t);
        QuotedShift(s, q, 1, t);
      }
    } else {
      OpenSpanIsQuoted(s[1..], q, acc + [s[0]], t);
      if !IsQuotedIn(s[1..], q, t) {
        var m :| 0 <= m < |s[1..]| && s[1..][m] == q && t == acc + [s[0]] + s[1..][..m];
        assert s[..m + 1] == [s[0]] + s[1..][..m];
        assert t == acc + s[..m + 1];
      } else {
        QuotedShift(s, q, 1, t);
      }
    }
  }

  /** Text without `q` yields no span and leaves the scan where it was. */
  lemma {:induction false} QuotedSpansSkip(a: string, r: string, q: char)
    requires q !in a
    ensures QuotedSpans(a + r, q) == QuotedSpans(r, q)
  {
    if a != [] {
      assert (a + r)[0] == a[0];
      assert (a + r)[1..] == a[1..] + r;
      QuotedSpansSkip(a[1..], r, q);
    } else {
      assert a + r == r;
    }
  }

  /** Inside a quote, text without `q` is collected and the next `q` closes the span. */
  lemma {:induction false} OpenSpanCollect(t: string, b: string, q: char, acc: string)
    requires q !in t
    ensures OpenSpan(t + [q] + b, q, acc) == [acc + t] + QuotedSpans(b, q)
  {
    var s := t + [q] + b;
    if t == [] {
      assert s == [q] + b;
      assert s[1..] == b;
      assert acc + t == acc;
    } else {
      assert s[0] == t[0];
      assert s[1..] == t[1..] + [q] + b;
      OpenSpanCollect(t[1..], b, q, acc + [t[0]]);
      assert acc + [t[0]] + t[1..] == acc + t;
    }
  }

  /** Quoting a term and extracting it again gives back the term. */
  lemma QuoteThenExtract(a: string, t: string, b: string, q: char)
    requires q !in a && q !in t
    ensures QuotedSpans(a + [q] + t + [q] + b, q) == [t] + QuotedSpans(b, q)
  {
    var r := [q] + (t + [q] + b);
    assert a + [q] + t + [q] + b == a + r;
    QuotedSpansSkip(a, r, q);
    assert r[1..] == t + [q] + b;
    OpenSpanCollect(t, b, q, []);
    assert [] + t == t;
  }

  /** A term `_extract_key_terms` may report for `description`. */
  ghost predicate IsKeyTerm(description: string, t: string) {
    || (t in ImportantPatterns && Contains(Lower(description), t))
    || ('"' !in t && IsQuotedIn(description, '"', t))
    || ('\'' !in t && IsQuotedIn(description, '\'', t))
  }

  /** Every candidate term in order of first appearance: found patterns, then both kinds of quoted text. */
  function AllTerms(description: string): (r: seq<string>)
    ensures forall t :: t in r ==> IsKeyTerm(description, t)
  {
    QuotedSpansAreQuoted(description, '"');
    QuotedSpansAreQuoted(description, '\'');
    FoundPatterns(ImportantPatterns, Lower(description))
    + QuotedSpans(description, '"') + QuotedSpans(description, '\'')
  }

  ghost predicate Distinct(xs: seq<string>) {
    forall i, j :: 0 <= i < j < |xs| ==> xs[i] != xs[j]
  }

  /** Duplicates of `xs` removed, as by a set; the first occurrence of each value is kept. */
  function Dedup(xs: seq<string>, seen: set<string>): (r: seq<string>)
    ensures Distinct(r)
    ensures forall t :: t in r <==> t in xs && t !in seen
  {
    if xs == [] then []
    else if xs[0] in seen then Dedup(xs[1..], seen)
    else
      var rest := Dedup(xs[1..], seen + {xs[0]});
      [xs[0]] + rest
  }

  lemma {:induction false} DistinctCard(xs: seq<string>)
    requires Distinct(xs)
    ensures |set t | t in xs| == |xs|
  {
    if xs != [] {
      DistinctCard(xs[1..]);
      assert (set t | t in xs) == {xs[0]} + (set t | t in xs[1..]);
      assert xs[0] !in xs[1..];
    }
  }

  /** Removing repeats leaves one entry per distinct term. */
  lemma DedupCount(xs: seq<string>)
    ensures |Dedup(xs, {})| == |set t | t in xs|
  {
    var d := Dedup(xs, {});
    DistinctCard(d);
    assert (set t | t in d) == (set t | t in xs);
  }

  /** `list(set(found_terms + quoted_terms))[:5]`, or `[]` for an empty description. */
  function ExtractKeyTerms(description: string): (r: seq<string>)
    ensures description == "" ==> r == []
    ensures |r| <= 5
    ensures Distinct(r)
    ensures forall t :: t in r ==> IsKeyTerm(description, t)
    ensures description != "" ==> |r| == Min(5, |set t | t in AllTerms(description)|)
  {
    if description == "" then []
    else
      var all := Dedup(AllTerms(description), {});
      DedupCount(AllTerms(description));
      var r := Prefix(all, 5);
      assert forall i :: 0 <= i < |r| ==> r[i] == all[i];
      r
  }

  /** With at most five distinct candidate terms, none is lost. */
  lemma KeyTermsComplete(description: string)
    requires description != ""
    requires |set t | t in AllTerms(description)| <= 5
    ensures forall t :: t in AllTerms(description) ==> t in ExtractKeyTerms(description)
  {
    DedupCount(AllTerms(description));
  }

  // ---------------------------------------------------------------------
  // `_create_optimized_search_query`
  // ---------------------------------------------------------------------

  /** The pieces of the keyword query: the cleaned title, then at most three key terms. */
  function QueryParts(positionEn: string, descriptionEn: string): (parts: seq<string>)
    ensures |parts| <= 4
    ensures positionEn == "" ==> |parts| <= 3
    ensures forall i :: (if positionEn != "" then 1 else 0) <= i < |parts| ==> IsKeyTerm(descriptionEn, parts[i])
  {
    var terms := if descriptionEn != "" then Prefix(ExtractKeyTerms(descriptionEn), 3) else [];
    assert forall i :: 0 <= i < |terms| ==> terms[i] in ExtractKeyTerms(descriptionEn);
    (if positionEn != "" then [CleanPositionTitle(positionEn)] else []) + terms
  }

  function OptimizedSearchQuery(positionEn: string, descriptionEn: string): string {
    Join(" ", QueryParts(positionEn, descriptionEn))
  }

  /**
   * The keyword query leads with the cleaned position: its tokens are the
   * title's tokens followed by the tokens of the (at most three) key terms.
   */
  lemma QueryLeadsWithTitle(positionEn: string, descriptionEn: string)
    requires positionEn != ""
    ensures var terms := QueryParts(positionEn, descriptionEn)[1..];
      Split(OptimizedSearchQuery(positionEn, descriptionEn))
        == Split(CleanPositionTitle(positionEn)) + Split(Join(" ", terms))
    ensures |QueryParts(positionEn, descriptionEn)[1..]| <= 3
  {
    var parts := QueryParts(positionEn, descriptionEn);
    var title := CleanPositionTitle(positionEn);
    var terms := parts[1..];
    if terms == [] {
      assert parts == [title];
      assert title + [] == title;
    } else {
      assert parts == [title] + terms;
      assert Join(" ", parts) == title + " " + Join(" ", terms);
      SplitJoinSpace(title, Join(" ", terms));
    }
  }

  // ---------------------------------------------------------------------
  // `process_query`
  // ---------------------------------------------------------------------

  /** The external services `process_query` calls; `None` means the call raised or returned nothing. */
  datatype Services = Services(
    translate: string -> Option<string>,
    generateEmbedding: string -> Option<seq<real>>,
    reduceEmbedding: seq<real> -> Option<seq<real>>)

  /** `(combined_query, structured_mn, structured_en, query_embedding)`. */
  datatype ProcessedQuery = ProcessedQuery(
    combined: string, structuredMn: string, structuredEn: string, embedding: Option<seq<real>>)

  /** The embedding step: only for non-empty text, only for a non-empty raw vector. */
  function Embed(svc: Services, text: string): (e: Option<seq<real>>)
    ensures text == "" ==> e == None
    ensures e.Some? ==> exists raw :: svc.generateEmbedding(text) == Some(raw) && raw != [] && svc.reduceEmbedding(raw) == e
  {
    if text == "" then None
    else
      match svc.generateEmbedding(text)
      case None => None
      case Some(raw) => if raw == [] then None else svc.reduceEmbedding(raw)
  }

  /** Translation of a field; an empty field is not sent to the translator. */
  function TranslateField(svc: Services, text: string): Option<string> {
    if text == "" then Some("") else svc.translate(text)
  }

  function ProcessQuery(svc: Services, positionMn: string, descriptionMn: string): (r: ProcessedQuery)
    ensures Strip(positionMn) == "" && Strip(descriptionMn) == "" ==> r == ProcessedQuery("", "", "", None)
    ensures r.structuredMn == StructuredText(Strip(positionMn), Strip(descriptionMn))
    ensures r.embedding.Some? ==> r.structuredEn != ""
  {
    var p := Strip(positionMn);
    var d := Strip(descriptionMn);
    if p == "" && d == "" then ProcessedQuery("", "", "", None)
    else
      var pe := TranslateField(svc, p);
      var de := TranslateField(svc, d);
      if pe.None? || de.None? then
        var structured := StructuredText(p, d);
        ProcessedQuery(Strip(p + " " + d), structured, structured, None)
      else
        var structuredEn := StructuredText(pe.value, de.value);
        ProcessedQuery(
          OptimizedSearchQuery(pe.value, de.value),
          StructuredText(p, d),
          structuredEn,
          Embed(svc, structuredEn))
  }

  /**
   * When the translator raises, the query falls back to the stripped
   * originals: the keyword query is the two fields space-joined and
   * stripped, both structured texts are the original one, and there is no
   * embedding.
   */
  lemma TranslationFailureFallback(svc: Services, positionMn: string, descriptionMn: string)
    requires var p := Strip(positionMn); var d := Strip(descriptionMn);
      (p != "" && svc.translate(p).None?) || (d != "" && svc.translate(d).None?)
    ensures var p := Strip(positionMn); var d := Strip(descriptionMn);
      var r := ProcessQuery(svc, positionMn, descriptionMn);
      && r.combined == Strip(p + " " + d)
      && r.structuredEn == r.structuredMn
      && r.embedding == None
      && ('\n' !in p ==> ParseStructured(r.structuredEn) == (p, d))
  {
    var p := Strip(positionMn);
    var d := Strip(descriptionMn);
    assert !(p == "" && d == "");
    assert TranslateField(svc, p).None? || TranslateField(svc, d).None?;
    if '\n' !in p {
      StructuredTextRoundTrip(p, d);
    }
  }

  /** An embedding exists exactly when the text is non-empty and both embedding calls produced one. */
  lemma EmbedIff(svc: Services, text: string)
    ensures Embed(svc, text).Some? <==>
      text != "" && exists raw :: svc.generateEmbedding(text) == Some(raw) && raw != [] && svc.reduceEmbedding(raw).Some?
  {
    if text != "" && exists raw :: svc.generateEmbedding(text) == Some(raw) && raw != [] && svc.reduceEmbedding(raw).Some? {
      var raw :| svc.generateEmbedding(text) == Some(raw) && raw != [] && svc.reduceEmbedding(raw).Some?;
      assert Embed(svc, text) == svc.reduceEmbedding(raw);
    }
  }

  /**
   * When both translations succeed, the English structured text carries the
   * translations, the keyword query is built from them, and an embedding
   * exists only if that text is non-empty and the embedder returned a
   * non-empty vector for it.
   */
  lemma TranslatedQuery(svc: Services, positionMn: string, descriptionMn: string, pe: string, de: string)
    requires var p := Strip(positionMn); var d := Strip(descriptionMn);
      (p != "" || d != "") && TranslateField(svc, p) == Some(pe) && TranslateField(svc, d) == Some(de)
    ensures var r := ProcessQuery(svc, positionMn, descriptionMn);
      && r.structuredEn == StructuredText(pe, de)
      && r.combined == OptimizedSearchQuery(pe, de)
      && r.embedding == Embed(svc, r.structuredEn)
      && ('\n' !in pe ==> ParseStructured(r.structuredEn) == (pe, de))
  {
    if '\n' !in pe {
      StructuredTextRoundTrip(pe, de);
    }
  }
}

=== FILE: rows.dfy ===
/**
 * The row shape shared by the lexical index, the vector store, the fusion
 * step and the scorer. The source passes Python dicts whose keys appear and
 * disappear along the pipeline; here every key is a field and an absent key
 * is `None`.
 */
module Rows {
  import opened Wrappers

  /** The candidate's identity and contact columns (first_name, email, phone, ...), carried through untouched. */
  datatype Contact = Contact(fields: map<string, string>)

  /** The descriptive columns of an experience, carried through untouched. */
  datatype Texts = Texts(contentEn: string, contentMn: string, companyName: string, positionTitle: string)

  /** The `match_quality` band of an exact-tier hit. */
  datatype Quality = Perfect | Fuzzy | Partial

  /** One candidate experience as it travels through the search pipeline. */
  datatype Row = Row(
    id: int,                               // experience id ('id')
    candidateId: int,                      // 'candidate_id'
    texts: Texts,
    matchTier: Option<string>,             // 'match_tier'
    elasticsearchScore: Option<real>,      // 'elasticsearch_score'
    tierPriority: Option<real>,            // 'tier_priority'
    matchQuality: Option<Quality>,         // 'match_quality'
    normCosSim: Option<real>,              // 'norm_cos_sim', in [0, 1] when it comes from the vector store
    ftsEnRank: Option<real>,               // 'fts_vector_en_rank'
    ftsMnRank: Option<real>,               // 'fts_vector_mn_rank'
    spanDays: Option<int>,                 // days from start_date to end_date (or today); None: no usable start date
    combinedSearchScore: Option<real>,     // 'combined_search_score'
    esComponentScore: Option<real>,        // 'es_component_score'
    semanticComponentScore: Option<real>,  // 'semantic_component_score'
    finalScore: Option<real>,              // 'final_score'
    enhancedKeywordScore: Option<real>,    // 'enhanced_keyword_score'
    contact: Contact)

  /** The `match_tier` labels. */
  const TierExact: string := "exact"
  const TierRelevant: string := "relevant"
  const TierSimilar: string := "similar"
  const TierSemantic: string := "semantic"
  const TierSemanticOnly: string := "semantic_only"
  const TierUnknown: string := "unknown"

  /** The `tier_priority` of each lexical tier, and of a fused row found only by the vector store. */
  const ExactPriority: real := 1000000.0
  const RelevantPriority: real := 100000.0
  const SimilarPriority: real := 10000.0
  const SemanticOnlyPriority: real := 5000.0

  /** The tier labels the ranking compares are pairwise different. */
  lemma TierNamesDistinct()
    ensures TierExact != TierRelevant && TierExact != TierSimilar && TierRelevant != TierSimilar
    ensures TierSemanticOnly != TierExact && TierSemanticOnly != TierRelevant && TierSemanticOnly != TierSimilar
    ensures TierSemantic != TierSemanticOnly
  {
    assert TierExact[0] == 'e' && TierRelevant[0] == 'r' && TierSimilar[0] == 's';
    assert TierSemanticOnly[1] == 'e' && TierSimilar[1] == 'i';
    assert |TierSemantic| != |TierSemanticOnly|;
  }

  /** Python truthiness of an optional string: present and non-empty. */
  predicate Truthy(s: Option<string>) {
    s.Some? && s.value != ""
  }

  /** `row.get('elasticsearch_score', 0)`. */
  function EsScoreOrZero(r: Row): real {
    r.elasticsearchScore.GetOr(0.0)
  }

  function MinReal(a: real, b: real): real {
    if a <= b then a else b
  }

  function MaxReal(a: real, b: real): real {
    if a >= b then a else b
  }

  /** `min(es / 10000.0, 1.0)`: the lexical score brought to at most 1. */
  function NormalizedEs(es: real): (n: real)
    ensures n <= 1.0
    ensures 0.0 <= es ==> 0.0 <= n
    ensures es <= 10000.0 ==> n * 10000.0 == es
  {
    MinReal(es / 10000.0, 1.0)
  }
}

=== FILE: scorer.dfy ===
/**
 * Candidate scoring and aggregation (backend/search/candidate_scorer.py):
 * experience rows are scored one by one, grouped per candidate, filtered by
 * a strict score threshold, sorted by candidate score and truncated.
 *
 * Two modes share that pipeline. Tier mode (rows carry a `match_tier`)
 * first orders rows by tier priority and lexical score, scores each row by
 * its tier, and scores a candidate from its best experience plus a bonus.
 * Legacy mode scores rows by a weighted keyword/semantic sum and a candidate
 * by the experience-weighted sum of its rows above the threshold.
 */
module Scorer {
  import opened Wrappers
  import opened Rows
  import opened Ordering
  import opened Grouping
  import Helpers

  /** The scorer's channel weights (`keyword_weight`, `semantic_weight`). */
  datatype Weights = Weights(keyword: real, semantic: real)

  /** The weights of a scorer built without settings, as the search endpoint builds it. */
  const DefaultWeights: Weights := Weights(0.8, 0.2)

  /** One entry of a candidate's `experiences` list (an `ExperienceResponse`). */
  datatype Experience = Experience(
    texts: Texts,
    years: real,
    combinedScore: real,
    matchTier: Option<string>,
    elasticsearchScore: Option<real>,
    tierPriority: Option<real>)

  /** A `CandidateResponse`. */
  datatype Candidate = Candidate(candidateId: int, finalScore: real, experiences: seq<Experience>, contact: Contact)

  datatype Mode = TierMode | LegacyMode(weights: Weights)

  /** Years between the dates of an experience: `days / 365.25`, never negative, 0 without a usable start date. */
  function ExperienceYears(spanDays: Option<int>): (y: real)
    ensures y >= 0.0
    ensures spanDays.Some? && spanDays.value >= 0 ==> y * 365.25 == spanDays.value as real
    ensures spanDays.None? || spanDays.value <= 0 ==> y == 0.0
  {
    match spanDays
    case None => 0.0
    case Some(days) => MaxReal(days as real / 365.25, 0.0)
  }

  /** The tier priority map with its fallback: unknown and missing tiers weigh 1000. */
  function TierPriority(tier: Option<string>): real {
    match tier
    case None => 1000.0
    case Some(t) =>
      if t == TierExact then ExactPriority
      else if t == TierRelevant then RelevantPriority
      else if t == TierSimilar then SimilarPriority
      else if t == TierSemanticOnly then SemanticOnlyPriority
      else 1000.0
  }

  /**
   * The priorities rank the tiers strictly: exact over relevant over similar
   * over semantic-only over any other or missing tier, which all weigh the same.
   */
  lemma TierPriorityRanks(other: string)
    requires other !in {TierExact, TierRelevant, TierSimilar, TierSemanticOnly}
    ensures TierPriority(Some(TierExact)) > TierPriority(Some(TierRelevant)) > TierPriority(Some(TierSimilar))
      > TierPriority(Some(TierSemanticOnly)) > TierPriority(Some(other)) == TierPriority(None)
  {
  }

  /** Tier mode applies when one of the first five rows has a truthy `match_tier`. */
  predicate HasTiers(results: seq<Row>) {
    exists i :: 0 <= i < |results| && i < 5 && Truthy(results[i].matchTier)
  }

  /**
   * The tier score of one experience with lexical score `es` and experience
   * multiplier `m`. A missing tier is scored as 'similar'.
   */
  function TierScore(tier: Option<string>, es: real, years: real): (s: real)
    ensures 0.0 <= es && tier == Some(TierExact) ==> 130.0 <= s <= 160.0 + es * 0.016
    ensures 0.0 <= es && tier == Some(TierRelevant) ==> 12.0 <= s <= 14.0 + es * 0.0014
    ensures 0.0 <= es && tier != Some(TierExact) && tier != Some(TierRelevant) ==>
      1.1 <= s <= 1.2 + es * 0.00012
  {
    var m := Helpers.ExperienceMultiplier(years);
    var t := tier.GetOr(TierSimilar);
    if t == TierExact then
      var base := 100.0 + es / 100.0;
      if es >= 0.0 then ScaledBounds(base, 100.0, m, 0.3); base * (1.0 + m * 0.3)
      else base * (1.0 + m * 0.3)
    else if t == TierRelevant then
      var base := 10.0 + es / 1000.0;
      if es >= 0.0 then ScaledBounds(base, 10.0, m, 0.2); base * (1.0 + m * 0.2)
      else base * (1.0 + m * 0.2)
    else
      var base := 1.0 + es / 10000.0;
      if es >= 0.0 then ScaledBounds(base, 1.0, m, 0.1); base * (1.0 + m * 0.1)
      else base * (1.0 + m * 0.1)
  }

  /** A base score at least `lo`, boosted by `1 + m * f` for a multiplier `m` in [1, 2]. */
  lemma ScaledBounds(base: real, lo: real, m: real, f: real)
    requires 0.0 <= lo <= base && 1.0 <= m <= 2.0 && 0.0 <= f
    ensures lo * (1.0 + f) <= base * (1.0 + m * f) <= base * (1.0 + 2.0 * f)
  {
    assert base * (1.0 + m * f) - lo * (1.0 + f) == (base - lo) * (1.0 + m * f) + lo * ((m - 1.0) * f);
    assert base * (1.0 + 2.0 * f) - base * (1.0 + m * f) == base * ((2.0 - m) * f);
  }

  /** An experience as tier mode records it. */
  function TierExperience(row: Row): Experience {
    var years := ExperienceYears(row.spanDays);
    Experience(
      row.texts, years,
      TierScore(row.matchTier, EsScoreOrZero(row), years),
      Some(row.matchTier.GetOr(TierUnknown)),
      Some(EsScoreOrZero(row)),
      Some(TierPriority(row.matchTier)))
  }

  /** The legacy per-experience score: weighted keyword evidence plus weighted cosine similarity. */
  function LegacyCombined(row: Row, w: Weights): real {
    var semantic := row.normCosSim.GetOr(0.0);
    if row.elasticsearchScore.Some? then
      w.keyword * NormalizedEs(row.elasticsearchScore.value) + w.semantic * semantic
    else
      var keyword := MaxReal(row.ftsEnRank.GetOr(0.0), row.ftsMnRank.GetOr(0.0));
      w.keyword * MinReal(MaxReal(keyword, 0.0), 1.0) + w.semantic * semantic
  }

  /** An experience as legacy mode records it: no tier fields. */
  function LegacyExperience(row: Row, w: Weights): Experience {
    Experience(row.texts, ExperienceYears(row.spanDays), LegacyCombined(row, w), None, None, None)
  }

  function ExperienceOf(mode: Mode, row: Row): Experience {
    match mode
    case TierMode => TierExperience(row)
    case LegacyMode(w) => LegacyExperience(row, w)
  }

  function ExperiencesOf(mode: Mode, rows: seq<Row>): (exps: seq<Experience>)
    ensures |exps| == |rows|
    ensures forall i :: 0 <= i < |rows| ==> exps[i] == ExperienceOf(mode, rows[i])
  {
    seq(|rows|, i requires 0 <= i < |rows| => ExperienceOf(mode, rows[i]))
  }

  /** Index of the experience Python's `max(experiences, key=combined_score)` picks: the first maximal one. */
  function BestIndex(exps: seq<Experience>): (b: nat)
    requires exps != []
    ensures b < |exps|
    ensures forall j :: 0 <= j < |exps| ==> exps[j].combinedScore <= exps[b].combinedScore
    ensures forall j :: 0 <= j < b ==> exps[j].combinedScore < exps[b].combinedScore
  {
    if |exps| == 1 then 0
    else
      var b := BestIndex(exps[..|exps| - 1]);
      if exps[|exps| - 1].combinedScore > exps[b].combinedScore then |exps| - 1 else b
  }

  function SumCombined(exps: seq<Experience>): real {
    if exps == [] then 0.0 else exps[0].combinedScore + SumCombined(exps[1..])
  }

  lemma {:induction false} SumCombinedBounds(exps: seq<Experience>, lo: real, hi: real)
    requires forall j :: 0 <= j < |exps| ==> lo <= exps[j].combinedScore <= hi
    ensures |exps| as real * lo <= SumCombined(exps) <= |exps| as real * hi
  {
    if exps != [] {
      SumCombinedBounds(exps[1..], lo, hi);
    }
  }

  /**
   * Tier-mode candidate score: the best experience's score, plus 1000 when
   * that experience is an exact match, plus a tenth of the scores at list
   * positions 1 and 2 (whatever their rank).
   */
  function CandidateFinalScore(exps: seq<Experience>): (f: real)
    ensures exps == [] ==> f == 0.0
    ensures exps != [] && (forall j :: 0 <= j < |exps| ==> exps[j].combinedScore >= 0.0) ==>
      var best := exps[BestIndex(exps)];
      var bonus := if best.matchTier == Some(TierExact) then 1000.0 else 0.0;
      bonus + best.combinedScore <= f <= bonus + 1.2 * best.combinedScore
  {
    if exps == [] then 0.0
    else
      var best := exps[BestIndex(exps)];
      var boost := if best.matchTier == Some(TierExact) then 1000.0 + best.combinedScore else best.combinedScore;
      var others := exps[1..Min(3, |exps|)];
      if forall j :: 0 <= j < |exps| ==> exps[j].combinedScore >= 0.0 then
        assert forall j :: 0 <= j < |others| ==> 0.0 <= others[j].combinedScore <= best.combinedScore by {
          forall j | 0 <= j < |others| ensures 0.0 <= others[j].combinedScore <= best.combinedScore {
            assert others[j] == exps[j + 1];
          }
        }
        SumCombinedBounds(others, 0.0, best.combinedScore);
        boost + SumCombined(others) * 0.1
      else
        boost + SumCombined(others) * 0.1
  }

  /** The exact-match bonus and best score of a non-empty experience list. */
  function Boost(exps: seq<Experience>): real
    requires exps != []
  {
    var best := exps[BestIndex(exps)];
    (if best.matchTier == Some(TierExact) then 1000.0 else 0.0) + best.combinedScore
  }

  /**
   * The extra tenth comes from list positions 1 and 2, not from the next
   * best experiences: a best experience at position 1 or 2 is counted again.
   */
  lemma CandidateScorePositions(exps: seq<Experience>)
    requires exps != []
    ensures CandidateFinalScore(exps) ==
      Boost(exps)
      + 0.1 * (if |exps| > 1 then exps[1].combinedScore else 0.0)
      + 0.1 * (if |exps| > 2 then exps[2].combinedScore else 0.0)
  {
    var others := exps[1..Min(3, |exps|)];
    if |exps| > 2 {
      assert others[0] == exps[1] && others[1..][0] == exps[2];
      assert others[1..][1..] == [];
      assert SumCombined(others[1..]) == exps[2].combinedScore;
      assert SumCombined(others) == exps[1].combinedScore + exps[2].combinedScore;
    } else if |exps| > 1 {
      assert others[0] == exps[1];
      assert others[1..] == [];
      assert SumCombined(others) == exps[1].combinedScore;
    } else {
      assert others == [];
    }
  }

  /** Appending experiences that do not beat the best changes nothing once three are listed. */
  lemma CandidateScoreIgnoresLater(exps: seq<Experience>, tail: seq<Experience>)
    requires |exps| >= 3
    requires forall j :: 0 <= j < |tail| ==> tail[j].combinedScore <= exps[BestIndex(exps)].combinedScore
    ensures CandidateFinalScore(exps + tail) == CandidateFinalScore(exps)
  {
    var all := exps + tail;
    BestIndexExtend(exps, tail);
    CandidateScorePositions(exps);
    CandidateScorePositions(all);
    assert all[1] == exps[1] && all[2] == exps[2];
    assert all[BestIndex(all)] == exps[BestIndex(exps)];
  }

  /** A best experience at position 1 or 2 contributes a further tenth of its score. */
  lemma BestCountedTwice(exps: seq<Experience>)
    requires exps != [] && 1 <= BestIndex(exps) <= 2
    requires forall j :: 0 <= j < |exps| ==> exps[j].combinedScore >= 0.0
    ensures CandidateFinalScore(exps) >= Boost(exps) + 0.1 * exps[BestIndex(exps)].combinedScore
  {
    CandidateScorePositions(exps);
  }

  /** Experiences appended after the list that do not beat its best leave the best where it was. */
  lemma {:induction false} BestIndexExtend(exps: seq<Experience>, tail: seq<Experience>)
    requires exps != []
    requires forall j :: 0 <= j < |tail| ==> tail[j].combinedScore <= exps[BestIndex(exps)].combinedScore
    ensures BestIndex(exps + tail) == BestIndex(exps)
    decreases |tail|
  {
    if tail != [] {
      var init := tail[..|tail| - 1];
      var all := exps + tail;
      assert all[..|all| - 1] == exps + init;
      BestIndexExtend(exps, init);
      assert all[|all| - 1] == tail[|tail| - 1];
    } else {
      assert exps + tail == exps;
    }
  }

  /** The experiences with `combined_score > threshold`, in order. */
  function AboveThreshold(exps: seq<Experience>, threshold: real): (r: seq<Experience>)
    ensures forall e :: e in r <==> e in exps && e.combinedScore > threshold
    ensures |r| <= |exps|
  {
    if exps == [] then []
    else (if exps[0].combinedScore > threshold then [exps[0]] else []) + AboveThreshold(exps[1..], threshold)
  }

  /** Legacy candidate score: each experience above the threshold weighted by its experience multiplier. */
  function WeightedSum(exps: seq<Experience>): real {
    if exps == [] then 0.0
    else Helpers.ExperienceMultiplier(exps[0].years) * exps[0].combinedScore + WeightedSum(exps[1..])
  }

  /** The candidate score: tier mode scores all experiences, legacy mode only those above the threshold. */
  function FinalOf(mode: Mode, all: seq<Experience>, relevant: seq<Experience>): real {
    match mode
    case TierMode => CandidateFinalScore(all)
    case LegacyMode(_) => WeightedSum(relevant)
  }

  /**
   * One candidate from the rows filed under one candidate id, or nothing
   * when none of its experiences clears the threshold.
   */
  function MakeCandidate(b: Bucket<Row>, threshold: real, mode: Mode): (r: Option<Candidate>)
    ensures r.Some? <==> exists j :: 0 <= j < |b.members| && ExperienceOf(mode, b.members[j]).combinedScore > threshold
    ensures r.Some? ==> && r.value.candidateId == b.key
                        && r.value.contact == b.members[0].contact
                        && r.value.experiences == AboveThreshold(ExperiencesOf(mode, b.members), threshold)
                        && r.value.experiences != []
                        && r.value.finalScore == FinalOf(mode, ExperiencesOf(mode, b.members), r.value.experiences)
  {
    var all := ExperiencesOf(mode, b.members);
    var relevant := AboveThreshold(all, threshold);
    if relevant == [] then
      assert forall j :: 0 <= j < |b.members| ==> all[j] !in relevant;
      None
    else
      var e := relevant[0];
      assert e in relevant;
      Some(Candidate(b.key, FinalOf(mode, all, relevant), relevant, b.members[0].contact))
  }

  /** The candidate of one bucket as a list of at most one element. */
  function CandidateList(b: Bucket<Row>, threshold: real, mode: Mode): (h: seq<Candidate>)
    ensures |h| <= 1
    ensures forall c :: c in h ==> c.candidateId == b.key
  {
    match MakeCandidate(b, threshold, mode)
    case Some(c) => [c]
    case None => []
  }

  lemma CandidateListIsMake(b: Bucket<Row>, threshold: real, mode: Mode)
    ensures forall c :: c in CandidateList(b, threshold, mode) <==> MakeCandidate(b, threshold, mode) == Some(c)
  {
  }

  function CandidatesOf(bs: seq<Bucket<Row>>, threshold: real, mode: Mode): (cs: seq<Candidate>)
    ensures |cs| <= |bs|
  {
    if bs == [] then []
    else CandidateList(bs[0], threshold, mode) + CandidatesOf(bs[1..], threshold, mode)
  }

  function CandidateOf(row: Row): int {
    row.candidateId
  }

  /** Tier mode's row order: `(tier_priority, elasticsearch_score)`, descending. */
  function RowKey(row: Row): SortKey {
    SortKey(TierPriority(row.matchTier), EsScoreOrZero(row))
  }

  function FinalKey(c: Candidate): SortKey {
    SortKey(c.finalScore, 0.0)
  }

  /** The rows in the order the mode processes them. */
  function ScoringOrder(results: seq<Row>, mode: Mode): seq<Row> {
    match mode
    case TierMode => SortDesc(results, RowKey)
    case LegacyMode(_) => results
  }

  function ModeFor(results: seq<Row>, w: Weights): Mode {
    if HasTiers(results) then TierMode else LegacyMode(w)
  }

  /** Group, score and filter candidates, sort them by final score, keep the first `limit`. */
  function Rank(rows: seq<Row>, threshold: real, limit: int, mode: Mode): (r: seq<Candidate>)
    ensures 0 <= limit ==> |r| <= limit
    ensures forall i, j :: 0 <= i < j < |r| ==> r[i].finalScore >= r[j].finalScore
  {
    var sorted := SortDesc(Pool(rows, threshold, mode), FinalKey);
    PrefixSorted(sorted, limit, FinalKey);
    Prefix(sorted, limit)
  }

  /** `score_and_rank_candidates`. */
  function ScoreAndRank(results: seq<Row>, threshold: real, limit: int, w: Weights): (r: seq<Candidate>)
    ensures 0 <= limit ==> |r| <= limit
    ensures forall i, j :: 0 <= i < j < |r| ==> r[i].finalScore >= r[j].finalScore
  {
    var mode := ModeFor(results, w);
    Rank(ScoringOrder(results, mode), threshold, limit, mode)
  }

  function CandidateIdOf(c: Candidate): int {
    c.candidateId
  }

  /** The candidate that the rows of candidate `k`, taken in order, make on their own. */
  ghost function Qualifying(rows: seq<Row>, threshold: real, mode: Mode, k: int): Option<Candidate> {
    MakeCandidate(Bucket(k, Members(rows, CandidateOf, k)), threshold, mode)
  }

  /** A candidate qualifies exactly when one of its rows scores above the threshold. */
  lemma QualifyingIff(rows: seq<Row>, threshold: real, mode: Mode, k: int)
    ensures Qualifying(rows, threshold, mode, k).Some? <==>
      exists j :: 0 <= j < |rows| && rows[j].candidateId == k && ExperienceOf(mode, rows[j]).combinedScore > threshold
  {
    var ms := Members(rows, CandidateOf, k);
    MembersSound(rows, CandidateOf, k);
    MembersComplete(rows, CandidateOf, k);
    if Qualifying(rows, threshold, mode, k).Some? {
      var i :| 0 <= i < |ms| && ExperienceOf(mode, ms[i]).combinedScore > threshold;
      assert ms[i] in ms;
      var j :| 0 <= j < |rows| && rows[j] == ms[i];
      assert CandidateOf(rows[j]) == k;
    }
    if exists j :: 0 <= j < |rows| && rows[j].candidateId == k && ExperienceOf(mode, rows[j]).combinedScore > threshold {
      var j :| 0 <= j < |rows| && rows[j].candidateId == k && ExperienceOf(mode, rows[j]).combinedScore > threshold;
      assert CandidateOf(rows[j]) == k;
      assert rows[j] in ms;
      var i :| 0 <= i < |ms| && ms[i] == rows[j];
    }
  }

  lemma {:induction false} CandidatesOfFrom(bs: seq<Bucket<Row>>, threshold: real, mode: Mode)
    ensures forall c :: c in CandidatesOf(bs, threshold, mode) <==>
      exists i :: 0 <= i < |bs| && c in CandidateList(bs[i], threshold, mode)
  {
    if bs != [] {
      var tail := bs[1..];
      CandidatesOfFrom(tail, threshold, mode);
      forall c | (exists i :: 0 <= i < |bs| && c in CandidateList(bs[i], threshold, mode))
        ensures c in CandidatesOf(bs, threshold, mode)
      {
        var i :| 0 <= i < |bs| && c in CandidateList(bs[i], threshold, mode);
        if i > 0 {
          assert tail[i - 1] == bs[i];
        }
      }
      forall c | c in CandidatesOf(tail, threshold, mode)
        ensures exists i :: 0 <= i < |bs| && c in CandidateList(bs[i], threshold, mode)
      {
        var i :| 0 <= i < |tail| && c in CandidateList(tail[i], threshold, mode);
        assert bs[i + 1] == tail[i];
      }
    }
  }

  lemma {:induction false} CandidateIdsAreKeys(bs: seq<Bucket<Row>>, threshold: real, mode: Mode)
    ensures forall c :: c in CandidatesOf(bs, threshold, mode) ==> c.candidateId in Keys(bs)
  {
    if bs != [] {
      CandidateIdsAreKeys(bs[1..], threshold, mode);
      forall y | y in Keys(bs[1..]) ensures y in Keys(bs) {
        var i :| 0 <= i < |bs[1..]| && bs[1..][i].key == y;
        assert bs[i + 1].key == y;
      }
      assert bs[0].key in Keys(bs);
    }
  }

  lemma {:induction false} CandidatesOfDistinct(bs: seq<Bucket<Row>>, threshold: real, mode: Mode)
    requires DistinctKeys(bs)
    ensures DistinctBy(CandidatesOf(bs, threshold, mode), CandidateIdOf)
  {
    if bs != [] {
      var tail := bs[1..];
      CandidatesOfDistinct(tail, threshold, mode);
      CandidateIdsAreKeys(tail, threshold, mode);
      forall i | 0 <= i < |tail| ensures tail[i].key != bs[0].key {
        assert tail[i] == bs[i + 1];
      }
      assert bs[0].key !in Keys(tail);
      var head := CandidateList(bs[0], threshold, mode);
      var rest := CandidatesOf(tail, threshold, mode);
      assert head + rest == CandidatesOf(bs, threshold, mode);
      DistinctConcat(head, rest, bs[0].key, Keys(tail));
    }
  }

  /** A list of at most one candidate with a fresh id in front of a duplicate-free list stays duplicate-free. */
  lemma DistinctConcat(head: seq<Candidate>, rest: seq<Candidate>, k: int, ks: set<int>)
    requires |head| <= 1 && forall c :: c in head ==> c.candidateId == k
    requires forall c :: c in rest ==> c.candidateId in ks
    requires k !in ks
    requires DistinctBy(rest, CandidateIdOf)
    ensures DistinctBy(head + rest, CandidateIdOf)
  {
    var cs := head + rest;
    forall i, j | 0 <= i < j < |cs| ensures cs[i].candidateId != cs[j].candidateId {
      if i < |head| {
        assert cs[i] in head;
        assert cs[j] == rest[j - |head|];
        assert cs[j] in rest;
      } else {
        assert cs[i] == rest[i - |head|] && cs[j] == rest[j - |head|];
      }
    }
  }

  /** The ranking's candidate list before sorting and truncation. */
  function Pool(rows: seq<Row>, threshold: real, mode: Mode): (cs: seq<Candidate>)
    ensures |cs| <= |rows|
    ensures DistinctBy(cs, CandidateIdOf)
  {
    var bs := GroupBy(rows, CandidateOf);
    CandidatesOfDistinct(bs, threshold, mode);
    CandidatesOf(bs, threshold, mode)
  }

  /** The pool holds exactly the qualifying candidates. */
  lemma PoolIff(rows: seq<Row>, threshold: real, mode: Mode)
    ensures forall c :: c in Pool(rows, threshold, mode) <==> Qualifying(rows, threshold, mode, c.candidateId) == Some(c)
  {
    var bs := GroupBy(rows, CandidateOf);
    var cs := CandidatesOf(bs, threshold, mode);
    GroupByFaithful(rows, CandidateOf);
    CandidatesOfFrom(bs, threshold, mode);
    forall c: Candidate | Qualifying(rows, threshold, mode, c.candidateId) == Some(c) ensures c in cs {
      var k := c.candidateId;
      MembersNonEmpty(rows, CandidateOf, k);
      assert k in Keys(bs);
      var i :| 0 <= i < |bs| && bs[i].key == k;
      assert bs[i] == Bucket(k, Members(rows, CandidateOf, k));
      CandidateListIsMake(bs[i], threshold, mode);
      assert c in CandidateList(bs[i], threshold, mode);
    }
    forall c | c in cs ensures Qualifying(rows, threshold, mode, c.candidateId) == Some(c) {
      var i :| 0 <= i < |bs| && c in CandidateList(bs[i], threshold, mode);
      CandidateListIsMake(bs[i], threshold, mode);
      assert bs[i] == Bucket(c.candidateId, Members(rows, CandidateOf, c.candidateId));
    }
  }

  /** Filtering keeps input order: it distributes over concatenation. */
  lemma {:induction false} AboveThresholdAppend(a: seq<Experience>, b: seq<Experience>, threshold: real)
    ensures AboveThreshold(a + b, threshold) == AboveThreshold(a, threshold) + AboveThreshold(b, threshold)
  {
    if a != [] {
      assert (a + b)[1..] == a[1..] + b;
      AboveThresholdAppend(a[1..], b, threshold);
    } else {
      assert a + b == b;
    }
  }

  /** The ranked list never holds a candidate id twice. */
  lemma RankDistinct(rows: seq<Row>, threshold: real, limit: int, mode: Mode)
    ensures DistinctBy(Rank(rows, threshold, limit, mode), CandidateIdOf)
  {
    var pool := Pool(rows, threshold, mode);
    var sorted := SortDesc(pool, FinalKey);
    var r := Prefix(sorted, limit);
    SortDescDistinct(pool, FinalKey, CandidateIdOf);
    forall i, j | 0 <= i < j < |r| ensures r[i].candidateId != r[j].candidateId {
      assert r[i] == sorted[i] && r[j] == sorted[j];
    }
  }

  /** Every ranked entry is the candidate that all rows of its candidate id make. */
  lemma RankSound(rows: seq<Row>, threshold: real, limit: int, mode: Mode)
    ensures forall c :: c in Rank(rows, threshold, limit, mode) ==> Qualifying(rows, threshold, mode, c.candidateId) == Some(c)
  {
    var pool := Pool(rows, threshold, mode);
    var sorted := SortDesc(pool, FinalKey);
    var r := Prefix(sorted, limit);
    PoolIff(rows, threshold, mode);
    PrefixSorted(sorted, limit, FinalKey);
    forall c | c in r ensures c in pool {
      assert c in multiset(sorted);
    }
  }

  /**
   * A pooled (that is, qualifying) candidate is missing from the ranking only
   * when the list is full of candidates scoring at least as high.
   */
  lemma RankComplete(rows: seq<Row>, threshold: real, limit: int, mode: Mode, c: Candidate)
    requires c in Pool(rows, threshold, mode)
    ensures var r := Rank(rows, threshold, limit, mode);
      c in r || ((0 <= limit ==> |r| == limit) && forall d :: d in r ==> d.finalScore >= c.finalScore)
  {
    var pool := Pool(rows, threshold, mode);
    var sorted := SortDesc(pool, FinalKey);
    var r := Prefix(sorted, limit);
    assert c in multiset(sorted);
    var p :| 0 <= p < |sorted| && sorted[p] == c;
    if p < |r| {
      assert r[p] == c;
    } else {
      PrefixLeavesBelow(sorted, limit, FinalKey, p);
    }
  }

  /** Some row of candidate `k` scores strictly above the threshold. */
  ghost predicate HasRowAbove(rows: seq<Row>, threshold: real, mode: Mode, k: int) {
    exists j :: 0 <= j < |rows| && rows[j].candidateId == k && ExperienceOf(mode, rows[j]).combinedScore > threshold
  }

  lemma HasRowAbovePermutation(rows: seq<Row>, results: seq<Row>, threshold: real, mode: Mode, k: int)
    requires multiset(rows) == multiset(results)
    ensures HasRowAbove(rows, threshold, mode, k) <==> HasRowAbove(results, threshold, mode, k)
  {
    if HasRowAbove(rows, threshold, mode, k) {
      var j :| 0 <= j < |rows| && rows[j].candidateId == k && ExperienceOf(mode, rows[j]).combinedScore > threshold;
      assert rows[j] in multiset(results);
      var i :| 0 <= i < |results| && results[i] == rows[j];
    }
    if HasRowAbove(results, threshold, mode, k) {
      var j :| 0 <= j < |results| && results[j].candidateId == k && ExperienceOf(mode, results[j]).combinedScore > threshold;
      assert results[j] in multiset(rows);
      var i :| 0 <= i < |rows| && rows[i] == results[j];
    }
  }

  /** The pool holds a candidate with id `k` exactly when a row of `k` scores above the threshold. */
  lemma PoolHasId(rows: seq<Row>, threshold: real, mode: Mode, k: int)
    ensures (exists c :: c in Pool(rows, threshold, mode) && c.candidateId == k) <==> HasRowAbove(rows, threshold, mode, k)
  {
    QualifyingIff(rows, threshold, mode, k);
    PoolIff(rows, threshold, mode);
    if HasRowAbove(rows, threshold, mode, k) {
      var c := Qualifying(rows, threshold, mode, k).value;
      assert c.candidateId == k;
      assert c in Pool(rows, threshold, mode);
    }
  }

  /** With room for every row nothing is truncated: the ranking holds the whole pool. */
  lemma RankKeepsPool(rows: seq<Row>, threshold: real, limit: int, mode: Mode)
    requires |rows| <= limit
    ensures forall c :: c in Rank(rows, threshold, limit, mode) <==> c in Pool(rows, threshold, mode)
  {
    var pool := Pool(rows, threshold, mode);
    var sorted := SortDesc(pool, FinalKey);
    assert Prefix(sorted, limit) == sorted;
    forall c ensures c in sorted <==> c in pool {
      assert c in sorted <==> c in multiset(sorted);
      assert c in pool <==> c in multiset(pool);
    }
  }

  /**
   * With room for every row, a candidate id appears in the ranking exactly
   * when one of its rows scores strictly above the threshold.
   */
  lemma ScoreAndRankReturns(results: seq<Row>, threshold: real, limit: int, w: Weights, k: int)
    requires |results| <= limit
    ensures (exists c :: c in ScoreAndRank(results, threshold, limit, w) && c.candidateId == k) <==>
      HasRowAbove(results, threshold, ModeFor(results, w), k)
  {
    var mode := ModeFor(results, w);
    var rows := ScoringOrder(results, mode);
    assert multiset(rows) == multiset(results);
    RankKeepsPool(rows, threshold, limit, mode);
    PoolHasId(rows, threshold, mode, k);
    HasRowAbovePermutation(rows, results, threshold, mode, k);
  }

  /** Rows after the fifth never decide the scoring mode. */
  lemma ModeFromFirstFive(results: seq<Row>, extra: seq<Row>, w: Weights)
    requires |results| >= 5
    ensures ModeFor(results + extra, w) == ModeFor(results, w)
  {
    var all := results + extra;
    assert forall i :: 0 <= i < 5 ==> all[i] == results[i];
  }

  /** Legacy per-experience scores lie between 0 and the sum of the weights. */
  lemma LegacyCombinedBounds(row: Row, w: Weights)
    requires 0.0 <= w.keyword && 0.0 <= w.semantic
    requires 0.0 <= row.normCosSim.GetOr(0.0) <= 1.0
    requires row.elasticsearchScore.Some? ==> 0.0 <= row.elasticsearchScore.value
    ensures 0.0 <= LegacyCombined(row, w) <= w.keyword + w.semantic
  {
    var sem := row.normCosSim.GetOr(0.0);
    var kw := if row.elasticsearchScore.Some? then NormalizedEs(row.elasticsearchScore.value)
      else MinReal(MaxReal(MaxReal(row.ftsEnRank.GetOr(0.0), row.ftsMnRank.GetOr(0.0)), 0.0), 1.0);
    assert 0.0 <= kw <= 1.0;
    assert 0.0 <= w.keyword * kw && 0.0 <= w.semantic * sem;
    assert LegacyCombined(row, w) == w.keyword * kw + w.semantic * sem;
    assert w.keyword * kw <= w.keyword by {
      assert w.keyword - w.keyword * kw == w.keyword * (1.0 - kw);
      assert 0.0 <= w.keyword * (1.0 - kw);
    }
    assert w.semantic * sem <= w.semantic by {
      assert w.semantic - w.semantic * sem == w.semantic * (1.0 - sem);
      assert 0.0 <= w.semantic * (1.0 - sem);
    }
  }

  /** With non-negative scores the legacy total lies between the plain sum and twice it. */
  lemma {:induction false} WeightedSumBounds(exps: seq<Experience>)
    requires forall j :: 0 <= j < |exps| ==> exps[j].combinedScore >= 0.0
    ensures SumCombined(exps) <= WeightedSum(exps) <= 2.0 * SumCombined(exps)
  {
    if exps != [] {
      WeightedSumBounds(exps[1..]);
      var m := Helpers.ExperienceMultiplier(exps[0].years);
      var x := exps[0].combinedScore;
      assert x <= m * x <= 2.0 * x by {
        assert m * x - x == (m - 1.0) * x;
        assert 2.0 * x - m * x == (2.0 - m) * x;
      }
    }
  }

  /** What tier scoring guarantees of an experience whose lexical score is at most 100000. */
  ghost predicate TierBounded(e: Experience) {
    && 0.0 <= e.combinedScore
    && (e.matchTier == Some(TierExact) ==> 130.0 <= e.combinedScore)
    && (e.matchTier != Some(TierExact) ==> e.combinedScore <= 154.0)
  }

  lemma TierExperienceBounded(row: Row)
    requires 0.0 <= EsScoreOrZero(row) <= 100000.0
    ensures TierBounded(TierExperience(row))
  {
  }

  /**
   * Under tier scoring a candidate reaches 1000 exactly when its best
   * experience is an exact match: the exact bonus dominates every other score.
   */
  lemma ExactBonusIff(exps: seq<Experience>)
    requires exps != []
    requires forall j :: 0 <= j < |exps| ==> TierBounded(exps[j])
    ensures CandidateFinalScore(exps) >= 1000.0 <==> exps[BestIndex(exps)].matchTier == Some(TierExact)
  {
    var best := exps[BestIndex(exps)];
    assert TierBounded(best);
  }

  /** In tier mode, the best of all experiences of the candidate's rows is an exact match. */
  ghost predicate ExactBest(rows: seq<Row>, c: Candidate) {
    var all := ExperiencesOf(TierMode, Members(rows, CandidateOf, c.candidateId));
    all != [] && all[BestIndex(all)].matchTier == Some(TierExact)
  }

  ghost predicate EsBounded(rows: seq<Row>) {
    forall j :: 0 <= j < |rows| ==> 0.0 <= EsScoreOrZero(rows[j]) <= 100000.0
  }

  lemma ExactBestIff(rows: seq<Row>, threshold: real, c: Candidate)
    requires EsBounded(rows)
    requires Qualifying(rows, threshold, TierMode, c.candidateId) == Some(c)
    ensures c.finalScore >= 1000.0 <==> ExactBest(rows, c)
  {
    var ms := Members(rows, CandidateOf, c.candidateId);
    var all := ExperiencesOf(TierMode, ms);
    MembersSound(rows, CandidateOf, c.candidateId);
    forall j | 0 <= j < |all| ensures TierBounded(all[j]) {
      assert ms[j] in ms;
      TierExperienceBounded(ms[j]);
    }
    ExactBonusIff(all);
  }

  /**
   * Exact matches always win: with lexical scores in [0, 100000], tier-mode
   * ranking lists every candidate whose best experience is exact before every
   * candidate whose best experience is not.
   */
  lemma RankExactFirst(rows: seq<Row>, threshold: real, limit: int)
    requires EsBounded(rows)
    ensures var r := Rank(rows, threshold, limit, TierMode);
      forall i, j :: 0 <= i < j < |r| && ExactBest(rows, r[j]) ==> ExactBest(rows, r[i])
  {
    var r := Rank(rows, threshold, limit, TierMode);
    RankSound(rows, threshold, limit, TierMode);
    forall i, j | 0 <= i < j < |r| && ExactBest(rows, r[j]) ensures ExactBest(rows, r[i]) {
      assert r[i] in r && r[j] in r;
      ExactBestIff(rows, threshold, r[i]);
      ExactBestIff(rows, threshold, r[j]);
    }
  }
}

=== FILE: text.dfy ===
/**
 * The handful of Python string operations the search core relies on:
 * `isspace`, `strip`, `split()`, `" ".join`, `lower`, `in` (substring),
 * `replace`, and the ASCII test `ord(c) < 128`.
 */
module Text {

  /** Python's `str.isspace()` on one character; also the separator set of `split()` and `strip()`. */
  predicate IsSpace(c: char) {
    c == ' ' || ('\t' <= c <= '\r') || ('\U{1c}' <= c <= '\U{1f}')
    || c == '\U{85}' || c == '\U{a0}' || c == '\U{1680}'
    || ('\U{2000}' <= c <= '\U{200a}') || c == '\U{2028}' || c == '\U{2029}'
    || c == '\U{202f}' || c == '\U{205f}' || c == '\U{3000}'
  }

  predicate IsAscii(c: char) {
    (c as int) < 128
  }

  /** Number of characters `c` of `s` with `ord(c) < 128`. */
  function AsciiCount(s: string): (n: nat)
    ensures n <= |s|
  {
    if s == [] then 0 else (if IsAscii(s[0]) then 1 else 0) + AsciiCount(s[1..])
  }

  /** `sum(1 for c in s if ord(c) < 128) / len(s)`. */
  function AsciiRatio(s: string): (r: real)
    requires s != []
    ensures 0.0 <= r <= 1.0
    ensures r * |s| as real == AsciiCount(s) as real
  {
    AsciiCount(s) as real / |s| as real
  }

  /**
   * Lower-casing of one character, for ASCII, the Latin-1 capitals, the
   * basic Cyrillic block (U+0400..U+042F) and the two Mongolian Cyrillic
   * capitals Ү and Ө; every other character is left as it is.
   */
  function LowerChar(c: char): (d: char)
    ensures IsSpace(d) <==> IsSpace(c)
    ensures IsAscii(d) <==> IsAscii(c)
  {
    if 'A' <= c <= 'Z' then (c as int + 32) as char
    else if '\U{c0}' <= c <= '\U{de}' && c != '\U{d7}' then (c as int + 32) as char
    else if '\U{410}' <= c <= '\U{42f}' then (c as int + 32) as char
    else if '\U{400}' <= c <= '\U{40f}' then (c as int + 80) as char
    else if c == '\U{4ae}' || c == '\U{4e8}' then (c as int + 1) as char
    else c
  }

  lemma LowerCharIdempotent(c: char)
    ensures LowerChar(LowerChar(c)) == LowerChar(c)
  {
  }

  function Lower(s: string): (r: string)
    ensures |r| == |s|
    ensures forall i :: 0 <= i < |s| ==> r[i] == LowerChar(s[i])
  {
    seq(|s|, i requires 0 <= i < |s| => LowerChar(s[i]))
  }

  lemma LowerIdempotent(s: string)
    ensures Lower(Lower(s)) == Lower(s)
  {
    forall i | 0 <= i < |s|
      ensures Lower(Lower(s))[i] == Lower(s)[i]
    {
      LowerCharIdempotent(s[i]);
    }
  }

  /** `s.lstrip()` for an arbitrary set of stripped characters. */
  function StripLeftBy(s: string, drop: char -> bool): (r: string)
    ensures |r| <= |s| && r == s[|s| - |r|..]
    ensures r == [] || !drop(r[0])
    ensures forall i :: 0 <= i < |s| - |r| ==> drop(s[i])
  {
    if s != [] && drop(s[0]) then
      var r := StripLeftBy(s[1..], drop);
      assert s[1..][|s| - 1 - |r|..] == s[|s| - |r|..];
      assert forall i :: 1 <= i < |s| - |r| ==> s[i] == s[1..][i - 1];
      r
    else s
  }

  /** `s.rstrip()` for an arbitrary set of stripped characters. */
  function StripRightBy(s: string, drop: char -> bool): (r: string)
    ensures |r| <= |s| && r == s[..|r|]
    ensures r == [] || !drop(r[|r| - 1])
    ensures forall i :: |r| <= i < |s| ==> drop(s[i])
  {
    if s != [] && drop(s[|s| - 1]) then StripRightBy(s[..|s| - 1], drop) else s
  }

  /** `s.strip(chars)`: both ends, every character satisfying `drop` removed. */
  function StripBy(s: string, drop: char -> bool): string {
    StripRightBy(StripLeftBy(s, drop), drop)
  }

  /** Python's `s.strip()`. */
  function Strip(s: string): (r: string)
    ensures r == [] || (!IsSpace(r[0]) && !IsSpace(r[|r| - 1]))
    ensures r == [] <==> forall i :: 0 <= i < |s| ==> IsSpace(s[i])
  {
    StripEmptyIff(s);
    StripBy(s, IsSpace)
  }

  lemma StripEmptyIff(s: string)
    ensures var r := StripBy(s, IsSpace);
      && (r == [] || (!IsSpace(r[0]) && !IsSpace(r[|r| - 1])))
      && (r == [] <==> forall i :: 0 <= i < |s| ==> IsSpace(s[i]))
  {
    var l := StripLeftBy(s, IsSpace);
    var r := StripRightBy(l, IsSpace);
    if r == [] {
      assert l == [];
    } else {
      assert r[0] == l[0] == s[|s| - |l|];
    }
  }

  lemma StripLeftByNoop(s: string, drop: char -> bool)
    requires s == [] || !drop(s[0])
    ensures StripLeftBy(s, drop) == s
  {
  }

  lemma StripRightByNoop(s: string, drop: char -> bool)
    requires s == [] || !drop(s[|s| - 1])
    ensures StripRightBy(s, drop) == s
  {
  }

  /** Stripping a string whose ends survive `drop` changes nothing. */
  lemma StripByNoop(s: string, drop: char -> bool)
    requires s == [] || (!drop(s[0]) && !drop(s[|s| - 1]))
    ensures StripBy(s, drop) == s
  {
    StripLeftByNoop(s, drop);
    StripRightByNoop(s, drop);
  }

  /** Length of the leading run of non-space characters. */
  function WordEnd(s: string): (k: nat)
    ensures k <= |s|
    ensures forall i :: 0 <= i < k ==> !IsSpace(s[i])
    ensures k == |s| || IsSpace(s[k])
  {
    if s == [] || IsSpace(s[0]) then 0 else 1 + WordEnd(s[1..])
  }

  /** A token of `split()`: non-empty, no whitespace. */
  predicate IsWord(w: string) {
    |w| > 0 && forall i :: 0 <= i < |w| ==> !IsSpace(w[i])
  }

  /** Python's `s.split()` with no argument: maximal runs of non-whitespace. */
  function Split(s: string): (ws: seq<string>)
    ensures forall i :: 0 <= i < |ws| ==> IsWord(ws[i])
    ensures forall i, j :: 0 <= i < |ws| && 0 <= j < |ws[i]| ==> ws[i][j] in s
    decreases |s|
  {
    if s == [] then []
    else if IsSpace(s[0]) then Split(s[1..])
    else
      var k := WordEnd(s);
      [s[..k]] + Split(s[k..])
  }

  /** Python's `sep.join(parts)`. */
  function Join(sep: string, parts: seq<string>): string {
    if parts == [] then ""
    else if |parts| == 1 then parts[0]
    else parts[0] + sep + Join(sep, parts[1..])
  }

  lemma JoinTwo(sep: string, a: string, b: string)
    ensures Join(sep, [a, b]) == a + sep + b
  {
    assert [a, b][1..] == [b];
  }

  /** Every character of a join is a separator character or comes from a part. */
  lemma JoinChars(sep: string, parts: seq<string>, c: char)
    requires c in Join(sep, parts)
    ensures c in sep || exists i, j :: 0 <= i < |parts| && 0 <= j < |parts[i]| && parts[i][j] == c
  {
    if |parts| > 1 {
      var rest := Join(sep, parts[1..]);
      if c in parts[0] {
        var j :| 0 <= j < |parts[0]| && parts[0][j] == c;
        assert parts[0][j] == c;
      } else if c !in sep {
        assert c in rest;
        JoinChars(sep, parts[1..], c);
        var i, j :| 0 <= i < |parts[1..]| && 0 <= j < |parts[1..][i]| && parts[1..][i][j] == c;
        assert parts[i + 1][j] == c;
      }
    } else if |parts| == 1 {
      var j :| 0 <= j < |parts[0]| && parts[0][j] == c;
      assert parts[0][j] == c;
    }
  }

  lemma WordEndOfWordThenSpace(w: string, t: string)
    requires forall i :: 0 <= i < |w| ==> !IsSpace(w[i])
    requires t == [] || IsSpace(t[0])
    ensures WordEnd(w + t) == |w|
  {
    var wt := w + t;
    assert forall i :: 0 <= i < |w| ==> wt[i] == w[i];
    if t != [] {
      assert wt[|w|] == t[0];
    }
    WordEndUnique(wt, |w|);
  }

  /** `split()` undoes `" ".join` of words: the two form a round trip. */
  lemma {:induction false} SplitJoin(ws: seq<string>)
    requires forall i :: 0 <= i < |ws| ==> IsWord(ws[i])
    ensures Split(Join(" ", ws)) == ws
  {
    if ws == [] {
    } else if |ws| == 1 {
      var w := ws[0];
      WordEndOfWordThenSpace(w, []);
      assert w + [] == w;
      assert w[..|w|] == w;
      assert Split(w) == [w] + Split(w[|w|..]);
    } else {
      var w := ws[0];
      var rest := Join(" ", ws[1..]);
      var s := w + " " + rest;
      assert s == w + (" " + rest);
      WordEndOfWordThenSpace(w, " " + rest);
      assert s[..|w|] == w;
      assert s[|w|..] == " " + rest;
      assert (" " + rest)[1..] == rest;
      assert Split(" " + rest) == Split(rest);
      SplitJoin(ws[1..]);
      assert ws == [w] + ws[1..];
    }
  }

  /**
   * The shape of `" ".join(words)`: every whitespace character in it is a
   * single ASCII space with non-space neighbours on both sides.
   */
  lemma {:induction false} JoinWordsShape(ws: seq<string>)
    requires forall i :: 0 <= i < |ws| ==> IsWord(ws[i])
    ensures var r := Join(" ", ws);
      forall i :: 0 <= i < |r| && IsSpace(r[i]) ==>
        r[i] == ' ' && 0 < i < |r| - 1 && !IsSpace(r[i - 1]) && !IsSpace(r[i + 1])
    ensures Join(" ", ws) == [] <==> ws == []
  {
    if |ws| > 1 {
      var w := ws[0];
      var rest := Join(" ", ws[1..]);
      JoinWordsShape(ws[1..]);
      var r := Join(" ", ws);
      assert r == w + " " + rest;
      assert forall k :: 0 <= k < |w| ==> r[k] == w[k];
      forall i | 0 <= i < |r| && IsSpace(r[i])
        ensures r[i] == ' ' && 0 < i < |r| - 1 && !IsSpace(r[i - 1]) && !IsSpace(r[i + 1])
      {
        if i == |w| {
          assert r[i - 1] == w[|w| - 1];
          assert r[i + 1] == rest[0];
        } else if i > |w| {
          assert r[i] == rest[i - |w| - 1];
          var k := i - |w| - 1;
          if k == 0 {
            assert false;
          }
          assert r[i - 1] == rest[k - 1];
          assert r[i + 1] == rest[k + 1];
        }
      }
    }
  }

  /** `WordEnd` is the first whitespace position, or the length when there is none. */
  lemma {:induction false} WordEndUnique(s: string, k: nat)
    requires k <= |s|
    requires forall i :: 0 <= i < k ==> !IsSpace(s[i])
    requires k == |s| || IsSpace(s[k])
    ensures WordEnd(s) == k
  {
    if s != [] && !IsSpace(s[0]) {
      WordEndUnique(s[1..], k - 1);
    }
  }

  /** Splitting at a space separates the two sides: `split()` of `a + " " + b` is `split(a) + split(b)`. */
  lemma {:induction false} SplitJoinSpace(a: string, b: string)
    ensures Split(a + " " + b) == Split(a) + Split(b)
    decreases |a|
  {
    var s := a + " " + b;
    if a == [] {
      assert s[1..] == b;
    } else if IsSpace(a[0]) {
      assert s[1..] == a[1..] + " " + b;
      SplitJoinSpace(a[1..], b);
    } else {
      var k := WordEnd(a);
      WordEndUnique(s, k);
      assert s[..k] == a[..k];
      assert s[k..] == a[k..] + " " + b;
      SplitJoinSpace(a[k..], b);
    }
  }

  predicate StartsWith(s: string, prefix: string) {
    |prefix| <= |s| && s[..|prefix|] == prefix
  }

  /** Python's `s.index(c)`: the first position of `c`. */
  function IndexOf(s: string, c: char): (k: nat)
    requires c in s
    ensures k < |s| && s[k] == c
    ensures forall i :: 0 <= i < k ==> s[i] != c
  {
    if s[0] == c then 0
    else
      assert c in s[1..];
      1 + IndexOf(s[1..], c)
  }

  /** The first `c` in `x + [c] + y` is the one after `x` when `x` holds none. */
  lemma IndexOfFirst(x: string, c: char, y: string)
    requires c !in x
    ensures IndexOf(x + [c] + y, c) == |x|
  {
    var s := x + [c] + y;
    assert forall i :: 0 <= i < |x| ==> s[i] == x[i];
    assert s[|x|] == c;
  }

  /** Python's `pat in s` on strings. */
  predicate Contains(s: string, pat: string)
    decreases |s|
  {
    |pat| <= |s| && (s[..|pat|] == pat || Contains(s[1..], pat))
  }

  /** `pat` occurs in `s` starting at index `i`. */
  ghost predicate OccursAt(s: string, pat: string, i: int) {
    0 <= i && i + |pat| <= |s| && s[i..i + |pat|] == pat
  }

  /** `Contains` is the substring relation. */
  lemma {:induction false} ContainsIff(s: string, pat: string)
    ensures Contains(s, pat) <==> exists i :: OccursAt(s, pat, i)
    decreases |s|
  {
    if |pat| <= |s| && s[..|pat|] != pat {
      ContainsIff(s[1..], pat);
      if exists i :: OccursAt(s[1..], pat, i) {
        var i :| OccursAt(s[1..], pat, i);
        assert s[i + 1..i + 1 + |pat|] == s[1..][i..i + |pat|];
        assert OccursAt(s, pat, i + 1);
      }
      if exists i :: OccursAt(s, pat, i) {
        var i :| OccursAt(s, pat, i);
        assert i != 0;
        assert s[1..][i - 1..i - 1 + |pat|] == s[i..i + |pat|];
        assert OccursAt(s[1..], pat, i - 1);
      }
    } else if |pat| <= |s| {
      assert OccursAt(s, pat, 0);
    } else {
      assert forall i :: !OccursAt(s, pat, i);
    }
  }

  /** Python's `s.replace(c, '')` for one character. */
  function RemoveChar(s: string, c: char): (r: string)
    ensures c !in r
    ensures forall d :: d in r ==> d in s
    ensures c !in s ==> r == s
  {
    if s == [] then []
    else (if s[0] == c then [] else [s[0]]) + RemoveChar(s[1..], c)
  }

  /** Python's `s.replace(pat, rep)`: non-overlapping occurrences, left to right. */
  function ReplaceAll(s: string, pat: string, rep: string): (r: string)
    requires |pat| > 0
    ensures forall d :: d in r ==> d in s || d in rep
    ensures pat[0] !in s ==> r == s
    decreases |s|
  {
    if |s| < |pat| then s
    else if s[..|pat|] == pat then rep + ReplaceAll(s[|pat|..], pat, rep)
    else [s[0]] + ReplaceAll(s[1..], pat, rep)
  }
}

=== FILE: translator.dfy ===
/**
 * The Mongolian-to-English translator (`Translator`): the normalised cache
 * key, the in-memory cache with its time-to-live and lazy eviction, input
 * cleaning, the validity check on a translation, the ASCII-ratio language
 * guess, and the control flow of `translate_mongolian_to_english`.
 *
 * The chat-completion API call and the database cache table are oracles
 * (`None` = the call raised or found nothing); wall-clock time is a
 * parameter `now` in seconds. The MD5 digest of the key is taken to be
 * injective, so the normalised text itself serves as the key.
 */
module Translator {
  import opened Wrappers
  import opened Text
  import opened Ordering
  import PriorityLayers

  /** `_get_text_hash` before hashing: `text.strip().lower()`. */
  function TextKey(text: string): (k: string)
    ensures |k| <= |text|
    ensures k == [] || (!IsSpace(k[0]) && !IsSpace(k[|k| - 1]))
  {
    Lower(Strip(text))
  }

  /** Normalising a key again changes nothing, so a key is its own key. */
  lemma TextKeyIdempotent(text: string)
    ensures TextKey(TextKey(text)) == TextKey(text)
  {
    var k := TextKey(text);
    StripByNoop(k, IsSpace);
    LowerIdempotent(Strip(text));
  }

  /** Texts that differ only in surrounding whitespace share a cache key. */
  lemma TextKeyIgnoresPadding(left: string, text: string, right: string)
    requires forall i :: 0 <= i < |left| ==> IsSpace(left[i])
    requires forall i :: 0 <= i < |right| ==> IsSpace(right[i])
    ensures TextKey(left + text + right) == TextKey(text)
  {
    StripPadding(left, text, right);
  }

  lemma StripPadding(left: string, text: string, right: string)
    requires forall i :: 0 <= i < |left| ==> IsSpace(left[i])
    requires forall i :: 0 <= i < |right| ==> IsSpace(right[i])
    ensures Strip(left + text + right) == Strip(text)
  {
    var s := left + text + right;
    assert s == left + (text + right);
    StripLeftPadding(text + right, left);
    StripLeftAppend(text, right);
    var l := StripLeftBy(text, IsSpace);
    if StripLeftBy(text + right, IsSpace) == l + right {
      StripRightPadding(l, right);
    }
  }

  lemma {:induction false} StripLeftPadding(text: string, pad: string)
    requires forall i :: 0 <= i < |pad| ==> IsSpace(pad[i])
    ensures StripLeftBy(pad + text, IsSpace) == StripLeftBy(text, IsSpace)
  {
    if pad != [] {
      assert (pad + text)[1..] == pad[1..] + text;
      StripLeftPadding(text, pad[1..]);
    } else {
      assert pad + text == text;
    }
  }

  lemma {:induction false} StripLeftAppend(text: string, pad: string)
    requires forall i :: 0 <= i < |pad| ==> IsSpace(pad[i])
    ensures StripLeftBy(text + pad, IsSpace) == StripLeftBy(text, IsSpace) + pad
      || (StripLeftBy(text, IsSpace) == [] && StripLeftBy(text + pad, IsSpace) == [])
  {
    if text == [] {
      StripLeftPadding([], pad);
      assert pad + [] == pad && [] + pad == pad;
      StripAllSpace(pad);
    } else if IsSpace(text[0]) {
      assert (text + pad)[1..] == text[1..] + pad;
      StripLeftAppend(text[1..], pad);
    }
  }

  lemma {:induction false} StripAllSpace(s: string)
    requires forall i :: 0 <= i < |s| ==> IsSpace(s[i])
    ensures StripLeftBy(s, IsSpace) == []
  {
    if s != [] {
      StripAllSpace(s[1..]);
    }
  }

  lemma {:induction false} StripRightPadding(s: string, pad: string)
    requires forall i :: 0 <= i < |pad| ==> IsSpace(pad[i])
    ensures StripRightBy(s + pad, IsSpace) == StripRightBy(s, IsSpace)
  {
    if pad != [] {
      var t := s + pad;
      assert t[..|t| - 1] == s + pad[..|pad| - 1];
      StripRightPadding(s, pad[..|pad| - 1]);
    } else {
      assert s + pad == s;
    }
  }

  // ---------------------------------------------------------------------
  // The in-memory cache
  // ---------------------------------------------------------------------

  /**
   * `_memory_cache` and `_cache_timestamps`, keyed by `TextKey`, with the
   * `enable_translation_cache` and `translation_cache_expiry_hours` settings.
   */
  datatype MemCache = MemCache(
    enabled: bool,
    expiryHours: real,
    entries: map<string, string>,
    stamps: map<string, real>)

  /** Both maps hold the same keys, as every write and eviction touches both. */
  ghost predicate Consistent(c: MemCache) {
    c.entries.Keys == c.stamps.Keys
  }

  /** An entry stored at `stamp` is still fresh at `now`. */
  predicate Fresh(c: MemCache, stamp: real, now: real) {
    now - stamp < c.expiryHours * 3600.0
  }

  /**
   * `_get_memory_cached_translation`: a hit needs the cache enabled, the key
   * present and its entry younger than the expiry; a present but stale entry
   * is removed from both maps.
   */
  function CacheGet(c: MemCache, text: string, now: real): (r: (Option<string>, MemCache))
    ensures var k := TextKey(text);
      r.0.Some? <==> c.enabled && k in c.entries && k in c.stamps && Fresh(c, c.stamps[k], now)
    ensures r.0.Some? ==> r.0.value == c.entries[TextKey(text)] && r.1 == c
    ensures r.0.None? ==> r.1.entries == c.entries - {TextKey(text)} || r.1 == c
    ensures r.1.enabled == c.enabled && r.1.expiryHours == c.expiryHours
    ensures Consistent(c) ==> Consistent(r.1)
  {
    if !c.enabled then (None, c)
    else
      var k := TextKey(text);
      if k in c.entries then
        if k in c.stamps && Fresh(c, c.stamps[k], now) then (Some(c.entries[k]), c)
        else (None, c.(entries := c.entries - {k}, stamps := c.stamps - {k}))
      else (None, c)
  }

  /** The memory half of `_cache_translation`: nothing when disabled, else store with the current time. */
  function CachePut(c: MemCache, original: string, translated: string, now: real): (r: MemCache)
    ensures !c.enabled ==> r == c
    ensures Consistent(c) ==> Consistent(r)
    ensures r.enabled == c.enabled && r.expiryHours == c.expiryHours
    ensures forall k :: k != TextKey(original) ==> (k in r.entries <==> k in c.entries)
  {
    if !c.enabled then c
    else
      var k := TextKey(original);
      c.(entries := c.entries[k := translated], stamps := c.stamps[k := now])
  }

  /** `clear_memory_cache`. */
  function CacheClear(c: MemCache): (r: MemCache)
    ensures r.entries == map[] && r.stamps == map[]
    ensures r.enabled == c.enabled && r.expiryHours == c.expiryHours
  {
    c.(entries := map[], stamps := map[])
  }

  /** A lookup made before the expiry of a stored entry returns what was stored. */
  lemma GetAfterPut(c: MemCache, original: string, translated: string, stored: real, now: real)
    requires c.enabled
    requires stored <= now && Fresh(c, stored, now)
    ensures CacheGet(CachePut(c, original, translated, stored), original, now) ==
      (Some(translated), CachePut(c, original, translated, stored))
  {
  }

  /** A store under one key leaves lookups of every other key as they were. */
  lemma GetOtherAfterPut(c: MemCache, original: string, translated: string, stored: real, text: string, now: real)
    requires TextKey(text) != TextKey(original)
    ensures CacheGet(CachePut(c, original, translated, stored), text, now).0 == CacheGet(c, text, now).0
  {
  }

  /** Once an entry is stale, the lookup misses and leaves the key in neither map. */
  lemma StaleEntryEvicted(c: MemCache, text: string, now: real)
    requires c.enabled && TextKey(text) in c.entries && TextKey(text) in c.stamps && !Fresh(c, c.stamps[TextKey(text)], now)
    ensures var r := CacheGet(c, text, now);
      r.0 == None && TextKey(text) !in r.1.entries && TextKey(text) !in r.1.stamps
  {
  }

  /** Nothing is found in a cleared cache. */
  lemma GetAfterClear(c: MemCache, text: string, now: real)
    ensures CacheGet(CacheClear(c), text, now) == (None, CacheClear(c))
  {
  }

  /** Consecutive lookups of the same text at the same time agree: a lookup never turns a miss into a hit. */
  lemma GetTwice(c: MemCache, text: string, now: real)
    ensures CacheGet(CacheGet(c, text, now).1, text, now).0 == CacheGet(c, text, now).0
  {
  }

  /**
   * `_get_db_cached_translation`: consulted only when caching is enabled
   * and a database is attached; a row found is also copied into the memory
   * cache with the current time.
   */
  function DbGet(c: MemCache, db: Option<string -> Option<string>>, text: string, now: real): (r: (Option<string>, MemCache))
    ensures r.0.None? ==> r.1 == c
    ensures r.0.Some? ==> c.enabled && db.Some? && r.1 == CachePut(c, text, r.0.value, now)
    ensures Consistent(c) ==> Consistent(r.1)
    ensures r.1.enabled == c.enabled && r.1.expiryHours == c.expiryHours
  {
    if !c.enabled || db.None? then (None, c)
    else
      match db.value(TextKey(text))
      case None => (None, c)
      case Some(v) => (Some(v), CachePut(c, text, v, now))
  }

  // ---------------------------------------------------------------------
  // Pure helpers
  // ---------------------------------------------------------------------

  /** The translator's language guess: empty text is not English. */
  function IsLikelyEnglish(text: string): (english: bool)
    ensures text == [] ==> !english
    ensures text != [] ==> (english <==> 5 * AsciiCount(text) > 4 * |text|)
  {
    if text == [] then false
    else
      RatioAboveFourFifths(AsciiCount(text), |text|);
      AsciiRatio(text) > 0.8
  }

  /** `count / n > 0.8` without division. */
  lemma RatioAboveFourFifths(count: nat, n: nat)
    requires n > 0
    ensures count as real / n as real > 0.8 <==> 5 * count > 4 * n
  {
    var nr := n as real;
    var cr := count as real;
    var r := cr / nr;
    assert r * nr == cr;
    ScaleCompare(r, 0.8, nr);
    assert (5 * count) as real == 5.0 * cr;
    assert (4 * n) as real == 4.0 * nr;
    if r > 0.8 {
      assert cr > 0.8 * nr;
      assert 5.0 * cr > 4.0 * nr;
    }
    if 5 * count > 4 * n {
      assert 5.0 * cr > 4.0 * nr;
      assert cr > 0.8 * nr;
      assert r * nr > 0.8 * nr;
    }
  }

  /** Comparisons survive scaling by a positive factor. */
  lemma ScaleCompare(a: real, b: real, n: real)
    requires n > 0.0
    ensures a > b <==> a * n > b * n
    ensures a < b <==> a * n < b * n
  {
    if a > b {
      assert (a - b) * n > 0.0;
    }
    if a < b {
      assert (b - a) * n > 0.0;
    }
    if a == b {
      assert a * n == b * n;
    }
  }

  /**
   * The two language guesses of the system disagree on empty text, and on
   * non-empty text the engine service's guess is the stricter one.
   */
  lemma EnglishGuessesCompared(text: string)
    ensures text == [] ==> PriorityLayers.IsLikelyEnglish(text) && !IsLikelyEnglish(text)
    ensures text != [] && PriorityLayers.IsLikelyEnglish(text) ==> IsLikelyEnglish(text)
  {
  }

  /** Limit of the text sent to the API: `text[:4000]`. */
  const MaxInput: nat := 4000

  /**
   * `_clean_input_text`: drop backslashes, turn triple newlines into one,
   * then collapse every run of whitespace into a single space.
   */
  function CleanInputText(text: string): (r: string)
    ensures '\\' !in r
    ensures r == [] || (!IsSpace(r[0]) && !IsSpace(r[|r| - 1]))
    ensures forall i :: 0 <= i < |r| && IsSpace(r[i]) ==> r[i] == ' '
  {
    var words := Split(ReplaceAll(RemoveChar(text, '\\'), "\n\n\n", "\n"));
    JoinWordsShape(words);
    var r := Join(" ", words);
    assert '\\' !in r by {
      if '\\' in r {
        JoinChars(" ", words, '\\');
      }
    }
    r
  }

  /** The cleaned text has no run of two whitespace characters. */
  lemma CleanInputTextSingleSpaced(text: string)
    ensures var r := CleanInputText(text);
      forall i :: 0 < i < |r| && IsSpace(r[i]) ==> !IsSpace(r[i - 1])
  {
    var words := Split(ReplaceAll(RemoveChar(text, '\\'), "\n\n\n", "\n"));
    JoinWordsShape(words);
  }

  /** Cleaning is idempotent: a cleaned text is its own cleaning. */
  lemma CleanInputTextIdempotent(text: string)
    ensures CleanInputText(CleanInputText(text)) == CleanInputText(text)
  {
    var r := CleanInputText(text);
    var words := Split(ReplaceAll(RemoveChar(text, '\\'), "\n\n\n", "\n"));
    assert r == Join(" ", words);
    assert RemoveChar(r, '\\') == r;
    forall i | 0 <= i < |r| ensures r[i] != '\n' {
      assert r[i] == '\n' ==> IsSpace(r[i]);
    }
    assert ReplaceAll(r, "\n\n\n", "\n") == r;
    SplitJoin(words);
  }

  /**
   * `_is_valid_translation`; `None` when the length ratio divides by an
   * empty original (Python raises `ZeroDivisionError`).
   */
  function IsValidTranslation(original: string, translated: string): (r: Option<bool>)
    ensures r == Some(true) <==>
      && Strip(translated) != []
      && Lower(original) != Lower(translated)
      && original != []
      && 3 * |original| <= 10 * |translated|
      && |translated| <= 3 * |original|
    ensures r == None <==> original == [] && Strip(translated) != []
  {
    if translated == [] || Strip(translated) == [] then Some(false)
    else if Lower(original) == Lower(translated) then Some(false)
    else if original == [] then None
    else
      var ratio := |translated| as real / |original| as real;
      RatioBounds(|translated|, |original|);
      Some(!(ratio < 0.3 || ratio > 3.0))
  }

  /** `len(t) / len(o)` against the bounds 0.3 and 3.0, without division. */
  lemma RatioBounds(t: nat, o: nat)
    requires o > 0
    ensures var ratio := t as real / o as real;
      && (ratio < 0.3 <==> 10 * t < 3 * o)
      && (ratio > 3.0 <==> t > 3 * o)
  {
    var ratio := t as real / o as real;
    var n := o as real;
    assert ratio * n == t as real;
    RatioBelow(ratio, n, t as real, 0.3);
    RatioAbove(ratio, n, t as real, 3.0);
  }

  lemma RatioBelow(ratio: real, n: real, t: real, b: real)
    requires n > 0.0 && ratio * n == t
    ensures ratio < b <==> t < b * n
  {
    ScaleCompare(ratio, b, n);
  }

  lemma RatioAbove(ratio: real, n: real, t: real, b: real)
    requires n > 0.0 && ratio * n == t
    ensures ratio > b <==> t > b * n
  {
    ScaleCompare(ratio, b, n);
  }

  // ---------------------------------------------------------------------
  // `translate_mongolian_to_english`
  // ---------------------------------------------------------------------

  /** The external calls: the chat-completion API (raw reply text) and the optional database cache. */
  datatype Backends = Backends(
    api: string -> Option<string>,
    db: Option<string -> Option<string>>)

  /** The text sent to the API: truncated to `MaxInput` characters, then cleaned. */
  function ApiInput(text: string): (t: string)
    ensures '\\' !in t
    ensures t == [] || (!IsSpace(t[0]) && !IsSpace(t[|t| - 1]))
    ensures forall i :: 0 <= i < |t| && IsSpace(t[i]) ==> t[i] == ' '
  {
    CleanInputText(Prefix(Strip(text), MaxInput))
  }

  /** The API step: a valid translation is cached and returned, anything else returns the input sent. */
  function CallApi(c: MemCache, be: Backends, sent: string, now: real): (r: (string, MemCache))
    ensures Consistent(c) ==> Consistent(r.1)
    ensures r.1.enabled == c.enabled && r.1.expiryHours == c.expiryHours
  {
    match be.api(sent)
    case None => (sent, c)
    case Some(raw) =>
      var translated := Strip(raw);
      match IsValidTranslation(sent, translated)
      case Some(true) => (translated, CachePut(c, sent, translated, now))
      case _ => (sent, c)
  }

  /**
   * Only a valid translation is cached and returned; on an API error or an
   * invalid reply the text sent is returned and the cache is untouched.
   */
  lemma CallApiOutcome(c: MemCache, be: Backends, sent: string, now: real)
    ensures var r := CallApi(c, be, sent, now);
      || (r == (sent, c) && (be.api(sent).None? || IsValidTranslation(sent, Strip(be.api(sent).value)) != Some(true)))
      || (be.api(sent).Some? && r.0 == Strip(be.api(sent).value)
          && IsValidTranslation(sent, r.0) == Some(true) && r.1 == CachePut(c, sent, r.0, now))
  {
  }

  /**
   * The lookups after the language check, for the stripped text `key`:
   * memory, then database, then the API with the text `sent`.
   */
  function Lookup(c: MemCache, be: Backends, key: string, sent: string, now: real): (r: (string, MemCache))
    ensures Consistent(c) ==> Consistent(r.1)
    ensures r.1.enabled == c.enabled && r.1.expiryHours == c.expiryHours
  {
    var got := CacheGet(c, key, now);
    var c1 := got.1;
    assert c1.enabled == c.enabled && c1.expiryHours == c.expiryHours;
    assert Consistent(c) ==> Consistent(c1);
    if got.0.Some? && got.0.value != [] then (got.0.value, c1)
    else LookupStored(c1, be, key, sent, now)
  }

  /** After a memory miss: the database, then the API. */
  function LookupStored(c: MemCache, be: Backends, key: string, sent: string, now: real): (r: (string, MemCache))
    ensures Consistent(c) ==> Consistent(r.1)
    ensures r.1.enabled == c.enabled && r.1.expiryHours == c.expiryHours
  {
    var got := DbGet(c, be.db, key, now);
    var c2 := got.1;
    assert c2.enabled == c.enabled && c2.expiryHours == c.expiryHours;
    assert Consistent(c) ==> Consistent(c2);
    if got.0.Some? && got.0.value != [] then (got.0.value, c2)
    else CallApi(c2, be, sent, now)
  }

  /** The whole translation call; it never fails, falling back to returning its input. */
  function Translate(c: MemCache, be: Backends, text: string, now: real): (r: (string, MemCache))
    ensures Strip(text) == [] ==> r == (text, c)
    ensures Strip(text) != [] && IsLikelyEnglish(Strip(text)) ==> r == (Strip(text), c)
    ensures Consistent(c) ==> Consistent(r.1)
    ensures r.1.enabled == c.enabled && r.1.expiryHours == c.expiryHours
  {
    if text == [] || Strip(text) == [] then (text, c)
    else if IsLikelyEnglish(Strip(text)) then (Strip(text), c)
    else Lookup(c, be, Strip(text), ApiInput(text), now)
  }

  /**
   * With nothing cached for the text, the result is a valid translation of
   * the cleaned input, which is then cached under that input, or else the
   * cleaned input itself with the cache unchanged apart from eviction.
   */
  lemma TranslateUncached(c: MemCache, be: Backends, text: string, now: real)
    requires Strip(text) != [] && !IsLikelyEnglish(Strip(text))
    requires CacheGet(c, Strip(text), now).0.None?
    requires be.db.None?
    ensures var sent := ApiInput(text);
      var r := Translate(c, be, text, now);
      var c1 := CacheGet(c, Strip(text), now).1;
      || (r.0 == sent && r.1 == c1)
      || (IsValidTranslation(sent, r.0) == Some(true) && r.1 == CachePut(c1, sent, r.0, now))
  {
    var c1 := CacheGet(c, Strip(text), now).1;
    assert Translate(c, be, text, now) == CallApi(c1, be, ApiInput(text), now);
    CallApiOutcome(c1, be, ApiInput(text), now);
  }

  /**
   * The cache key quirk: the lookup uses the stripped text, the store uses
   * the cleaned input. When the two keys differ, a text translated with
   * nothing cached is still not found in memory on the next lookup.
   */
  lemma UncachedStaysUncached(c: MemCache, be: Backends, text: string, now: real, later: real)
    requires Strip(text) != [] && !IsLikelyEnglish(Strip(text))
    requires CacheGet(c, Strip(text), now).0.None?
    requires be.db.None?
    requires TextKey(Strip(text)) != TextKey(ApiInput(text))
    ensures CacheGet(Translate(c, be, text, now).1, Strip(text), later).0.None?
  {
    var sent := ApiInput(text);
    var r := Translate(c, be, text, now);
    var c1 := CacheGet(c, Strip(text), now).1;
    TranslateUncached(c, be, text, now);
    MissStaysMissing(c, Strip(text), now, later);
    if r.1 != c1 {
      GetOtherAfterPut(c1, sent, r.0, now, Strip(text), later);
    }
  }

  /** A miss that evicted (or found nothing) stays a miss at any later time. */
  lemma MissStaysMissing(c: MemCache, text: string, now: real, later: real)
    requires CacheGet(c, text, now).0.None?
    ensures CacheGet(CacheGet(c, text, now).1, text, later).0.None?
  {
  }

  /**
   * An API reply that fails validation, or an API error, is never cached:
   * the call returns the cleaned input and the cache only loses stale entries.
   */
  lemma InvalidTranslationNotCached(c: MemCache, be: Backends, text: string, now: real)
    requires Strip(text) != [] && !IsLikelyEnglish(Strip(text))
    requires CacheGet(c, Strip(text), now).0.None?
    requires be.db.None?
    requires be.api(ApiInput(text)).None?
      || IsValidTranslation(ApiInput(text), Strip(be.api(ApiInput(text)).value)) != Some(true)
    ensures Translate(c, be, text, now) == (ApiInput(text), CacheGet(c, Strip(text), now).1)
  {
    var c1 := CacheGet(c, Strip(text), now).1;
    assert Translate(c, be, text, now) == CallApi(c1, be, ApiInput(text), now);
    CallApiOutcome(c1, be, ApiInput(text), now);
  }

  /** A fresh cached translation is returned without calling the API. */
  lemma TranslateFromMemory(c: MemCache, be: Backends, text: string, now: real)
    requires Strip(text) != [] && !IsLikelyEnglish(Strip(text))
    requires var k := TextKey(Strip(text));
      c.enabled && k in c.entries && k in c.stamps && Fresh(c, c.stamps[k], now) && c.entries[k] != []
    ensures Translate(c, be, text, now) == (c.entries[TextKey(Strip(text))], c)
  {
  }
}

=== FILE: wrappers.dfy ===
/** Optional values: an absent dictionary key, a Python `None`, or a call that raised. */
module Wrappers {

  datatype Option<+T> = None | Some(value: T) {

    /** The value, or `default` when absent (Python's `d.get(key, default)`). */
    function GetOr(default: T): T {
      match this
      case Some(v) => v
      case None => default
    }
  }
}
